=== FILE: README.md ===
# AI Stock Analysis: the analysis pipeline, in Dafny

This project models the deterministic core of a financial-news analyser for
the Indian market. A scraper collects articles. The analyser turns each
article into a record: a sentiment label, lexicon keywords, matched listed
companies, financial figures, an impact category, an investment score and a
relevance score. A dashboard then filters and summarises those records.

The model covers:

- **Article analysis** (`analyzer.py`)
  - text extraction and the minimum-length gate;
  - the sentiment label and the sentence counts;
  - lexicon keywords and their density;
  - company matching: variants, confidence, word context, one match per symbol, top five;
  - financial terms and their density;
  - the relevance score, batch analysis, the relevance filter and the summary insights.
- **Helpers** (`utils.py`)
  - company-name cleaning and variants;
  - Jaccard text similarity;
  - the magnitude and currency number scanner;
  - the impact category and the investment score.
- **Scraper post-processing** (`scraper.py`): title-similarity deduplication and the recency filter.
- **Dashboard logic** (`dashboard.py`): `generate_summary`, the per-article test of `filter_data`, and the counters of `update_summary_cards`.

Each Python dictionary record becomes a datatype:

- an `Article` whose absent keys are `None`;
- an `Analysis` that is either `Rejected` (insufficient content) or `Scored`;
- `CompanyMatch`, `FinancialInfo` and `Summary`.

`Counter` dictionaries become count records, with 0 for an absent key.

Some inputs come from outside the model and become parameters:

- **Sentiment estimator.** The TextBlob/NLTK estimator (polarity, subjectivity, sentence splitting, failure) is a `Sentiment.Estimator` parameter. Its polarity lies in [-1, 1] and its subjectivity in [0, 1].
- **Time.** The current time is `now`, a timestamp in seconds. Publication dates are timestamps. The age in days is the floor of the difference divided by 86400.
- **Variant order.** Python's set iteration order for company variants is a per-company `variantOrder` list. `Matching.EnumeratesVariants` states the list is faithful.

Modules follow the program:

| module | covers |
|---|---|
| `Text` | Python string primitives |
| `Seqs` | comprehensions, reverse sort, `most_common`, insertion-ordered dictionaries |
| `Config` | constants |
| `Sentiment` | sentiment label and counts |
| `Keywords` | lexicon keywords |
| `Numbers` | number scanner |
| `Names` | company names and similarity |
| `Matching` | company matching |
| `Financial` | financial facts |
| `Scoring` | impact and scores |
| `Articles` | the article record |
| `Analyzer` | the analysis pipeline |
| `Insights` | batch summary |
| `Scraper` | deduplication and recency |
| `Dashboard` | dashboard logic |

Where the documentation and the code differ, the model follows the code:

- **Suffix removal.** `clean_company_name` deletes each listed suffix wherever it occurs, not only at the end. The `" co"` inside "tata consultancy" is removed, so "Tata Consultancy Services" cleans to "tatansultancy services" (`Names.TataConsultancy`).
- **Cleaning twice.** Cleaning is not idempotent in general: "a b.co" cleans to "a b co", which cleans again to "a b". `Names.CleanIdempotent` carries the precondition that the first pass left no pattern behind.
- **Thousands separators.** The magnitude patterns cannot read them. In "75,000 crores" only the "000" after the comma is captured, so "Rs 75,000 crores" yields the single number 0 (`Numbers.SeventyFiveThousandCrores`). The currency patterns do read them and delete the commas: "₹ 75,000" yields 75000 (`Numbers.RupeeSeventyFiveThousand`).
- **The `k` alternative.** The thousands pattern has no word boundary after `k`, so the `k` of "kg" completes it and "5 kg" yields the number 5. No capture is scaled by its unit (`Numbers.FiveKilograms`).
- **Failed sentiment estimate.** The record carries an error and still has every score. So it is relevance-filtered like any other record, and it is left out of the summaries.
- **Future dates.** A publication date in the future gives a recency share above 0.2.
- **Whitespace-only text.** The financial density tests that the text is non-empty, not that it has words, so such a text would divide by zero. Callers always pass stripped content.

## Model

| member | source | states |
|---|---|---|
| Analyzer.ArticleId | analyzer.py:59 | the id is the `url` when present, else the `link`, else empty |
| Analyzer.ContentParts | analyzer.py:105-110 | the parts are exactly the non-empty fields among content, description, summary and title, in that order |
| Analyzer.ContentJoined | analyzer.py:103-112 | when no part has surrounding whitespace, the content is the parts joined by single spaces, one space between each two |
| Analyzer.ExtractContent | analyzer.py:103-112 | the content has no leading or trailing whitespace, and is empty exactly when every non-empty field is whitespace alone |
| Analyzer.ContentOfBodyOnly | analyzer.py:103-112 | an already-stripped body that is the only non-empty field is the content itself |
| Analyzer.HeaderOf | analyzer.py:58-64 | `article_id` and `url` agree with the url/link choice; title and source default to empty; the date is carried over |
| Analyzer.AnalyzeArticle | analyzer.py:56-101 | rejected exactly when the content is shorter than 100 characters; a scored record keeps the content length; it has company results exactly when a company table was given; the investment score is in [0,1] and the relevance in [0.01,1]; it carries an error exactly when the sentiment estimator fails |
| Analyzer.FailedSentimentIsNeutral | analyzer.py:147-154 | after a failed sentiment estimate, the label and the impact category are Neutral |
| Analyzer.ImpactAgreesWithLabel | analyzer.py:92-96 | a highly positive impact implies a Positive label, a positive impact a non-Negative one, and symmetrically for negative impacts |
| Analyzer.BatchAnalyze | analyzer.py:344-363 | exactly one record per input article, in input order, each identified by its article's id |
| Analyzer.FilterRelevant | analyzer.py:365-379 | keeps exactly the records whose relevance reaches the threshold (0.3 by default), as a permutation of the filtered list, sorted by relevance descending |
| Analyzer.FilterRelevantIdempotent | analyzer.py:365-379 | filtering the filtered list again with the same threshold returns it unchanged |
| Sentiment.LabelOf | analyzer.py:156-163 | Positive iff polarity > 0.1, Negative iff polarity < -0.1, Neutral iff polarity is in [-0.1, 0.1] |
| Sentiment.SentencePolarities | analyzer.py:127-130 | one polarity per sentence of more than three words, in sentence order |
| Sentiment.ClassesPartition | analyzer.py:133-135 | the positive, negative and neutral sentence counts add up to the number of scored sentences |
| Sentiment.ClassesAgreeWithLabels | analyzer.py:133-134 | each sentence count uses the same thresholds as the document label |
| Sentiment.AnalyzeSentiment | analyzer.py:114-154 | fails exactly when the estimator raises, then scoring 0 and Neutral; otherwise the label of the document polarity, the estimator's polarity of each sentence of more than three words in sentence order, and sentence counts that are consistent with one another and with those polarities |
| Sentiment.SentenceCounts | analyzer.py:124-135 | the positive, negative and neutral counts are the numbers of sentences of more than three words whose own polarity is above 0.1, below -0.1, and in between |
| Keywords.MatchCategory | analyzer.py:174-181 | duplicate-free; holds exactly the lexicon phrases of the category that occur case-insensitively in the text |
| Keywords.Occurs | analyzer.py:176 | the case-insensitive containment test: an empty phrase always occurs, and an occurring phrase is no longer than the text |
| Keywords.ExtractKeywords | analyzer.py:165-192 | every category list is duplicate-free and holds exactly its occurring phrases; the total is the sum of the list lengths; the density is total per word, and 0 for a text without words |
| Keywords.KeywordsIgnoreCase | analyzer.py:167-177 | a text and its lower-cased form yield the same keywords and total |
| Matching.WindowMembers | analyzer.py:280-283 | the window holds exactly the words at most `window` positions from the match position |
| Matching.AroundMembers | analyzer.py:270-285 | a word is in the context exactly when it lies within the window of some word containing the match |
| Matching.WordsAround | analyzer.py:270-285 | a word is among the words around the match exactly when it lies within the window of some word of the text that contains the match |
| Matching.ContextHits | analyzer.py:255-261 | the context words counted are exactly those of the context list present around the match, in the list's order, and none twice when the list has no repetitions |
| Matching.Confidence | analyzer.py:240-268 | the confidence lies in [-0.5, 1.0] |
| Matching.SpacedVariantNoContext | analyzer.py:272-277 | a variant containing whitespace has no context words, since no single word contains it |
| Matching.ConfidenceWithFullName | analyzer.py:247-253 | a non-common variant that occurs alongside the full name scores at least 0.7 |
| Matching.CommonWordPenalty | analyzer.py:263-266 | a common-word variant without the full name scores at most 0.6, and at most 0.3 with fewer than three context words |
| Matching.Candidates | analyzer.py:207-209 | the candidates are the variants followed by the symbol, when there is one |
| Matching.Scan | analyzer.py:212-224 | finds the first candidate accepted, with none accepted before it, or reports that none is accepted |
| Matching.FirstMatch | analyzer.py:199-224 | a company without a name gives nothing; a match carries the company's symbol and name, an accepted candidate and its confidence, and no earlier candidate is accepted; no match means no candidate is accepted |
| Matching.CandidatesAreVariants | analyzer.py:206-209 | with a faithful variant order, every candidate is a variant of the name or the symbol |
| Matching.MatchedVariantIsVariant | analyzer.py:206-209 | with a faithful variant order, the matched variant is a variant of the name or the symbol |
| Matching.AllMatches | analyzer.py:196-224 | at most one match per company; every match passes the inclusion test (confidence > 0.3, more than two characters, occurs); every company's match is present |
| Matching.MatchCompanies | analyzer.py:194-238 | every entry is some company's match and passes the inclusion test; at most one entry per symbol; sorted by confidence descending; at most five entries, fewer only when every matched symbol is listed; the count is the number of distinct matched symbols |
| Matching.Ranked | analyzer.py:226-233 | the deduplicated matches: each some company's match, distinct symbols, sorted by confidence descending, and every company's match dominated by its symbol's entry |
| Matching.RankedCount | analyzer.py:227-237 | the deduplicated list has one entry per distinct matched symbol |
| Matching.MatchCompaniesTop | analyzer.py:226-236 | a matching company's symbol is listed with at least its confidence, or five entries are listed and the fifth is at least as confident |
| Matching.MatchedCompanyListed | analyzer.py:227-237 | when at most five symbols match, each matching company's symbol is listed with at least the confidence of its own match |
| Seqs.Distinct | analyzer.py:180-181 | duplicate-free, with exactly the elements of the input |
| Seqs.SortDesc | analyzer.py:377 | a permutation of the input, sorted by the key descending |
| Seqs.SortDescOfSorted | analyzer.py:377 | sorting an already sorted list changes nothing |
| Seqs.Upsert | analyzer.py:229-231 | keys stay distinct; at most one entry is added; the new element and every old entry are dominated by their key's entry; entries of other keys are untouched; an element not scoring strictly higher than its key's entry changes nothing |
| Seqs.KeysCard | analyzer.py:233-237 | a list with distinct keys has as many keys as entries |
| Seqs.UniqueByKey | analyzer.py:227-231 | one entry per key, drawn from the input, each scoring at least as high as every input element with that key |
| Seqs.RankUnique | analyzer.py:227-233 | distinct keys, sorted by score descending, every input element dominated by its key's entry |
| Seqs.MostCommon | analyzer.py:420-421 | at most n entries, each a distinct element of the input with its true positive count, sorted by count descending |
| Seqs.MostCommonTop | analyzer.py:420-421 | an element left out of `most_common(n)` occurs no more often than the last entry listed |
| Financial.TermsIn | analyzer.py:304-308 | a subsequence of the vocabulary holding exactly the terms that occur in the lower-cased text |
| Financial.TermsIgnoreCase | analyzer.py:305-307 | a text and its lower-cased form mention the same terms |
| Financial.InfoWith | analyzer.py:304-314 | the density is the number of terms per word, and a non-empty text that is not all whitespace has words |
| Financial.ExtractFinancialInfo | analyzer.py:287-315 | numbers from the unit scanner, percentages from the percent scanner, the terms present in vocabulary order, and their density |
| Numbers.DecimalValue | utils.py:197 | the value lies between the integer part and the next integer |
| Numbers.FirstAlternative | utils.py:184-188 | finds an alternative that occurs at the position, case-insensitively, or reports that none does |
| Numbers.MatchAt | utils.py:183-191 | a match consumes at least one character, captures a non-negative value and needs a digit |
| Numbers.NumberAt | utils.py:184-188 | the number `\d+(?:\.\d+)?` starting at a digit ends after that digit and within the text, and its value is non-negative |
| Numbers.GroupedNumberAt | utils.py:189-190 | the number `\d+(?:,\d+)*(?:\.\d+)?` ends within the text, after its first character when that is a digit, and its value is non-negative |
| Numbers.CurrencyMatchAt | utils.py:189-190 | a currency match starts with the symbol, finds a digit right after the whitespace that follows it, and captures a non-negative value |
| Numbers.FindAllPatterns | utils.py:194-204 | every value found by the patterns is non-negative, and a text without a digit yields none |
| Numbers.FindAll | utils.py:193-195 | every value is non-negative, and there are at most as many values as characters searched |
| Numbers.FindAllNoDigit | utils.py:193-195 | a text with no digit from the start position yields nothing |
| Numbers.FindAllFirst | utils.py:195 | the search reports the capture of the first match at or after its start and resumes where that match ends |
| Numbers.FindAllNone | utils.py:195 | without a match at or after its start the search finds nothing |
| Numbers.PercentagesFirst | analyzer.py:292-294 | the percentages begin with the capture of the first percentage match and continue after its end |
| Numbers.PercentagesNone | analyzer.py:292-294 | a text without a percentage match has no percentages |
| Numbers.ExtractNumbersGrouped | utils.py:193-204 | the numbers come grouped by pattern, in the order crore, lakh, thousand, million, billion, rupee, dollar |
| Numbers.ExtractNumbers | utils.py:180-204 | every number is non-negative; a text without a digit yields none |
| Numbers.ExtractPercentages | analyzer.py:292-294 | every percentage is non-negative; a text without a digit yields none |
| Numbers.MagnitudeCapture | utils.py:184-188 | a maximal digit run, an optional fraction, whitespace and an alternative occurring there form a match capturing that decimal number and ending after the alternative |
| Numbers.CurrencyCapture | utils.py:189-199 | the symbol, whitespace, a digit run, comma groups of digits and an optional fraction form a match capturing that number with its commas deleted, ending after the fraction |
| Numbers.GroupedNumberSpan | utils.py:189-199 | the grouped number read from a digit captures exactly the comma-free digits and fraction and ends where they end |
| Numbers.DigitAfterSpan | utils.py:189-190 | whitespace followed by a digit leads the currency pattern to that digit |
| Numbers.GroupsDropCommas | utils.py:199 | deleting the commas from comma-joined groups without commas concatenates the groups |
| Numbers.RupeeMatch | utils.py:189-199 | the rupee pattern matches all of "₹ 75,000" and captures 75000 |
| Numbers.RupeeSeventyFiveThousand | utils.py:180-204 | "₹ 75,000" yields exactly the number 75000 |
| Numbers.SeventyFiveThousandCrores | utils.py:180-204 | "Rs 75,000 crores" yields exactly the number 0 |
| Numbers.FiveKilograms | utils.py:180-204 | "5 kg" yields exactly the number 5 |
| Numbers.MagnitudeStopsAtComma | utils.py:184-188 | digits followed directly by a comma never start a magnitude match |
| Numbers.ThousandMatchesAnyK | utils.py:186 | any word starting with `k` after a number completes the thousands suffix |
| Numbers.PercentSignMatches | analyzer.py:292 | a `%` after a number and optional whitespace completes the percentage suffix |
| Text.RemoveAll | utils.py:86 | deleting never lengthens the text and keeps only its characters; it changes nothing when the pattern does not occur, and removes at least one pattern's length when it does |
| Text.RemoveAllKeepsPrefix | utils.py:86 | text in which the pattern does not start is kept as it is |
| Text.RemoveAllFirst | utils.py:86 | the first occurrence is deleted: the text before it is kept and the deletion resumes after it |
| Names.RemovePatterns | utils.py:84-86 | deleting never lengthens the name and keeps only its characters; it changes nothing when no pattern occurs, and removes at least the length of the first pattern that occurs |
| Names.RemovePatternsSplit | utils.py:85-86 | deleting the patterns in one pass equals deleting the first ones, then the rest |
| Names.TataConsultancy | utils.py:71-92 | "Tata Consultancy Services" cleans to "tatansultancy services" |
| Names.Tidy | utils.py:89-90 | the result is single-spaced, made of word characters and spaces, with no new non-space characters, and has exactly the words of the text once its punctuation became spaces |
| Names.TidyJoinsWords | utils.py:89-90 | the tidied text is the words of the punctuation-free text joined by single spaces |
| Names.CleanCompanyName | utils.py:71-92 | the cleaned name is lower-case, single-spaced, stripped, and made of word characters and spaces; its words are those of the lower-cased name with the suffixes deleted and punctuation turned into spaces |
| Names.RelianceIndustries | utils.py:71-92 | "Reliance Industries Ltd." cleans to "reliance industries" |
| Names.Partial | utils.py:112 | for a list of words, the partial name splits back into the first three words, or all of them when there are fewer |
| Names.CleanFixesClean | utils.py:71-92 | a name already clean and free of the patterns is its own cleaned form |
| Names.CleanIdempotent | utils.py:84-90 | cleaning twice equals cleaning once when the first pass leaves no pattern behind |
| Names.Acronym | utils.py:106 | one upper-cased initial per non-empty word |
| Names.VariantsFrom | utils.py:96-113 | always the name; the cleaned form when it is non-empty and differs from the lower-cased name; the acronym and the first up-to-three words when there are at least two words; nothing else |
| Names.Variants | utils.py:94-115 | the same for the name's own cleaned form |
| Names.PartialOfShortName | utils.py:110-113 | with at most three cleaned words, the partial variant is the cleaned name |
| Names.TokenSet | utils.py:122-123 | the tokens are exactly the words of the lower-cased text: non-empty, without whitespace or upper-case letters |
| Names.SimilarityIgnoresCase | utils.py:117-128 | lower-casing either text first does not change the similarity |
| Text.SplitNoUpper | utils.py:122 | the words of a text without upper-case letters have none either |
| Text.Split | utils.py:104 | every item is a non-empty run without whitespace, and there are none exactly when the text is all whitespace |
| Text.SplitJoin | utils.py:112 | words joined by single spaces split back into the same words |
| Text.Strip | utils.py:90 | a slice of the text that begins after its leading whitespace, neither starts nor ends with whitespace, and is empty exactly for an all-whitespace text |
| Text.PunctToSpace | utils.py:89 | same length; word and whitespace characters are kept and every other character becomes a space |
| Text.Collapse | utils.py:90 | empty exactly for an empty text; every whitespace character becomes a space, no two spaces are adjacent, and no new non-space character appears |
| Text.SplitCollapse | utils.py:90 | collapsing whitespace keeps the words of the text |
| Text.SplitStrip | utils.py:90 | stripping keeps the words of the text |
| Names.TextSimilarity | utils.py:117-128 | 0 when either text is empty, otherwise the Jaccard index of the lower-cased token sets; always in [0,1] |
| Names.SimilaritySymmetric | utils.py:117-128 | similarity does not depend on the order of the two texts |
| Names.SimilarityOne | utils.py:122-128 | the similarity is 1 exactly when both texts are non-empty with the same non-empty token set |
| Scoring.ImpactCategory | utils.py:206-220 | Neutral when the sentiment is within ±0.05 or no positive or negative keyword is found; a positive sentiment never gives a negative category, and conversely; each category implies the conditions of its branch; the branches are tried in source order and the first whose condition holds decides |
| Scoring.DaysOld | utils.py:247 | the whole number of days elapsed, rounded down: the age lies within that many days and one more; it is negative exactly for a future date |
| Scoring.ImpactMirror | utils.py:211-220 | swapping the keyword counts and negating the sentiment mirrors the category |
| Scoring.SentimentPart | utils.py:226-229 | the sentiment share lies in [0, 0.4] |
| Scoring.KeywordPart | utils.py:231-242 | the keyword share lies in [0, 0.3] and reaches the cap with three positive or negative keywords |
| Scoring.RecencyPart | utils.py:244-249 | 0 without a date or a week or more after it; at most 0.2 for a past date; above 0.2 for a future date |
| Scoring.SourcePart | utils.py:251-255 | 0.1 exactly for a credible source, else 0 |
| Scoring.InvestmentScore | utils.py:222-257 | the score lies in [0, 1] |
| Scoring.CredibleSourceBonus | utils.py:251-257 | a credible source adds exactly 0.1 before the cap |
| Scoring.StaleIsUndated | utils.py:245-249 | an article a week old or older scores as an undated one |
| Scoring.RecencyMonotone | utils.py:245-249 | a newer article never scores lower than an older one |
| Scoring.RelevanceScore | analyzer.py:317-342 | the relevance lies in [0, 1] and is at least 0.01 for 100 characters or more |
| Scoring.RelevanceMonotone | analyzer.py:317-342 | more keywords, companies, financial density, length or sentiment strength never lower the relevance |
| Scoring.RelevanceOfBareText | analyzer.py:337-340 | without other signals the relevance is the length share, at most 0.1 and exactly 0.1 from 1000 characters |
| Insights.AnalyzedInRange | analyzer.py:92-99 | every analysed record has its investment and relevance scores in [0, 1] |
| Insights.LabelDistribution | analyzer.py:393-394 | each label's count is its number of occurrences, and the counts add up to the number of labels |
| Insights.LabelsPartition | analyzer.py:393-394 | every label is counted exactly once |
| Insights.ImpactDistribution | analyzer.py:397-398 | each category's count is its number of occurrences, and the counts add up to the number of records |
| Insights.ImpactsPartition | analyzer.py:397-398 | every impact category is counted exactly once |
| Insights.CompanySymbols | analyzer.py:401-404 | the symbols listed are exactly the symbols of the records' matches: each comes from some match, and every match's symbol is listed |
| Insights.AnalyzedDistinct | analyzer.py:174-233 | a record built by the analyser lists each matched symbol once and each found keyword once per category |
| Insights.MentionCount | analyzer.py:401-406 | for such records, a symbol occurs in the tallied list once per record that mentions it |
| Insights.KeywordPairsOf | analyzer.py:415-418 | the pairs are exactly the found keywords with their categories, one pair per keyword of each list; a rejected record has none |
| Insights.KeywordPairsDistinct | analyzer.py:415-418 | a record listing each keyword once per category yields no pair twice |
| Insights.KeywordPairs | analyzer.py:414-418 | the tallied pairs are exactly the (keyword, category) pairs found by some record |
| Insights.KeywordCount | analyzer.py:414-420 | for records built by the analyser, a pair occurs in the tallied list once per record that found it |
| Insights.AveragesInRange | analyzer.py:409-411 | when every record is in range, so are the average relevance and investment scores |
| Insights.SummaryInsights | analyzer.py:381-434 | distinguishes no articles from no valid articles; the valid count is the number of records without an error; the sentiment and impact distributions are the label and impact counts of the valid records, and both add up to the valid count; the averages of sentiment, relevance and investment score are the means over the valid records; at most 10 companies and 15 keywords, each listed once with its true positive count among the valid records, sorted by count descending; the average sentiment is in [-1, 1]; the highly relevant count is the number of valid records with relevance above 0.6 |
| Insights.SummaryTopCompanies | analyzer.py:401-406 | a symbol some valid record mentions is listed with its count, unless ten symbols at least as frequent fill the list |
| Insights.SummaryTopKeywords | analyzer.py:414-421 | a pair some valid record found is listed with its count, unless fifteen pairs at least as frequent fill the list |
| Insights.SummaryCountsArticles | analyzer.py:401-421 | for records built by the analyser, each top company's count is the number of valid articles mentioning it, and each top keyword's count the number of valid articles that found it |
| Scraper.NormTitle | scraper.py:242 | the normalised title has no upper-case letter, and is empty exactly when the title is missing or blank |
| Scraper.TitleSimilarity | scraper.py:249 | the title similarity lies in [0, 1] |
| Scraper.TitleSimilarityIsTextSimilarity | scraper.py:249 | on non-blank normalised titles, the duplicate test is the same Jaccard index as `calculate_text_similarity` |
| Scraper.DedupBy | scraper.py:238-258 | a subsequence of the input, every element accepted, no element near an earlier kept one |
| Scraper.DedupByMaximal | scraper.py:246-256 | what was kept before an accepted element begins the result; the element is kept right after it when it is near none of those, and otherwise it is near one of those earlier kept elements |
| Scraper.DedupByOfApart | scraper.py:246-256 | an input already accepted and pairwise apart passes unchanged |
| Scraper.DedupByKeepsFirst | scraper.py:241-256 | the first accepted element is kept, first |
| Scraper.RemoveDuplicates | scraper.py:233-258 | a subsequence of the input in original order; no blank titles; no two kept titles more than 70% similar |
| Scraper.RemoveDuplicatesMaximal | scraper.py:246-256 | the articles kept before an article with a title begin the result; it is kept right after them unless it is more than 70% similar to one of them, and otherwise it is |
| Scraper.RemoveDuplicatesIdempotent | scraper.py:233-258 | removing duplicates twice equals removing them once |
| Scraper.RemoveDuplicatesKeepsFirst | scraper.py:241-256 | the first article with a non-blank title is always kept, first |
| Scraper.FilterRecent | scraper.py:260-273 | a subsequence; undated articles are kept; a dated article is kept exactly when it is not older than the cutoff; every copy of a kept article is kept, so each article occurs as often as in the input or not at all |
| Scraper.FilterRecentWiden | scraper.py:260-268 | a longer look-back keeps everything a shorter one keeps |
| Dashboard.MeanOrZero | dashboard.py:314-316 | the average of no records is 0 |
| Dashboard.GenerateSummary | dashboard.py:298-326 | empty exactly for no records; counts the records and the valid ones; the sentiment and impact distributions are the label and impact counts of the valid records, and both add up to the valid count; with valid records the averages are the means of sentiment, relevance and investment score over them; the average sentiment is in [-1, 1]; all averages are 0 without valid records |
| Dashboard.SummariesAgree | dashboard.py:298-326 | with a valid record, the dashboard summary and the analyser's summary agree on every shared figure |
| Dashboard.LabelField | dashboard.py:218 | a record has no label exactly when it was rejected |
| Dashboard.FilterData | dashboard.py:194-230 | a subsequence of the input; keeps exactly the entries not dated before the cutoff, with the selected label and at least the minimum relevance, each as often as it occurs in the input; the summary is that of the kept records |
| Dashboard.Keep | dashboard.py:205-224 | the per-entry test: a label selection passes only scored records with that label; without a parsed date and with all labels selected, an entry passes exactly when its relevance reaches the minimum |
| Dashboard.FilterDataIdempotent | dashboard.py:205-225 | filtering the filtered entries with the same selections changes nothing |
| Dashboard.LabelFilterDropsRejected | dashboard.py:217-219 | a label filter keeps only scored records carrying the selected label |
| Dashboard.SymbolSet | dashboard.py:254-257 | a symbol is in the set exactly when some record has a match with that symbol |
| Dashboard.PositivePercent | dashboard.py:259-262 | the share lies in [0, 100]; it is 0 without valid records or positive labels, and 100 exactly when every counted label is Positive |
| Dashboard.SummaryCards | dashboard.py:242-273 | all zero for no records; the relevant count is the number of records with relevance above 0.5 and the high-impact count the number of scored records with investment score above 0.7; the positive share is in [0, 100]; the company count is the number of distinct matched symbols |
| Dashboard.CardsAgree | dashboard.py:259-262 | with a valid record, the cards show the analyser's average sentiment, and the positive share is its Positive count over its valid count, in percent |
| Dashboard.AllPositiveCards | dashboard.py:259-262 | the positive card shows 100% exactly when some record is valid and every valid record is Positive |

## Left out

- **Network and parsing.** Fetching pages, retries, RSS and Google search, article extraction and content enrichment in `scraper.py` are I/O and foreign libraries. The model starts from the article records they produce.
- **Sentiment estimation and sentence splitting.** TextBlob and NLTK are third-party code. They become the `Sentiment.Estimator` parameter, whose ranges are enforced by its types.
- **The batch exception branch** (analyzer.py:353-361). It catches inputs the model's types exclude: a company name that is not a string (a NaN name passes the test at analyzer.py:203 and fails at `len(variant)` on analyzer.py:213), and a publication date that cannot be subtracted from the naive current time (utils.py:247), such as a time-zone-aware one. With names as strings and dates as timestamps every step is total, so the error record with its `article_{i}` fallback id is not modelled.
- **The in-place lexicon extension.** The analyser's constructor appends terms to the shared lists. It is folded once into the `Config` lexicon. Repeated construction only adds duplicates, and keyword matching removes duplicates.
- **Keyword order.** `list(set(...))` order is unspecified; `Keywords.MatchCategory` returns lexicon order.
- **Unicode.** `\d`, `\w` and lower-casing are modelled on ASCII. Whitespace is Python's full `str.isspace` set.
- **Float conversion.** `float(...)` of a captured number is an exact real; floating-point rounding is not modelled.
- **Missing company names.** An absent `company_name` is the empty name, which the matcher skips (analyzer.py:200-204). A NaN name is not a string, so it is not representable: the cleaner would map it to the empty string (utils.py:73-74), while the matcher raises on it, as described above.
- **Dates.** The dashboard's `fromisoformat` parsing becomes the three-way `Dashboard.DateField`: no date, a timestamp, or a date that fails to parse or compare.
- **Dashboard rendering.** Layout, callbacks, charts, CSV and JSON loading and saving, logging, random delays, user agents and `normalize_date` are UI and I/O.
- **Glue code.** `main.py`, the demo, tests-as-scripts and setup are left out.
- Insights.SummaryInsights: averages are exact means; the source rounds them to three decimals.
- Dashboard.GenerateSummary: averages are exact means; the source rounds them to three decimals.
- Dashboard.SummaryCards: the positive share is exact; the source rounds it to one decimal and formats every card as text.
- Numbers.ThousandMatchesAnyK states only the suffix step; with `Numbers.MagnitudeCapture` it gives the whole match.
- Numbers.PercentSignMatches states only the suffix step; with `Numbers.MagnitudeCapture` it gives the whole match.
- Seqs.SortDesc: the order among equal keys is not stated; Python's sort keeps them in input order.
- Analyzer.FilterRelevant: records of equal relevance are not stated to keep their input order.
- Matching.Confidence states only the range; its branches are pinned down by `Matching.ConfidenceWithFullName`, `Matching.CommonWordPenalty` and `Matching.SpacedVariantNoContext`.
- Numbers.NumberAt states only where the match ends and the sign of the value; the value itself is pinned down by `Numbers.MagnitudeCapture`.
- Numbers.GroupedNumberAt states only where the match ends and the sign of the value; the value itself is pinned down by `Numbers.GroupedNumberSpan`.
- Numbers.CurrencyMatchAt states where the match starts and where its digits begin; the captured value is pinned down by `Numbers.CurrencyCapture`.
- Numbers.FindAllPatterns states the sign of the values and the digit-free case only; the values of whole matches are pinned down by `Numbers.MagnitudeCapture` and `Numbers.CurrencyCapture`.
- Keywords.Occurs states the empty-phrase and length facts; case-insensitivity is stated by `Keywords.KeywordsIgnoreCase`.
- Dashboard.Keep states two consequences of the test; the full test is stated by `Dashboard.FilterData`.

=== FILE: analyzer.dfy ===
/** The article pipeline of the news analyzer: text extraction, the
    per-article record (`analyze_article`), batch analysis, relevance
    filtering and the summary over a batch (`generate_summary_insights`). */
module Analyzer {
  import opened Text
  import opened Seqs
  import opened Wrappers
  import Config
  import Sentiment
  import Keywords
  import Matching
  import Financial
  import Scoring
  import opened Articles

  /** `article.get('url', article.get('link', ''))` */
  function ArticleId(a: Article): (id: string)
    ensures a.url.Some? ==> id == a.url.value
    ensures a.url.None? && a.link.Some? ==> id == a.link.value
    ensures a.url.None? && a.link.None? ==> id == []
  {
    match a.url
    case Some(u) => u
    case None => a.link.GetOr([])
  }

  /** A field that is present and non-empty, as a list of at most one part. */
  function Part(field: Option<string>): (r: seq<string>)
    ensures |r| <= 1
    ensures r != [] <==> field.Some? && field.value != []
    ensures r != [] ==> r[0] == field.value
  {
    if field.Some? && field.value != [] then [field.value] else []
  }

  predicate NonEmpty(f: string) {
    f != []
  }

  /** The text fields in the order content, description, summary, title,
      a missing field read as empty. */
  function TextFields(a: Article): seq<string> {
    [a.content.GetOr([]), a.description.GetOr([]), a.summary.GetOr([]), a.title.GetOr([])]
  }

  /** The non-empty text fields, in the order content, description,
      summary, title. */
  function ContentParts(a: Article): (r: seq<string>)
    ensures forall i :: 0 <= i < |r| ==> r[i] != []
    ensures |r| <= 4
    ensures r == Filter(TextFields(a), NonEmpty)
  {
    ContentPartsFiltered(a);
    Part(a.content) + Part(a.description) + Part(a.summary) + Part(a.title)
  }

  /** A present, non-empty field is a part; any other field is not. */
  lemma PartFilter(field: Option<string>, rest: seq<string>)
    ensures Filter([field.GetOr([])] + rest, NonEmpty) == Part(field) + Filter(rest, NonEmpty)
  {
    assert ([field.GetOr([])] + rest)[1..] == rest;
  }

  lemma ContentPartsFiltered(a: Article)
    ensures Part(a.content) + Part(a.description) + Part(a.summary) + Part(a.title)
         == Filter(TextFields(a), NonEmpty)
  {
    var c, d, s, t := a.content, a.description, a.summary, a.title;
    var f3 := [t.GetOr([])];
    var f2 := [s.GetOr([])] + f3;
    var f1 := [d.GetOr([])] + f2;
    assert TextFields(a) == [c.GetOr([])] + f1;
    assert f3 == f3 + [];
    calc {
      Filter(TextFields(a), NonEmpty);
      { PartFilter(c, f1); }
      Part(c) + Filter(f1, NonEmpty);
      { PartFilter(d, f2); }
      Part(c) + (Part(d) + Filter(f2, NonEmpty));
      { PartFilter(s, f3); }
      Part(c) + (Part(d) + (Part(s) + Filter(f3, NonEmpty)));
      { PartFilter(t, []); }
      Part(c) + (Part(d) + (Part(s) + Part(t)));
      Part(c) + Part(d) + Part(s) + Part(t);
    }
  }

  /** `_extract_text_content`: the non-empty fields joined by single
      spaces, stripped. */
  function ExtractContent(a: Article): (r: string)
    ensures r == [] || (!IsSpace(r[0]) && !IsSpace(r[|r| - 1]))
    ensures r == [] <==> forall i :: 0 <= i < |ContentParts(a)| ==> AllSpace(ContentParts(a)[i])
  {
    JoinAllSpace(ContentParts(a));
    Strip(Join(ContentParts(a), " "))
  }

  /** When every field present is free of surrounding whitespace, the
      content is the present fields joined by single spaces, one space
      between each two. */
  lemma ContentJoined(a: Article)
    requires forall i :: 0 <= i < |ContentParts(a)| ==>
      !IsSpace(ContentParts(a)[i][0]) && !IsSpace(ContentParts(a)[i][|ContentParts(a)[i]| - 1])
    ensures ExtractContent(a) == Join(ContentParts(a), " ")
    ensures ContentParts(a) != [] ==>
      |ExtractContent(a)| == TotalLength(ContentParts(a)) + |ContentParts(a)| - 1
  {
    var parts := ContentParts(a);
    StripJoin(parts, " ");
    if parts != [] {
      JoinLength(parts, " ");
    }
  }

  /** An article whose body is its only text field, already stripped, has
      that body as its content. */
  lemma ContentOfBodyOnly(a: Article)
    requires a.content.Some? && a.content.value != []
    requires !IsSpace(a.content.value[0]) && !IsSpace(a.content.value[|a.content.value| - 1])
    requires Part(a.description) == [] && Part(a.summary) == [] && Part(a.title) == []
    ensures ExtractContent(a) == a.content.value
  {
    var c := a.content.value;
    assert ContentParts(a) == [c];
    assert LeadingSpaces(c) == 0;
    assert TrailingSpaces(c) == 0;
  }

  /** The identifying fields every record carries. */
  datatype Header = Header(articleId: string, title: string, source: string,
                           publishedDate: Option<int>, url: string)

  function HeaderOf(a: Article): (h: Header)
    ensures h.articleId == h.url == ArticleId(a)
    ensures h.title == a.title.GetOr([]) && h.source == a.source.GetOr([])
    ensures h.publishedDate == a.publishedDate
  {
    Header(ArticleId(a), a.title.GetOr([]), a.source.GetOr([]), a.publishedDate, ArticleId(a))
  }

  /** The record `analyze_article` builds: either rejected for too little
      text (`error: 'Insufficient content'`) or scored. */
  datatype Analysis =
    | Rejected(header: Header)
    | Scored(header: Header, contentLength: nat, sentiment: Sentiment.SentimentResult,
             keywords: Keywords.KeywordResult, companies: Option<Matching.CompanyResult>,
             financial: Financial.FinancialInfo, investmentScore: real,
             impact: Scoring.Impact, relevance: real)
  {
    /** Whether the record has an `error` key: rejected, or scored after
        the sentiment estimator failed. */
    predicate HasError() {
      Rejected? || sentiment.Failed?
    }

    /** `relevance_score`, 0 when absent. */
    function Relevance(): real {
      if Scored? then relevance else 0.0
    }

    /** `company_count`, 0 when no company table was given. */
    function CompanyCount(): nat
      requires Scored?
    {
      match companies
      case Some(c) => c.count
      case None => 0
    }
  }

  function RelevanceOf(a: Analysis): real {
    a.Relevance()
  }

  /** `analyze_article(article, companies_df)`: the sentiment estimator
      and the current time (`now`, seconds) are parameters. */
  function AnalyzeArticle(a: Article, companies: Option<seq<Matching.Company>>,
                          est: Sentiment.Estimator, now: int): (r: Analysis)
    ensures r.header == HeaderOf(a)
    ensures r.Rejected? <==> |ExtractContent(a)| < Config.MinArticleLength
    ensures r.Scored? ==>
      && r.contentLength == |ExtractContent(a)|
      && r.contentLength >= Config.MinArticleLength
      && (r.companies.Some? <==> companies.Some?)
      && 0.0 <= r.investmentScore <= 1.0
      && 0.01 <= r.relevance <= 1.0
      && (r.HasError() <==> est.fails(ExtractContent(a)))
  {
    var header := HeaderOf(a);
    var content := ExtractContent(a);
    if |content| < Config.MinArticleLength then Rejected(header)
    else
      var sentiment := Sentiment.AnalyzeSentiment(est, content);
      var keywords := Keywords.ExtractKeywords(content);
      var matched := match companies
        case Some(cs) => Some(Matching.MatchCompanies(content, cs))
        case None => None;
      var financial := Financial.ExtractFinancialInfo(content);
      var daysOld := match a.publishedDate
        case Some(t) => Some(Scoring.DaysOld(now, t))
        case None => None;
      var score := sentiment.Score();
      var investment := Scoring.InvestmentScore(score, keywords.found, daysOld, header.source);
      var impact := Scoring.ImpactCategory(|keywords.found.positive|, |keywords.found.negative|, score);
      var companyCount := match matched
        case Some(m) => m.count
        case None => 0;
      var relevance := Scoring.RelevanceScore(keywords.total, score, companyCount,
                                              financial.density, |content|);
      Scored(header, |content|, sentiment, keywords, matched, financial, investment, impact, relevance)
  }

  /** A record whose sentiment estimate failed scores 0 sentiment, so its
      impact is Neutral. */
  lemma FailedSentimentIsNeutral(a: Article, companies: Option<seq<Matching.Company>>,
                                 est: Sentiment.Estimator, now: int)
    requires AnalyzeArticle(a, companies, est, now).Scored?
    requires est.fails(ExtractContent(a))
    ensures AnalyzeArticle(a, companies, est, now).impact == Scoring.Neutral
    ensures AnalyzeArticle(a, companies, est, now).sentiment.LabelValue() == Sentiment.Neutral
  {
  }

  /** The impact category never contradicts the sentiment label: a highly
      positive impact has a Positive label, a positive one a non-Negative
      label, and symmetrically. */
  lemma ImpactAgreesWithLabel(a: Article, companies: Option<seq<Matching.Company>>,
                              est: Sentiment.Estimator, now: int)
    requires AnalyzeArticle(a, companies, est, now).Scored?
    ensures var r := AnalyzeArticle(a, companies, est, now);
      && (r.impact == Scoring.HighlyPositive ==> r.sentiment.LabelValue() == Sentiment.Positive)
      && (r.impact == Scoring.Positive ==> r.sentiment.LabelValue() != Sentiment.Negative)
      && (r.impact == Scoring.HighlyNegative ==> r.sentiment.LabelValue() == Sentiment.Negative)
      && (r.impact == Scoring.Negative ==> r.sentiment.LabelValue() != Sentiment.Positive)
  {
  }

  /** `batch_analyze_articles`: one record per article, in order. */
  function BatchAnalyze(articles: seq<Article>, companies: Option<seq<Matching.Company>>,
                        est: Sentiment.Estimator, now: int): (r: seq<Analysis>)
    ensures |r| == |articles|
    ensures forall i :: 0 <= i < |r| ==> r[i].header.articleId == ArticleId(articles[i])
    ensures forall i :: 0 <= i < |r| ==> r[i] == AnalyzeArticle(articles[i], companies, est, now)
  {
    seq(|articles|, i requires 0 <= i < |articles| => AnalyzeArticle(articles[i], companies, est, now))
  }

  /** `filter_relevant_articles(analyzed, min_relevance)`: the records at or
      above the threshold (0.3 by default), most relevant first. */
  function FilterRelevant(records: seq<Analysis>, minRelevance: Option<real>): (r: seq<Analysis>)
    ensures forall i :: 0 <= i < |r| ==> r[i].Relevance() >= minRelevance.GetOr(Config.RelevanceThreshold)
    ensures forall i :: 0 <= i < |records| && records[i].Relevance() >= minRelevance.GetOr(Config.RelevanceThreshold)
                        ==> records[i] in r
    ensures forall i :: 0 <= i < |r| ==> r[i] in records
    ensures SortedDesc(r, RelevanceOf)
    ensures multiset(r) == multiset(Filter(records, x => RelevanceOf(x) >= minRelevance.GetOr(Config.RelevanceThreshold)))
  {
    var threshold := minRelevance.GetOr(Config.RelevanceThreshold);
    var kept := Filter(records, x => RelevanceOf(x) >= threshold);
    var r := SortDesc(kept, RelevanceOf);
    SameMultisetMembers(r, kept);
    DrawnFrom(r, kept, x => RelevanceOf(x) >= threshold);
    forall i | 0 <= i < |records| && records[i].Relevance() >= threshold ensures records[i] in r {
      assert records[i] in kept;
      assert records[i] in multiset(kept);
    }
    r
  }

  /** Filtering an already filtered list with the same threshold changes
      nothing. */
  lemma FilterRelevantIdempotent(records: seq<Analysis>, minRelevance: Option<real>)
    ensures FilterRelevant(FilterRelevant(records, minRelevance), minRelevance)
            == FilterRelevant(records, minRelevance)
  {
    var threshold := minRelevance.GetOr(Config.RelevanceThreshold);
    var once := FilterRelevant(records, minRelevance);
    FilterAll(once, x => RelevanceOf(x) >= threshold);
    SortDescOfSorted(once, RelevanceOf);
  }
}

=== FILE: articles.dfy ===
/** The article record the scraper produces and the analyzer consumes. */
module Articles {
  import opened Wrappers

  /** A scraped article. An absent key is `None`; `publishedDate` is a
      timestamp in seconds. */
  datatype Article = Article(
    url: Option<string>, link: Option<string>, title: Option<string>, source: Option<string>,
    content: Option<string>, description: Option<string>, summary: Option<string>,
    publishedDate: Option<int>)
}

=== FILE: config.dfy ===
/** The analysis settings and the investment lexicon of the configuration
    file, with the analyzer's in-place extensions folded in once: each
    category is the configured list followed by the terms the analyzer
    appends when it is constructed. */
module Config {

  /** Articles whose extracted text is shorter than this are rejected. */
  const MinArticleLength: nat := 100

  /** Default lower bound of `filter_relevant_articles`. */
  const RelevanceThreshold: real := 0.3

  /** Polarity above this is Positive, below its negation Negative. */
  const SentimentThreshold: real := 0.1

  const DaysLookback: nat := 7

  const PositiveKeywords: seq<string> := [
    "new project", "expansion", "investment", "acquisition", "merger",
    "contract", "order", "partnership", "launch", "growth", "profit",
    "revenue increase", "earnings beat", "dividend", "buyback",
    "capacity expansion", "new facility", "joint venture", "collaboration",
    "funding", "ipo", "listing", "upgraded", "outperform", "buy rating",
    "tie-up", "agreement", "approval", "license", "patent", "innovation",
    "technology", "digital transformation", "renewable energy", "green",
    "sustainable", "export", "international expansion",
    // appended by the analyzer's constructor
    "breakthrough", "milestone", "success", "achievement", "win",
    "record", "strong performance", "beat expectations", "exceed",
    "surge", "rally", "boost", "positive outlook", "optimistic",
    "upgrade", "recommend", "target price", "bull", "momentum"
  ]

  const NegativeKeywords: seq<string> := [
    "loss", "decline", "fall", "drop", "downgrade", "sell rating",
    "bankruptcy", "debt", "lawsuit", "fine", "penalty", "investigation",
    "scandal", "fraud", "closure", "layoff", "restructuring", "warning",
    "miss", "disappointing", "weak", "poor performance", "regulatory action",
    "suspension", "delisting", "default", "impairment", "write-off",
    // appended by the analyzer's constructor
    "bear", "pessimistic", "concern", "worry", "risk", "threat",
    "challenge", "struggle", "disappointing", "miss estimates",
    "cut", "reduce", "lower", "below expectations", "uncertainty"
  ]

  const NeutralKeywords: seq<string> := [
    "announcement", "statement", "results", "quarterly", "annual",
    "meeting", "conference", "presentation", "update", "report",
    "guidance", "outlook", "forecast", "management change", "appointment"
  ]
}

=== FILE: dashboard.dfy ===
/** The dashboard's data logic: the summary of a set of records
    (`generate_summary`), the user filter (`filter_data`) and the summary
    cards (`update_summary_cards`). Layout and charts are left out. */
module Dashboard {
  import opened Seqs
  import opened Wrappers
  import Sentiment
  import Analyzer
  import Insights

  /** The record's `published_date` string as the dashboard sees it:
      missing or empty, an ISO timestamp (seconds), or a string whose
      parsing or comparison raises. */
  datatype DateField = NoDate | Parsed(time: int) | Unparseable

  /** A stored record and its serialised publication date. */
  datatype Entry = Entry(record: Analyzer.Analysis, date: DateField)

  /** The summary `generate_summary` returns; `{}` for no records. */
  datatype DashSummary =
    | EmptySummary
    | Summary(totalArticles: nat, validArticles: nat,
              sentimentDistribution: Insights.LabelCounts, impactDistribution: Insights.ImpactCounts,
              averageSentiment: real, averageRelevance: real, averageInvestment: real)

  /** The mean of the valid records' figures, 0 without valid records. */
  function MeanOrZero(xs: seq<real>): (m: real)
    ensures xs == [] ==> m == 0.0
  {
    if xs == [] then 0.0 else Mean(xs)
  }

  lemma MeanOrZeroBounds(xs: seq<real>, lo: real, hi: real)
    requires lo <= 0.0 <= hi
    requires forall i :: 0 <= i < |xs| ==> lo <= xs[i] <= hi
    ensures lo <= MeanOrZero(xs) <= hi
  {
    if xs != [] {
      MeanBounds(xs, lo, hi);
    }
  }

  /** `generate_summary(articles)`. Averages are exact means (the source
      rounds them to three decimals). */
  function GenerateSummary(records: seq<Analyzer.Analysis>): (r: DashSummary)
    ensures r.EmptySummary? <==> records == []
    ensures r.Summary? ==>
      && r.totalArticles == |records|
      && r.validArticles == |Filter(records, Insights.IsValid)| <= |records|
      && r.sentimentDistribution.positive + r.sentimentDistribution.negative
         + r.sentimentDistribution.neutral == r.validArticles
      && r.impactDistribution.highlyPositive + r.impactDistribution.positive
         + r.impactDistribution.highlyNegative + r.impactDistribution.negative
         + r.impactDistribution.neutral == r.validArticles
      && -1.0 <= r.averageSentiment <= 1.0
      && (r.validArticles == 0 ==> r.averageSentiment == r.averageRelevance == r.averageInvestment == 0.0)
    ensures r.Summary? ==>
      && r.sentimentDistribution == Insights.LabelDistribution(Insights.Labels(Filter(records, Insights.IsValid)))
      && r.impactDistribution == Insights.ImpactDistribution(Insights.Impacts(Filter(records, Insights.IsValid)))
    ensures r.Summary? && r.validArticles > 0 ==>
      && r.averageSentiment == Mean(Insights.Scores(Filter(records, Insights.IsValid), Insights.SentimentOfRecord))
      && r.averageRelevance == Mean(Insights.Scores(Filter(records, Insights.IsValid), Analyzer.RelevanceOf))
      && r.averageInvestment == Mean(Insights.Scores(Filter(records, Insights.IsValid), Insights.InvestmentOfRecord))
  {
    if records == [] then EmptySummary
    else
      var valid := Filter(records, Insights.IsValid);
      var sentiments := Insights.Scores(valid, Insights.SentimentOfRecord);
      MeanOrZeroBounds(sentiments, -1.0, 1.0);
      Summary(|records|, |valid|,
              Insights.LabelDistribution(Insights.Labels(valid)),
              Insights.ImpactDistribution(Insights.Impacts(valid)),
              MeanOrZero(sentiments),
              MeanOrZero(Insights.Scores(valid, Analyzer.RelevanceOf)),
              MeanOrZero(Insights.Scores(valid, Insights.InvestmentOfRecord)))
  }

  /** With valid records, the dashboard summary agrees with the analyzer's
      summary on every figure they share. */
  lemma SummariesAgree(records: seq<Analyzer.Analysis>)
    requires exists i :: 0 <= i < |records| && Insights.IsValid(records[i])
    ensures var d := GenerateSummary(records);
      var s := Insights.SummaryInsights(records);
      && d.Summary? && s.Insights?
      && d.totalArticles == s.totalArticles && d.validArticles == s.validArticles
      && d.sentimentDistribution == s.sentimentDistribution
      && d.impactDistribution == s.impactDistribution
      && d.averageSentiment == s.averageSentiment
      && d.averageRelevance == s.averageRelevance
      && d.averageInvestment == s.averageInvestment
  {
    var i :| 0 <= i < |records| && Insights.IsValid(records[i]);
    assert records[i] in Filter(records, Insights.IsValid);
  }

  /** How the sentiment dropdown restricts records. */
  datatype SentimentFilter = AllLabels | OnlyLabel(selected: Sentiment.Label)

  /** `article.get("sentiment_label")`: absent on a rejected record. */
  function LabelField(a: Analyzer.Analysis): (l: Option<Sentiment.Label>)
    ensures a.Rejected? <==> l.None?
  {
    if a.Scored? then Some(a.sentiment.LabelValue()) else None
  }

  /** The per-record test of `filter_data`: not dated before the cutoff
      (a missing or unreadable date passes), the selected label, and at
      least the minimum relevance. */
  predicate Keep(e: Entry, cutoff: int, sentiment: SentimentFilter, minRelevance: real): (b: bool)
    ensures sentiment.OnlyLabel? && b ==> e.record.Scored? && e.record.sentiment.LabelValue() == sentiment.selected
    ensures !e.date.Parsed? && sentiment.AllLabels? ==> (b <==> e.record.Relevance() >= minRelevance)
  {
    && !(e.date.Parsed? && e.date.time < cutoff)
    && (sentiment.OnlyLabel? ==> LabelField(e.record) == Some(sentiment.selected))
    && e.record.Relevance() >= minRelevance
  }

  function Selection(cutoff: int, sentiment: SentimentFilter, minRelevance: real): Entry -> bool {
    e => Keep(e, cutoff, sentiment, minRelevance)
  }

  /** The result of `filter_data`: the entries kept and their summary. */
  datatype Filtered = Filtered(entries: seq<Entry>, summary: DashSummary)

  function Records(entries: seq<Entry>): (r: seq<Analyzer.Analysis>)
    ensures |r| == |entries|
    ensures forall i :: 0 <= i < |r| ==> r[i] == entries[i].record
  {
    seq(|entries|, i requires 0 <= i < |entries| => entries[i].record)
  }

  /** `filter_data(analysis_data, time_range, sentiment_filter,
      min_relevance)`, with the current time `now` in seconds and
      `timeRange` in days. */
  function FilterData(entries: seq<Entry>, now: int, timeRange: int,
                      sentiment: SentimentFilter, minRelevance: real): (r: Filtered)
    ensures IsSubseq(r.entries, entries)
    ensures forall i :: 0 <= i < |r.entries| ==> Keep(r.entries[i], now - timeRange * 86400, sentiment, minRelevance)
    ensures forall i :: 0 <= i < |entries| && Keep(entries[i], now - timeRange * 86400, sentiment, minRelevance)
                        ==> entries[i] in r.entries
    ensures r.summary == GenerateSummary(Records(r.entries))
    ensures r.entries == [] ==> r.summary.EmptySummary?
    ensures forall e :: Count(r.entries, e)
                        == if Keep(e, now - timeRange * 86400, sentiment, minRelevance) then Count(entries, e) else 0
  {
    var cutoff := now - timeRange * 86400;
    var kept := Filter(entries, Selection(cutoff, sentiment, minRelevance));
    FilterIsSubseq(entries, Selection(cutoff, sentiment, minRelevance));
    forall e ensures Count(kept, e) == if Keep(e, cutoff, sentiment, minRelevance) then Count(entries, e) else 0 {
      FilterCount(entries, Selection(cutoff, sentiment, minRelevance), e);
    }
    Filtered(kept, GenerateSummary(Records(kept)))
  }

  /** Re-applying the same selections keeps every entry. */
  lemma FilterDataIdempotent(entries: seq<Entry>, now: int, timeRange: int,
                             sentiment: SentimentFilter, minRelevance: real)
    ensures var once := FilterData(entries, now, timeRange, sentiment, minRelevance);
      FilterData(once.entries, now, timeRange, sentiment, minRelevance) == once
  {
    var select := Selection(now - timeRange * 86400, sentiment, minRelevance);
    var once := FilterData(entries, now, timeRange, sentiment, minRelevance);
    assert once.entries == Filter(entries, select);
    FilterAll(once.entries, select);
    var twice := FilterData(once.entries, now, timeRange, sentiment, minRelevance);
    assert twice.entries == Filter(once.entries, select);
  }

  /** A label filter keeps no rejected record, and every record it keeps
      carries the selected label. */
  lemma LabelFilterDropsRejected(entries: seq<Entry>, now: int, timeRange: int,
                                 l: Sentiment.Label, minRelevance: real)
    ensures var r := FilterData(entries, now, timeRange, OnlyLabel(l), minRelevance);
      forall i :: 0 <= i < |r.entries| ==>
        r.entries[i].record.Scored? && r.entries[i].record.sentiment.LabelValue() == l
  {
  }

  /** The six card figures of `update_summary_cards`. */
  datatype Cards = Cards(totalArticles: nat, relevantArticles: nat, companiesMentioned: nat,
                         averageSentiment: real, positivePercent: real, highImpact: nat)

  predicate Relevant(a: Analyzer.Analysis) { a.Relevance() > 0.5 }

  predicate HighImpact(a: Analyzer.Analysis) {
    a.Scored? && a.investmentScore > 0.7
  }

  /** The distinct symbols among the matched companies of the records. */
  function SymbolSet(records: seq<Analyzer.Analysis>): (r: set<string>)
    ensures forall s :: s in r <==> s in Insights.CompanySymbols(records)
    ensures forall s :: s in r <==>
      exists i, j :: 0 <= i < |records| && 0 <= j < |Insights.MatchedOf(records[i])|
                     && Insights.MatchedOf(records[i])[j].symbol == s
  {
    var syms := Insights.CompanySymbols(records);
    set k | 0 <= k < |syms| :: syms[k]
  }

  /** The share of positive labels among the valid records, in percent,
      0 without valid records. */
  function PositivePercent(d: Insights.LabelCounts): (p: real)
    ensures 0.0 <= p <= 100.0
    ensures d.positive + d.negative + d.neutral == 0 ==> p == 0.0
    ensures p == 100.0 <==> d.positive > 0 && d.negative == 0 && d.neutral == 0
    ensures p == 0.0 <==> d.positive == 0
  {
    var total := d.positive + d.negative + d.neutral;
    Ratio(d.positive, total) * 100.0
  }

  /** `update_summary_cards(filtered_data)` on the filtered records. */
  function SummaryCards(records: seq<Analyzer.Analysis>): (c: Cards)
    ensures records == [] ==> c == Cards(0, 0, 0, 0.0, 0.0, 0)
    ensures c.totalArticles == |records|
    ensures c.relevantArticles <= c.totalArticles && c.highImpact <= c.totalArticles
    ensures c.relevantArticles == |Filter(records, Relevant)|
    ensures c.highImpact == |Filter(records, HighImpact)|
    ensures 0.0 <= c.positivePercent <= 100.0
    ensures c.companiesMentioned == |SymbolSet(records)|
    ensures -1.0 <= c.averageSentiment <= 1.0
  {
    if records == [] then Cards(0, 0, 0, 0.0, 0.0, 0)
    else
      var summary := GenerateSummary(records);
      Cards(|records|, |Filter(records, Relevant)|, |SymbolSet(records)|,
            summary.averageSentiment, PositivePercent(summary.sentimentDistribution),
            |Filter(records, HighImpact)|)
  }

  /** The positive share is 100% exactly when some record is valid and
      every valid record is labelled Positive. */
  lemma AllPositiveCards(records: seq<Analyzer.Analysis>)
    requires records != []
    ensures SummaryCards(records).positivePercent == 100.0 <==>
      && Filter(records, Insights.IsValid) != []
      && forall i :: 0 <= i < |Filter(records, Insights.IsValid)| ==>
           Insights.LabelOfRecord(Filter(records, Insights.IsValid)[i]) == Sentiment.Positive
  {
    var valid := Filter(records, Insights.IsValid);
    var ls := Insights.Labels(valid);
    var d := Insights.LabelDistribution(ls);
    if d.positive > 0 && d.negative == 0 && d.neutral == 0 {
      forall i | 0 <= i < |valid| ensures Insights.LabelOfRecord(valid[i]) == Sentiment.Positive {
        assert ls[i] in ls;
      }
    }
    if valid != [] && forall i :: 0 <= i < |valid| ==> Insights.LabelOfRecord(valid[i]) == Sentiment.Positive {
      assert ls[0] in ls;
      assert Sentiment.Negative !in ls;
      assert Sentiment.Neutral !in ls;
    }
  }

  /** With a valid record, the cards agree with the analyser's summary: the
      same average sentiment, and the positive share is the Positive count
      over the valid count, in percent. */
  lemma CardsAgree(records: seq<Analyzer.Analysis>)
    requires exists i :: 0 <= i < |records| && Insights.IsValid(records[i])
    ensures Insights.SummaryInsights(records).Insights?
    ensures SummaryCards(records).averageSentiment == Insights.SummaryInsights(records).averageSentiment
    ensures SummaryCards(records).positivePercent
            == Ratio(Insights.SummaryInsights(records).sentimentDistribution.positive,
                     Insights.SummaryInsights(records).validArticles) * 100.0
  {
    assert records != [];
    var g := GenerateSummary(records);
    var c := SummaryCards(records);
    assert c.averageSentiment == g.averageSentiment;
    assert c.positivePercent == PositivePercent(g.sentimentDistribution);
    SummariesAgree(records);
    var s := Insights.SummaryInsights(records);
    var d := s.sentimentDistribution;
    assert d == g.sentimentDistribution;
    PercentOfTotal(d, s.validArticles);
  }

  lemma PercentOfTotal(d: Insights.LabelCounts, total: nat)
    requires total == d.positive + d.negative + d.neutral
    ensures PositivePercent(d) == Ratio(d.positive, total) * 100.0
  {
  }
}

=== FILE: financial.dfy ===
/** Financial facts of an article (`extract_financial_info`). */
module Financial {
  import opened Text
  import opened Seqs
  import Numbers

  /** The metric names the analyzer looks for, in its order. */
  const FinancialTerms: seq<string> := [
    "revenue", "profit", "loss", "earnings", "ebitda", "dividend",
    "market cap", "valuation", "investment", "funding", "debt",
    "cash flow", "assets", "liabilities", "equity", "roe", "roa",
    "pe ratio", "eps", "book value", "sales", "growth"]

  datatype FinancialInfo = FinancialInfo(
    numbers: seq<real>, percentages: seq<real>, terms: seq<string>, density: real)

  /** The terms of `vocabulary` that occur in the lower-cased text, in
      vocabulary order. */
  function TermsIn(text: string, vocabulary: seq<string>): (r: seq<string>)
    ensures IsSubseq(r, vocabulary)
    ensures forall i :: 0 <= i < |r| ==> Contains(LowerStr(text), r[i])
    ensures forall i :: 0 <= i < |vocabulary| && Contains(LowerStr(text), vocabulary[i]) ==> vocabulary[i] in r
  {
    var lowered := LowerStr(text);
    FilterIsSubseq(vocabulary, t => Contains(lowered, t));
    Filter(vocabulary, t => Contains(lowered, t))
  }

  /** Term detection ignores case: the terms of a text are those of its
      lower-cased form. */
  lemma TermsIgnoreCase(text: string, vocabulary: seq<string>)
    ensures TermsIn(LowerStr(text), vocabulary) == TermsIn(text, vocabulary)
  {
    LowerStrIdempotent(text);
  }

  /** The financial facts of `text` against a term list: the amounts with
      units, the percentages, the terms mentioned, and their number per
      word. A non-empty text of whitespace alone would divide by zero. */
  function InfoWith(text: string, vocabulary: seq<string>): (r: FinancialInfo)
    requires text == [] || !AllSpace(text)
    ensures r.numbers == Numbers.ExtractNumbers(text)
    ensures r.percentages == Numbers.ExtractPercentages(text)
    ensures r.terms == TermsIn(text, vocabulary)
    ensures text != [] ==> |Split(text)| > 0
    ensures r.density == Ratio(|r.terms|, |Split(text)|)
  {
    var terms := TermsIn(text, vocabulary);
    var density := if text == [] then 0.0 else Ratio(|terms|, |Split(text)|);
    FinancialInfo(Numbers.ExtractNumbers(text), Numbers.ExtractPercentages(text), terms, density)
  }

  /** `extract_financial_info` */
  function ExtractFinancialInfo(text: string): (r: FinancialInfo)
    requires text == [] || !AllSpace(text)
    ensures r.numbers == Numbers.ExtractNumbers(text)
    ensures r.percentages == Numbers.ExtractPercentages(text)
    ensures r.terms == TermsIn(text, FinancialTerms)
    ensures text != [] ==> |Split(text)| > 0
    ensures r.density == Ratio(|r.terms|, |Split(text)|)
  {
    InfoWith(text, FinancialTerms)
  }
}

=== FILE: insights.dfy ===
/** The summary over a batch of analysed articles
    (`generate_summary_insights`). */
module Insights {
  import opened Seqs
  import opened Wrappers
  import Sentiment
  import Keywords
  import Scoring
  import Matching
  import Articles
  import Analyzer

  /** A record without an `error` key. */
  predicate IsValid(a: Analyzer.Analysis) {
    !a.HasError()
  }

  /** `sentiment_label`, Neutral when absent. */
  function LabelOfRecord(a: Analyzer.Analysis): Sentiment.Label {
    if a.Scored? then a.sentiment.LabelValue() else Sentiment.Neutral
  }

  /** `impact_category`, Neutral when absent. */
  function ImpactOfRecord(a: Analyzer.Analysis): Scoring.Impact {
    if a.Scored? then a.impact else Scoring.Neutral
  }

  function SentimentOfRecord(a: Analyzer.Analysis): real {
    if a.Scored? then a.sentiment.Score() else 0.0
  }

  function InvestmentOfRecord(a: Analyzer.Analysis): real {
    if a.Scored? then a.investmentScore else 0.0
  }

  /** The figures of a record lie in their documented ranges, as they do
      for every record `analyze_article` builds. */
  predicate InRange(a: Analyzer.Analysis) {
    a.Scored? ==> 0.0 <= a.investmentScore <= 1.0 && 0.0 <= a.relevance <= 1.0
  }

  lemma AnalyzedInRange(a: Articles.Article, companies: Option<seq<Matching.Company>>,
                        est: Sentiment.Estimator, now: int)
    ensures InRange(Analyzer.AnalyzeArticle(a, companies, est, now))
  {
  }

  /** `dict(Counter(labels))`, with an absent label counted 0. */
  datatype LabelCounts = LabelCounts(positive: nat, negative: nat, neutral: nat)

  /** `dict(Counter(impacts))`, with an absent category counted 0. */
  datatype ImpactCounts = ImpactCounts(highlyPositive: nat, positive: nat, highlyNegative: nat,
                                       negative: nat, neutral: nat)

  function LabelDistribution(ls: seq<Sentiment.Label>): (d: LabelCounts)
    ensures d.positive + d.negative + d.neutral == |ls|
    ensures d.positive == Count(ls, Sentiment.Positive)
    ensures d.negative == Count(ls, Sentiment.Negative)
    ensures d.neutral == Count(ls, Sentiment.Neutral)
  {
    LabelsPartition(ls);
    LabelCounts(Count(ls, Sentiment.Positive), Count(ls, Sentiment.Negative), Count(ls, Sentiment.Neutral))
  }

  /** Every label is counted exactly once. */
  lemma {:induction false} LabelsPartition(ls: seq<Sentiment.Label>)
    ensures Count(ls, Sentiment.Positive) + Count(ls, Sentiment.Negative) + Count(ls, Sentiment.Neutral) == |ls|
    decreases |ls|
  {
    if ls != [] {
      LabelsPartition(ls[1..]);
      var t := ls[1..];
      assert Count(ls, Sentiment.Positive) == (if ls[0] == Sentiment.Positive then 1 else 0) + Count(t, Sentiment.Positive);
      assert Count(ls, Sentiment.Negative) == (if ls[0] == Sentiment.Negative then 1 else 0) + Count(t, Sentiment.Negative);
      assert Count(ls, Sentiment.Neutral) == (if ls[0] == Sentiment.Neutral then 1 else 0) + Count(t, Sentiment.Neutral);
    }
  }

  function ImpactDistribution(cs: seq<Scoring.Impact>): (d: ImpactCounts)
    ensures d.highlyPositive + d.positive + d.highlyNegative + d.negative + d.neutral == |cs|
    ensures d.highlyPositive == Count(cs, Scoring.HighlyPositive)
    ensures d.positive == Count(cs, Scoring.Positive)
    ensures d.highlyNegative == Count(cs, Scoring.HighlyNegative)
    ensures d.negative == Count(cs, Scoring.Negative)
    ensures d.neutral == Count(cs, Scoring.Neutral)
  {
    ImpactsPartition(cs);
    ImpactCounts(Count(cs, Scoring.HighlyPositive), Count(cs, Scoring.Positive),
                 Count(cs, Scoring.HighlyNegative), Count(cs, Scoring.Negative),
                 Count(cs, Scoring.Neutral))
  }

  /** Every impact category is counted exactly once. */
  lemma {:induction false} ImpactsPartition(cs: seq<Scoring.Impact>)
    ensures Count(cs, Scoring.HighlyPositive) + Count(cs, Scoring.Positive) + Count(cs, Scoring.HighlyNegative)
            + Count(cs, Scoring.Negative) + Count(cs, Scoring.Neutral) == |cs|
    decreases |cs|
  {
    if cs != [] {
      ImpactsPartition(cs[1..]);
      var t := cs[1..];
      assert Count(cs, Scoring.HighlyPositive) == (if cs[0] == Scoring.HighlyPositive then 1 else 0) + Count(t, Scoring.HighlyPositive);
      assert Count(cs, Scoring.Positive) == (if cs[0] == Scoring.Positive then 1 else 0) + Count(t, Scoring.Positive);
      assert Count(cs, Scoring.HighlyNegative) == (if cs[0] == Scoring.HighlyNegative then 1 else 0) + Count(t, Scoring.HighlyNegative);
      assert Count(cs, Scoring.Negative) == (if cs[0] == Scoring.Negative then 1 else 0) + Count(t, Scoring.Negative);
      assert Count(cs, Scoring.Neutral) == (if cs[0] == Scoring.Neutral then 1 else 0) + Count(t, Scoring.Neutral);
    }
  }

  /** `matched_companies`, empty when absent. */
  function MatchedOf(a: Analyzer.Analysis): seq<Matching.CompanyMatch> {
    if a.Scored? && a.companies.Some? then a.companies.value.matched else []
  }

  /** The symbols of one record's matched companies, in order. */
  function SymbolsOf(a: Analyzer.Analysis): (r: seq<string>)
    ensures |r| == |MatchedOf(a)|
    ensures forall j :: 0 <= j < |r| ==> r[j] == MatchedOf(a)[j].symbol
  {
    seq(|MatchedOf(a)|, j requires 0 <= j < |MatchedOf(a)| => MatchedOf(a)[j].symbol)
  }

  /** The symbols of the matched companies of every record, in order: the
      list the source's `Counter` tallies. */
  function CompanySymbols(records: seq<Analyzer.Analysis>): (r: seq<string>)
    ensures forall k :: 0 <= k < |r| ==>
      exists i, j :: 0 <= i < |records| && 0 <= j < |MatchedOf(records[i])| && MatchedOf(records[i])[j].symbol == r[k]
    ensures forall i, j :: 0 <= i < |records| && 0 <= j < |MatchedOf(records[i])| ==> MatchedOf(records[i])[j].symbol in r
  {
    var r := Flatten(records, SymbolsOf);
    forall k | 0 <= k < |r|
      ensures exists i, j :: 0 <= i < |records| && 0 <= j < |MatchedOf(records[i])| && MatchedOf(records[i])[j].symbol == r[k]
    {
      SymbolFromRecord(records, r[k]);
    }
    forall i, j | 0 <= i < |records| && 0 <= j < |MatchedOf(records[i])|
      ensures MatchedOf(records[i])[j].symbol in r
    {
      SymbolOfRecord(records, i, j);
    }
    r
  }

  lemma SymbolFromRecord(records: seq<Analyzer.Analysis>, x: string)
    requires x in Flatten(records, SymbolsOf)
    ensures exists i, j :: 0 <= i < |records| && 0 <= j < |MatchedOf(records[i])| && MatchedOf(records[i])[j].symbol == x
  {
    FlattenMembers(records, SymbolsOf);
    var i :| 0 <= i < |records| && x in SymbolsOf(records[i]);
    var j :| 0 <= j < |SymbolsOf(records[i])| && SymbolsOf(records[i])[j] == x;
  }

  lemma SymbolOfRecord(records: seq<Analyzer.Analysis>, i: nat, j: nat)
    requires i < |records| && j < |MatchedOf(records[i])|
    ensures MatchedOf(records[i])[j].symbol in Flatten(records, SymbolsOf)
  {
    FlattenMembers(records, SymbolsOf);
    assert SymbolsOf(records[i])[j] in SymbolsOf(records[i]);
  }

  /** A record lists each matched symbol once and each found keyword once
      per category, as every record `analyze_article` builds does. */
  predicate DistinctMentions(a: Analyzer.Analysis) {
    && NoDup(SymbolsOf(a))
    && (a.Scored? ==> forall c: Keywords.Category :: NoDup(a.keywords.found.Get(c)))
  }

  lemma AnalyzedDistinct(a: Articles.Article, companies: Option<seq<Matching.Company>>,
                         est: Sentiment.Estimator, now: int)
    ensures DistinctMentions(Analyzer.AnalyzeArticle(a, companies, est, now))
  {
    var r := Analyzer.AnalyzeArticle(a, companies, est, now);
    if r.Scored? && r.companies.Some? {
      var m := r.companies.value.matched;
      assert KeysDistinct(m, Matching.MatchSymbol);
      forall i, j | 0 <= i < j < |SymbolsOf(r)| ensures SymbolsOf(r)[i] != SymbolsOf(r)[j] {
        assert Matching.MatchSymbol(m[i]) != Matching.MatchSymbol(m[j]);
      }
    }
  }

  /** Whether a record mentions the symbol. */
  function Mentioning(s: string): Analyzer.Analysis -> bool {
    (a: Analyzer.Analysis) => s in SymbolsOf(a)
  }

  /** A symbol's count is the number of records that mention it. */
  lemma MentionCount(records: seq<Analyzer.Analysis>, s: string)
    requires forall i :: 0 <= i < |records| ==> DistinctMentions(records[i])
    ensures Count(CompanySymbols(records), s) == |Filter(records, Mentioning(s))|
  {
    FlattenCount(records, SymbolsOf, s, Mentioning(s));
  }

  /** The keywords of one record as (keyword, category) pairs, positive,
      negative and neutral in turn. */
  function KeywordPairsOf(a: Analyzer.Analysis): (r: seq<(string, Keywords.Category)>)
    ensures a.Scored? ==> forall k :: 0 <= k < |r| ==> r[k].0 in a.keywords.found.Get(r[k].1)
    ensures a.Scored? ==> forall c: Keywords.Category, w :: w in a.keywords.found.Get(c) ==> (w, c) in r
    ensures a.Scored? ==> |r| == |a.keywords.found.positive| + |a.keywords.found.negative| + |a.keywords.found.neutral|
    ensures a.Rejected? ==> r == []
  {
    if a.Rejected? then []
    else
      var f := a.keywords.found;
      var r := Tag(f.positive, Keywords.PositiveWords) + Tag(f.negative, Keywords.NegativeWords)
               + Tag(f.neutral, Keywords.NeutralWords);
      assert forall c: Keywords.Category, w :: w in f.Get(c) ==> (w, c) in r by {
        forall c: Keywords.Category, w | w in f.Get(c) ensures (w, c) in r {
          var k :| 0 <= k < |f.Get(c)| && f.Get(c)[k] == w;
          assert (w, c) in Tag(f.Get(c), c);
        }
      }
      r
  }

  function Tag(ws: seq<string>, c: Keywords.Category): (r: seq<(string, Keywords.Category)>)
    ensures |r| == |ws|
    ensures forall k :: 0 <= k < |r| ==> r[k] == (ws[k], c)
  {
    seq(|ws|, k requires 0 <= k < |ws| => (ws[k], c))
  }

  lemma TagDistinct(ws: seq<string>, c: Keywords.Category)
    requires NoDup(ws)
    ensures NoDup(Tag(ws, c))
  {
  }

  /** A record whose keyword lists have no repetitions yields no repeated
      pair. */
  lemma KeywordPairsDistinct(a: Analyzer.Analysis)
    requires DistinctMentions(a)
    ensures NoDup(KeywordPairsOf(a))
  {
    if a.Scored? {
      var f := a.keywords.found;
      assert f.Get(Keywords.PositiveWords) == f.positive;
      assert f.Get(Keywords.NegativeWords) == f.negative;
      assert f.Get(Keywords.NeutralWords) == f.neutral;
      var p := Tag(f.positive, Keywords.PositiveWords);
      var n := Tag(f.negative, Keywords.NegativeWords);
      var u := Tag(f.neutral, Keywords.NeutralWords);
      TagDistinct(f.positive, Keywords.PositiveWords);
      TagDistinct(f.negative, Keywords.NegativeWords);
      TagDistinct(f.neutral, Keywords.NeutralWords);
      NoDupConcat(p, n);
      var pn: seq<(string, Keywords.Category)> := p + n;
      assert forall i, j :: 0 <= i < |pn| && 0 <= j < |u| ==> pn[i].1 != u[j].1;
      NoDupConcat(p + n, u);
    }
  }

  /** All the (keyword, category) pairs of the records, in order: the list
      the source's `Counter` tallies. */
  function KeywordPairs(records: seq<Analyzer.Analysis>): (r: seq<(string, Keywords.Category)>)
    ensures forall k :: 0 <= k < |r| ==>
      exists i :: 0 <= i < |records| && records[i].Scored? && r[k].0 in records[i].keywords.found.Get(r[k].1)
    ensures forall i, c: Keywords.Category, w ::
              0 <= i < |records| && records[i].Scored? && w in records[i].keywords.found.Get(c) ==> (w, c) in r
  {
    var r := Flatten(records, KeywordPairsOf);
    forall k | 0 <= k < |r|
      ensures exists i :: 0 <= i < |records| && records[i].Scored? && r[k].0 in records[i].keywords.found.Get(r[k].1)
    {
      PairFromRecord(records, r[k]);
    }
    forall i, c: Keywords.Category, w | 0 <= i < |records| && records[i].Scored? && w in records[i].keywords.found.Get(c)
      ensures (w, c) in r
    {
      PairOfRecord(records, i, w, c);
    }
    r
  }

  lemma PairFromRecord(records: seq<Analyzer.Analysis>, x: (string, Keywords.Category))
    requires x in Flatten(records, KeywordPairsOf)
    ensures exists i :: 0 <= i < |records| && records[i].Scored? && x.0 in records[i].keywords.found.Get(x.1)
  {
    FlattenMembers(records, KeywordPairsOf);
    var i :| 0 <= i < |records| && x in KeywordPairsOf(records[i]);
    var j :| 0 <= j < |KeywordPairsOf(records[i])| && KeywordPairsOf(records[i])[j] == x;
  }

  lemma PairOfRecord(records: seq<Analyzer.Analysis>, i: nat, w: string, c: Keywords.Category)
    requires i < |records| && records[i].Scored? && w in records[i].keywords.found.Get(c)
    ensures (w, c) in Flatten(records, KeywordPairsOf)
  {
    FlattenMembers(records, KeywordPairsOf);
    assert (w, c) in KeywordPairsOf(records[i]);
  }

  /** Whether a record found the keyword in the category. */
  function Finding(w: string, c: Keywords.Category): Analyzer.Analysis -> bool {
    (a: Analyzer.Analysis) => a.Scored? && w in a.keywords.found.Get(c)
  }

  /** A (keyword, category) pair's count is the number of records that
      found the keyword in that category. */
  lemma KeywordCount(records: seq<Analyzer.Analysis>, w: string, c: Keywords.Category)
    requires forall i :: 0 <= i < |records| ==> DistinctMentions(records[i])
    ensures Count(KeywordPairs(records), (w, c)) == |Filter(records, Finding(w, c))|
  {
    forall i | 0 <= i < |records| ensures NoDup(KeywordPairsOf(records[i])) {
      KeywordPairsDistinct(records[i]);
    }
    forall a ensures Finding(w, c)(a) <==> (w, c) in KeywordPairsOf(a) {
      if (w, c) in KeywordPairsOf(a) {
        var k :| 0 <= k < |KeywordPairsOf(a)| && KeywordPairsOf(a)[k] == (w, c);
      }
    }
    FlattenCount(records, KeywordPairsOf, (w, c), Finding(w, c));
  }

  /** The result of `generate_summary_insights`. */
  datatype Summary =
    | NoArticles
    | NoValidArticles
    | Insights(totalArticles: nat, validArticles: nat,
               sentimentDistribution: LabelCounts, impactDistribution: ImpactCounts,
               topCompanies: seq<(string, nat)>,
               averageSentiment: real, averageRelevance: real, averageInvestment: real,
               topKeywords: seq<((string, Keywords.Category), nat)>,
               highlyRelevant: nat)

  function Labels(valid: seq<Analyzer.Analysis>): (r: seq<Sentiment.Label>)
    ensures |r| == |valid|
    ensures forall i :: 0 <= i < |r| ==> r[i] == LabelOfRecord(valid[i])
  {
    seq(|valid|, i requires 0 <= i < |valid| => LabelOfRecord(valid[i]))
  }

  function Impacts(valid: seq<Analyzer.Analysis>): (r: seq<Scoring.Impact>)
    ensures |r| == |valid|
    ensures forall i :: 0 <= i < |r| ==> r[i] == ImpactOfRecord(valid[i])
  {
    seq(|valid|, i requires 0 <= i < |valid| => ImpactOfRecord(valid[i]))
  }

  function Scores(valid: seq<Analyzer.Analysis>, score: Analyzer.Analysis -> real): (r: seq<real>)
    ensures |r| == |valid|
    ensures forall i :: 0 <= i < |r| ==> r[i] == score(valid[i])
  {
    seq(|valid|, i requires 0 <= i < |valid| => score(valid[i]))
  }

  predicate HighlyRelevant(a: Analyzer.Analysis) {
    a.Relevance() > 0.6
  }

  /** When every record is in range, so are the averages over the valid
      ones. */
  lemma AveragesInRange(records: seq<Analyzer.Analysis>, valid: seq<Analyzer.Analysis>)
    requires valid == Filter(records, IsValid) && valid != []
    ensures (forall i :: 0 <= i < |records| ==> InRange(records[i])) ==>
      && 0.0 <= Mean(Scores(valid, Analyzer.RelevanceOf)) <= 1.0
      && 0.0 <= Mean(Scores(valid, InvestmentOfRecord)) <= 1.0
  {
    if forall i :: 0 <= i < |records| ==> InRange(records[i]) {
      DrawnFrom(valid, records, InRange);
      MeanBounds(Scores(valid, Analyzer.RelevanceOf), 0.0, 1.0);
      MeanBounds(Scores(valid, InvestmentOfRecord), 0.0, 1.0);
    }
  }

  /** `generate_summary_insights`. Averages are exact means (the source
      rounds them to three decimals). */
  function SummaryInsights(records: seq<Analyzer.Analysis>): (r: Summary)
    ensures r.NoArticles? <==> records == []
    ensures r.NoValidArticles? <==> records != [] && forall i :: 0 <= i < |records| ==> !IsValid(records[i])
    ensures r.Insights? ==>
      && r.totalArticles == |records|
      && 0 < r.validArticles <= |records|
      && r.validArticles == |Filter(records, IsValid)|
      && r.sentimentDistribution.positive + r.sentimentDistribution.negative
         + r.sentimentDistribution.neutral == r.validArticles
      && r.impactDistribution.highlyPositive + r.impactDistribution.positive
         + r.impactDistribution.highlyNegative + r.impactDistribution.negative
         + r.impactDistribution.neutral == r.validArticles
      && |r.topCompanies| <= 10 && SortedDesc(r.topCompanies, CountKey)
      && |r.topKeywords| <= 15 && SortedDesc(r.topKeywords, CountKey)
      && -1.0 <= r.averageSentiment <= 1.0
      && r.highlyRelevant <= r.validArticles
    ensures r.Insights? ==> r.highlyRelevant == |Filter(Filter(records, IsValid), HighlyRelevant)|
    ensures r.Insights? ==>
      && r.sentimentDistribution == LabelDistribution(Labels(Filter(records, IsValid)))
      && r.impactDistribution == ImpactDistribution(Impacts(Filter(records, IsValid)))
    ensures r.Insights? ==>
      && r.averageSentiment == Mean(Scores(Filter(records, IsValid), SentimentOfRecord))
      && r.averageRelevance == Mean(Scores(Filter(records, IsValid), Analyzer.RelevanceOf))
      && r.averageInvestment == Mean(Scores(Filter(records, IsValid), InvestmentOfRecord))
    ensures r.Insights? ==>
      && (forall k :: 0 <= k < |r.topCompanies| ==>
            r.topCompanies[k].1 == Count(CompanySymbols(Filter(records, IsValid)), r.topCompanies[k].0) > 0)
      && (forall k, l :: 0 <= k < l < |r.topCompanies| ==> r.topCompanies[k].0 != r.topCompanies[l].0)
    ensures r.Insights? ==>
      && (forall k :: 0 <= k < |r.topKeywords| ==>
            r.topKeywords[k].1 == Count(KeywordPairs(Filter(records, IsValid)), r.topKeywords[k].0) > 0)
      && (forall k, l :: 0 <= k < l < |r.topKeywords| ==> r.topKeywords[k].0 != r.topKeywords[l].0)
    ensures r.Insights? && (forall i :: 0 <= i < |records| ==> InRange(records[i])) ==>
      && 0.0 <= r.averageRelevance <= 1.0
      && 0.0 <= r.averageInvestment <= 1.0
  {
    if records == [] then NoArticles
    else
      var valid := Filter(records, IsValid);
      if valid == [] then
        NoValidArticles
      else
        var sentiments := Scores(valid, SentimentOfRecord);
        var relevances := Scores(valid, Analyzer.RelevanceOf);
        var investments := Scores(valid, InvestmentOfRecord);
        MeanBounds(sentiments, -1.0, 1.0);
        AveragesInRange(records, valid);
        Insights(|records|, |valid|,
                 LabelDistribution(Labels(valid)), ImpactDistribution(Impacts(valid)),
                 MostCommon(CompanySymbols(valid), 10),
                 Mean(sentiments), Mean(relevances), Mean(investments),
                 MostCommon(KeywordPairs(valid), 15),
                 |Filter(valid, HighlyRelevant)|)
  }

  /** A symbol some valid record mentions is listed with its count, unless
      ten symbols at least as frequent fill the list. */
  lemma SummaryTopCompanies(records: seq<Analyzer.Analysis>, s: string)
    requires s in CompanySymbols(Filter(records, IsValid))
    ensures var r := SummaryInsights(records);
      var n := Count(CompanySymbols(Filter(records, IsValid)), s);
      && r.Insights?
      && ((s, n) in r.topCompanies || (|r.topCompanies| == 10 && r.topCompanies[9].1 >= n))
  {
    var valid := Filter(records, IsValid);
    assert valid != [];
    MostCommonTop(CompanySymbols(valid), 10, s);
  }

  /** A (keyword, category) pair some valid record found is listed with its
      count, unless fifteen pairs at least as frequent fill the list. */
  lemma SummaryTopKeywords(records: seq<Analyzer.Analysis>, x: (string, Keywords.Category))
    requires x in KeywordPairs(Filter(records, IsValid))
    ensures var r := SummaryInsights(records);
      var n := Count(KeywordPairs(Filter(records, IsValid)), x);
      && r.Insights?
      && ((x, n) in r.topKeywords || (|r.topKeywords| == 15 && r.topKeywords[14].1 >= n))
  {
    var valid := Filter(records, IsValid);
    assert valid != [];
    MostCommonTop(KeywordPairs(valid), 15, x);
  }

  /** For records `analyze_article` built, each top company's count is the
      number of valid articles mentioning it, and each top keyword's count
      the number of valid articles that found it. */
  lemma SummaryCountsArticles(records: seq<Analyzer.Analysis>)
    requires forall i :: 0 <= i < |records| ==> DistinctMentions(records[i])
    ensures var r := SummaryInsights(records);
      var valid := Filter(records, IsValid);
      r.Insights? ==>
        && (forall k :: 0 <= k < |r.topCompanies| ==>
              r.topCompanies[k].1 == |Filter(valid, Mentioning(r.topCompanies[k].0))|)
        && (forall k :: 0 <= k < |r.topKeywords| ==>
              r.topKeywords[k].1 == |Filter(valid, Finding(r.topKeywords[k].0.0, r.topKeywords[k].0.1))|)
  {
    var r := SummaryInsights(records);
    var valid := Filter(records, IsValid);
    DrawnFrom(valid, records, DistinctMentions);
    if r.Insights? {
      forall k | 0 <= k < |r.topCompanies|
        ensures r.topCompanies[k].1 == |Filter(valid, Mentioning(r.topCompanies[k].0))|
      {
        MentionCount(valid, r.topCompanies[k].0);
      }
      forall k | 0 <= k < |r.topKeywords|
        ensures r.topKeywords[k].1 == |Filter(valid, Finding(r.topKeywords[k].0.0, r.topKeywords[k].0.1))|
      {
        KeywordCount(valid, r.topKeywords[k].0.0, r.topKeywords[k].0.1);
      }
    }
  }
}

=== FILE: keywords.dfy ===
/** Lexicon keyword matching (`extract_investment_keywords`). */
module Keywords {
  import opened Text
  import opened Seqs
  import Config

  datatype Category = PositiveWords | NegativeWords | NeutralWords

  /** The phrases of one lexicon category. */
  function Lexicon(c: Category): seq<string> {
    match c
    case PositiveWords => Config.PositiveKeywords
    case NegativeWords => Config.NegativeKeywords
    case NeutralWords => Config.NeutralKeywords
  }

  /** `keywords_found`: the distinct lexicon phrases found, per category. */
  datatype Found = Found(positive: seq<string>, negative: seq<string>, neutral: seq<string>) {
    function Get(c: Category): seq<string> {
      match c
      case PositiveWords => positive
      case NegativeWords => negative
      case NeutralWords => neutral
    }

    function Total(): nat {
      |positive| + |negative| + |neutral|
    }
  }

  datatype KeywordResult = KeywordResult(found: Found, density: real, total: nat)

  /** `keyword.lower() in text_lower` */
  predicate Occurs(text: string, keyword: string): (b: bool)
    ensures keyword == [] ==> b
    ensures b ==> |keyword| <= |text|
  {
    var b := Contains(LowerStr(text), LowerStr(keyword));
    assert b ==> |LowerStr(keyword)| <= |LowerStr(text)| by {
      if b {
        ContainsLength(LowerStr(text), LowerStr(keyword));
      }
    }
    assert keyword == [] ==> StartsWith(LowerStr(text), LowerStr(keyword));
    b
  }

  /** The phrases of category `c` that occur in `text`, each once, in lexicon
      order (the source's `list(set(...))` leaves the order unspecified). */
  function MatchCategory(text: string, c: Category): (r: seq<string>)
    ensures NoDup(r)
    ensures forall i :: 0 <= i < |r| ==> r[i] in Lexicon(c) && Occurs(text, r[i])
    ensures forall k :: k in Lexicon(c) && Occurs(text, k) ==> k in r
  {
    var hits := Filter(Lexicon(c), k => Occurs(text, k));
    var r := Distinct(hits);
    assert forall k :: k in Lexicon(c) && Occurs(text, k) ==> k in hits by {
      forall k | k in Lexicon(c) && Occurs(text, k) ensures k in hits {
        var i :| 0 <= i < |Lexicon(c)| && Lexicon(c)[i] == k;
      }
    }
    assert forall k :: k in hits ==> k in r by {
      forall k | k in hits ensures k in r {
        var i :| 0 <= i < |hits| && hits[i] == k;
      }
    }
    r
  }

  /** The matches of every category, each computed by `MatchCategory`. */
  function FindAll(text: string): (f: Found)
    ensures forall c: Category :: f.Get(c) == MatchCategory(text, c)
  {
    Tabulate(c => MatchCategory(text, c))
  }

  /** The per-category table of `m`. */
  function Tabulate(m: Category -> seq<string>): (f: Found)
    ensures forall c: Category :: f.Get(c) == m(c)
  {
    Found(m(PositiveWords), m(NegativeWords), m(NeutralWords))
  }

  /** `extract_investment_keywords` */
  function ExtractKeywords(text: string): (r: KeywordResult)
    ensures forall c: Category :: NoDup(r.found.Get(c))
    ensures forall c: Category, k :: k in r.found.Get(c) <==> k in Lexicon(c) && Occurs(text, k)
    ensures r.total == |r.found.positive| + |r.found.negative| + |r.found.neutral|
    ensures r.density >= 0.0
    ensures Split(text) == [] ==> r.density == 0.0
    ensures r.density == Ratio(r.total, |Split(text)|)
  {
    var found := FindAll(text);
    var words := Split(text);
    var total := found.Total();
    var density := Ratio(total, |words|);
    KeywordResult(found, density, total)
  }

  /** Matching ignores case: a text and its lower-cased form contain the
      same keywords. */
  lemma KeywordsIgnoreCase(text: string)
    ensures ExtractKeywords(LowerStr(text)).found == ExtractKeywords(text).found
    ensures ExtractKeywords(LowerStr(text)).total == ExtractKeywords(text).total
  {
    LowerStrIdempotent(text);
    forall c: Category ensures MatchCategory(LowerStr(text), c) == MatchCategory(text, c) {
      FilterCongruent(Lexicon(c), k => Occurs(LowerStr(text), k), k => Occurs(text, k));
    }
  }
}

=== FILE: matching.dfy ===
/** Company matching (`match_companies`, `_calculate_match_confidence`,
    `_get_words_around_match`). */
module Matching {
  import opened Text
  import opened Seqs
  import opened Wrappers
  import Keywords
  import Names

  /** Words whose presence near a match raises confidence. */
  const ContextWords: seq<string> := ["company", "limited", "ltd", "corporation", "inc", "announces", "reports"]

  /** Variants so common that a match on them is penalised. */
  const CommonWords: seq<string> := ["the", "and", "or", "in", "on", "at", "to", "for", "of", "with"]

  /** Words of the context window around one position: `words[max(0, p -
      w):min(len(words), p + w + 1)]`. */
  function Window(words: seq<string>, p: nat, w: nat): (r: seq<string>)
    requires p < |words|
  {
    var lo := if p >= w then p - w else 0;
    var hi := if p + w + 1 <= |words| then p + w + 1 else |words|;
    words[lo..hi]
  }

  /** `x` is one of the words at most `w` positions from `q`. */
  predicate Near(words: seq<string>, q: nat, w: nat, x: string) {
    exists i :: 0 <= i < |words| && q <= i + w && i <= q + w && words[i] == x
  }

  /** The window holds exactly the words at most `w` positions from `p`. */
  lemma WindowMembers(words: seq<string>, p: nat, w: nat, x: string)
    requires p < |words|
    ensures x in Window(words, p, w) <==> Near(words, p, w, x)
  {
    var lo := if p >= w then p - w else 0;
    var r := Window(words, p, w);
    if x in r {
      var k :| 0 <= k < |r| && r[k] == x;
      assert words[lo + k] == x;
    }
    if Near(words, p, w, x) {
      var i :| 0 <= i < |words| && p <= i + w && i <= p + w && words[i] == x;
      assert r[i - lo] == x;
    }
  }

  /** The windows around every word from position `p` on that satisfies
      `hit`, concatenated in order. */
  function Around(words: seq<string>, hit: string -> bool, w: nat, p: nat): (r: seq<string>)
    requires p <= |words|
    decreases |words| - p
  {
    if p == |words| then []
    else (if hit(words[p]) then Window(words, p, w) else []) + Around(words, hit, w, p + 1)
  }

  /** `x` lies within `w` positions of a hit at or after `p`. */
  predicate NearHit(words: seq<string>, hit: string -> bool, w: nat, p: nat, x: string) {
    exists q :: p <= q < |words| && hit(words[q]) && Near(words, q, w, x)
  }

  /** A word is in the context exactly when it lies within `w` positions of
      a hit at or after `p`. */
  lemma {:induction false} AroundMembers(words: seq<string>, hit: string -> bool, w: nat, p: nat, x: string)
    requires p <= |words|
    ensures x in Around(words, hit, w, p) <==> NearHit(words, hit, w, p, x)
    decreases |words| - p
  {
    if p < |words| {
      var here := if hit(words[p]) then Window(words, p, w) else [];
      var rest := Around(words, hit, w, p + 1);
      assert Around(words, hit, w, p) == here + rest;
      AroundMembers(words, hit, w, p + 1, x);
      if hit(words[p]) {
        WindowMembers(words, p, w, x);
      }
      NearHitStep(words, hit, w, p, x);
    }
  }

  /** A hit at `p` or a hit after it. */
  lemma NearHitStep(words: seq<string>, hit: string -> bool, w: nat, p: nat, x: string)
    requires p < |words|
    ensures NearHit(words, hit, w, p, x) <==>
      (hit(words[p]) && Near(words, p, w, x)) || NearHit(words, hit, w, p + 1, x)
  {
    if NearHit(words, hit, w, p, x) {
      var q :| p <= q < |words| && hit(words[q]) && Near(words, q, w, x);
      if q != p {
        assert p + 1 <= q;
      }
    }
  }

  /** `_get_words_around_match(text, match, window)` */
  function WordsAround(text: string, m: string, window: nat): (r: seq<string>)
    ensures forall x :: x in r <==>
      exists q :: 0 <= q < |Split(text)| && Contains(Split(text)[q], m) && Near(Split(text), q, window, x)
  {
    var words := Split(text);
    var hit := word => Contains(word, m);
    assert forall x :: x in Around(words, hit, window, 0) <==> NearHit(words, hit, window, 0, x) by {
      forall x ensures x in Around(words, hit, window, 0) <==> NearHit(words, hit, window, 0, x) {
        AroundMembers(words, hit, window, 0, x);
      }
    }
    Around(words, hit, window, 0)
  }

  /** The context words found around the match, each once. */
  function ContextHits(around: seq<string>, ctx: seq<string>): (r: seq<string>)
    ensures |r| <= |ctx|
    ensures forall i :: 0 <= i < |r| ==> r[i] in around && r[i] in ctx
    ensures forall i :: 0 <= i < |ctx| && ctx[i] in around ==> ctx[i] in r
    ensures IsSubseq(r, ctx)
    ensures NoDup(ctx) ==> NoDup(r)
  {
    FilterIsSubseq(ctx, c => c in around);
    FilterNoDup(ctx, c => c in around);
    Filter(ctx, c => c in around)
  }

  /** `_calculate_match_confidence(text, variant, full_name)`: 0.4 when the
      variant occurs, 0.3 when the full name occurs, 0.1 per context word
      near the variant, minus 0.5 for a common word, capped at 1.0. */
  function Confidence(text: string, variant: string, fullName: string): (r: real)
    ensures -0.5 <= r <= 1.0
  {
    var textLower := LowerStr(text);
    var variantLower := LowerStr(variant);
    var base := if Contains(textLower, variantLower) then 0.4 else 0.0;
    var name := if Contains(textLower, LowerStr(fullName)) then 0.3 else 0.0;
    var hits := ContextHits(WordsAround(textLower, variantLower, 10), ContextWords);
    var penalty := if variantLower in CommonWords then 0.5 else 0.0;
    Min(base + name + 0.1 * (|hits| as real) - penalty, 1.0)
  }

  /** A match whose variant contains whitespace gets no context bonus:
      no single word contains it. */
  lemma SpacedVariantNoContext(text: string, variant: string)
    requires !NoSpace(LowerStr(variant))
    ensures WordsAround(LowerStr(text), LowerStr(variant), 10) == []
  {
    var words := Split(LowerStr(text));
    var m := LowerStr(variant);
    forall q | 0 <= q < |words| ensures !Contains(words[q], m) {
      if Contains(words[q], m) {
        ContainsNoSpace(words[q], m);
      }
    }
    if WordsAround(LowerStr(text), m, 10) != [] {
      var x := WordsAround(LowerStr(text), m, 10)[0];
      AroundMembers(words, word => Contains(word, m), 10, 0, x);
    }
  }

  /** The confidence of a variant that occurs, next to the full name, is at
      least 0.7 unless the variant is a common word, so such a match is
      always kept. */
  lemma ConfidenceWithFullName(text: string, variant: string, fullName: string)
    requires Keywords.Occurs(text, variant) && Keywords.Occurs(text, fullName)
    requires LowerStr(variant) !in CommonWords
    ensures Confidence(text, variant, fullName) >= 0.7
  {
  }

  /** A common-word variant scores at most 0.6 without the full name, and
      at most 0.3 (so it is dropped) with fewer than three context words. */
  lemma CommonWordPenalty(text: string, variant: string, fullName: string)
    requires LowerStr(variant) in CommonWords
    requires !Keywords.Occurs(text, fullName)
    ensures Confidence(text, variant, fullName) <= 0.6
    ensures |ContextHits(WordsAround(LowerStr(text), LowerStr(variant), 10), ContextWords)| < 3
            ==> Confidence(text, variant, fullName) <= 0.3
  {
  }

  datatype Company = Company(name: string, symbol: string, variantOrder: seq<string>)

  /** `variantOrder` lists the variant set of the name, each once, in the
      order Python's set iteration produces. */
  predicate EnumeratesVariants(c: Company) {
    && NoDup(c.variantOrder)
    && (set i | 0 <= i < |c.variantOrder| :: c.variantOrder[i]) == Names.Variants(c.name)
  }

  datatype CompanyMatch = CompanyMatch(symbol: string, companyName: string, variant: string, confidence: real)

  function MatchSymbol(m: CompanyMatch): string { m.symbol }
  function ConfidenceKey(m: CompanyMatch): real { m.confidence }

  /** The variants scanned for a company: the variant list, then the
      symbol when there is one. */
  function Candidates(c: Company): (r: seq<string>)
    ensures forall i :: 0 <= i < |r| ==> r[i] in c.variantOrder || r[i] == c.symbol
  {
    c.variantOrder + (if c.symbol != [] then [c.symbol] else [])
  }

  /** A variant is taken when it is longer than two characters, occurs in
      the text case-insensitively and scores above 0.3. */
  predicate Accepts(text: string, name: string, v: string) {
    |v| > 2 && Keywords.Occurs(text, v) && Confidence(text, v, name) > 0.3
  }

  /** Index of the first element of `vs` that `accept` takes. */
  function Scan(vs: seq<string>, accept: string -> bool): (r: Option<nat>)
    ensures r.Some? ==> r.value < |vs| && accept(vs[r.value])
    ensures r.Some? ==> forall k :: 0 <= k < r.value ==> !accept(vs[k])
    ensures r.None? ==> forall k :: 0 <= k < |vs| ==> !accept(vs[k])
    decreases |vs|
  {
    if vs == [] then None
    else if accept(vs[0]) then Some(0)
    else
      match Scan(vs[1..], accept)
      case Some(k) => Some(k + 1)
      case None => None
  }

  /** One company's contribution to `matched_companies`: its first accepted
      candidate, in scan order (the scan breaks only after an inclusion). */
  function FirstMatch(text: string, c: Company): (r: Option<CompanyMatch>)
    ensures c.name == [] ==> r.None?
    ensures r.Some? ==> (exists k :: 0 <= k < |Candidates(c)| && Candidates(c)[k] == r.value.variant
                                    && forall k' :: 0 <= k' < k ==> !Accepts(text, c.name, Candidates(c)[k']))
    ensures r.Some? ==>
      && r.value.symbol == c.symbol && r.value.companyName == c.name
      && r.value.variant in Candidates(c)
      && r.value.confidence == Confidence(text, r.value.variant, c.name)
      && Accepts(text, c.name, r.value.variant)
    ensures c.name != [] && r.None? ==> forall v :: v in Candidates(c) ==> !Accepts(text, c.name, v)
  {
    if c.name == [] then None
    else
      var vs := Candidates(c);
      match Scan(vs, v => Accepts(text, c.name, v))
      case Some(k) => Some(CompanyMatch(c.symbol, c.name, vs[k], Confidence(text, vs[k], c.name)))
      case None => None
  }

  /** With a faithful variant order, a match is on one of the name's
      variants or on the symbol. */
  lemma MatchedVariantIsVariant(text: string, c: Company)
    requires EnumeratesVariants(c)
    requires FirstMatch(text, c).Some?
    ensures FirstMatch(text, c).value.variant in Names.Variants(c.name)
            || FirstMatch(text, c).value.variant == c.symbol
  {
    CandidatesAreVariants(c);
  }

  /** With a faithful variant order, every candidate is a variant of the
      name or the symbol. */
  lemma CandidatesAreVariants(c: Company)
    requires EnumeratesVariants(c)
    ensures forall v :: v in Candidates(c) ==> v in Names.Variants(c.name) || v == c.symbol
  {
    var vs := Names.Variants(c.name);
    forall v | v in Candidates(c) && v in c.variantOrder
      ensures v in vs
    {
      InElems(c.variantOrder, v);
    }
  }

  /** What every entry of `matched_companies` satisfies. */
  predicate Included(text: string, m: CompanyMatch) {
    m.confidence > 0.3 && |m.variant| > 2 && Keywords.Occurs(text, m.variant)
  }

  /** `m` is the match of one of the companies. */
  predicate MatchOf(text: string, companies: seq<Company>, m: CompanyMatch) {
    exists j :: 0 <= j < |companies| && FirstMatch(text, companies[j]) == Some(m)
  }

  /** The included matches, in company order. */
  function AllMatches(text: string, companies: seq<Company>): (r: seq<CompanyMatch>)
    ensures |r| <= |companies|
    ensures forall i :: 0 <= i < |r| ==> Included(text, r[i])
    ensures forall i :: 0 <= i < |r| ==> MatchOf(text, companies, r[i])
    ensures forall j :: 0 <= j < |companies| && FirstMatch(text, companies[j]).Some?
                        ==> FirstMatch(text, companies[j]).value in r
  {
    var found := seq(|companies|, j requires 0 <= j < |companies| => FirstMatch(text, companies[j]));
    FoundMatches(text, companies, found);
    Somes(found)
  }

  /** Every present value among the companies' matches is an included
      match of one of them. */
  lemma FoundMatches(text: string, companies: seq<Company>, found: seq<Option<CompanyMatch>>)
    requires |found| == |companies|
    requires forall j :: 0 <= j < |companies| ==> found[j] == FirstMatch(text, companies[j])
    ensures forall i :: 0 <= i < |Somes(found)| ==>
      Included(text, Somes(found)[i]) && MatchOf(text, companies, Somes(found)[i])
  {
    var r := Somes(found);
    forall i | 0 <= i < |r| ensures Included(text, r[i]) && MatchOf(text, companies, r[i]) {
      var j :| 0 <= j < |found| && found[j] == Some(r[i]);
      assert FirstMatch(text, companies[j]) == Some(r[i]);
    }
  }

  /** The symbols of the companies that match. */
  function MatchedSymbols(text: string, companies: seq<Company>): set<string> {
    set j | 0 <= j < |companies| && FirstMatch(text, companies[j]).Some? :: companies[j].symbol
  }

  datatype CompanyResult = CompanyResult(matched: seq<CompanyMatch>, count: nat)

  /** `match_companies`: the top five matches by confidence, one per
      symbol, and the number of distinct matched symbols. A symbol keeps its
      first most confident match: a later match replaces it only when
      strictly more confident. */
  function MatchCompanies(text: string, companies: seq<Company>): (r: CompanyResult)
    ensures forall i :: 0 <= i < |r.matched| ==> Included(text, r.matched[i])
    ensures forall i :: 0 <= i < |r.matched| ==> MatchOf(text, companies, r.matched[i])
    ensures KeysDistinct(r.matched, MatchSymbol)
    ensures SortedDesc(r.matched, ConfidenceKey)
    ensures r.count == |MatchedSymbols(text, companies)|
    ensures |r.matched| <= 5 && |r.matched| <= r.count
    ensures |r.matched| == 5 || |r.matched| == r.count
    ensures r.count <= |companies|
  {
    var ranked := Ranked(text, companies);
    TakeKeepsOrder(ranked, 5, MatchSymbol, ConfidenceKey);
    RankedCount(text, companies);
    CompanyResult(Take(ranked, 5), |ranked|)
  }

  /** Every match, one per symbol, most confident first; each symbol that
      matches is listed with at least the confidence of each of its
      matches. */
  function Ranked(text: string, companies: seq<Company>): (r: seq<CompanyMatch>)
    ensures forall i :: 0 <= i < |r| ==> Included(text, r[i])
    ensures forall i :: 0 <= i < |r| ==> MatchOf(text, companies, r[i])
    ensures forall j :: 0 <= j < |companies| && FirstMatch(text, companies[j]).Some?
                        ==> Dominates(r, MatchSymbol, ConfidenceKey, FirstMatch(text, companies[j]).value)
    ensures KeysDistinct(r, MatchSymbol)
    ensures SortedDesc(r, ConfidenceKey)
    ensures |r| <= |companies|
  {
    var all := AllMatches(text, companies);
    var ranked := RankUnique(all, MatchSymbol, ConfidenceKey);
    DrawnFrom(ranked, all, m => Included(text, m));
    DrawnFrom(ranked, all, m => MatchOf(text, companies, m));
    AllDominated(text, companies, all, ranked);
    ranked
  }

  /** What the ranking keeps of every match it was given holds of every
      company's match. */
  lemma AllDominated(text: string, companies: seq<Company>, all: seq<CompanyMatch>, ranked: seq<CompanyMatch>)
    requires all == AllMatches(text, companies)
    requires forall a :: 0 <= a < |all| ==> Dominates(ranked, MatchSymbol, ConfidenceKey, all[a])
    ensures forall j :: 0 <= j < |companies| && FirstMatch(text, companies[j]).Some?
                        ==> Dominates(ranked, MatchSymbol, ConfidenceKey, FirstMatch(text, companies[j]).value)
  {
    forall j | 0 <= j < |companies| && FirstMatch(text, companies[j]).Some?
      ensures Dominates(ranked, MatchSymbol, ConfidenceKey, FirstMatch(text, companies[j]).value)
    {
      var a :| 0 <= a < |all| && all[a] == FirstMatch(text, companies[j]).value;
    }
  }

  /** Every ranked symbol is the symbol of a matching company. */
  lemma RankedKeysWithin(text: string, companies: seq<Company>)
    ensures Keys(Ranked(text, companies), MatchSymbol) <= MatchedSymbols(text, companies)
  {
    var r := Ranked(text, companies);
    forall y | y in Keys(r, MatchSymbol) ensures y in MatchedSymbols(text, companies) {
      var i :| 0 <= i < |r| && MatchSymbol(r[i]) == y;
      assert MatchOf(text, companies, r[i]);
      var j :| 0 <= j < |companies| && FirstMatch(text, companies[j]) == Some(r[i]);
    }
  }

  /** The symbol of every matching company is ranked. */
  lemma RankedKeysCover(text: string, companies: seq<Company>)
    ensures MatchedSymbols(text, companies) <= Keys(Ranked(text, companies), MatchSymbol)
  {
    var r := Ranked(text, companies);
    forall y | y in MatchedSymbols(text, companies) ensures y in Keys(r, MatchSymbol) {
      var j :| 0 <= j < |companies| && FirstMatch(text, companies[j]).Some? && companies[j].symbol == y;
      assert Dominates(r, MatchSymbol, ConfidenceKey, FirstMatch(text, companies[j]).value);
      var k := IndexOfKey(r, MatchSymbol, y);
      assert MatchSymbol(r[k]) == y;
    }
  }

  /** The ranking lists each matched symbol once, so it is as long as the
      set of matched symbols is large. */
  lemma RankedCount(text: string, companies: seq<Company>)
    ensures |Ranked(text, companies)| == |MatchedSymbols(text, companies)|
  {
    var r := Ranked(text, companies);
    RankedKeysWithin(text, companies);
    RankedKeysCover(text, companies);
    assert Keys(r, MatchSymbol) == MatchedSymbols(text, companies);
    KeysCard(r, MatchSymbol);
  }

  /** Top five: a matching company's symbol is listed with at least that
      company's confidence, or five matches are listed and the fifth is at
      least as confident. */
  lemma MatchCompaniesTop(text: string, companies: seq<Company>, j: nat)
    requires j < |companies| && FirstMatch(text, companies[j]).Some?
    ensures var r := MatchCompanies(text, companies);
      var m := FirstMatch(text, companies[j]).value;
      || (&& HasKey(r.matched, MatchSymbol, m.symbol)
          && r.matched[IndexOfKey(r.matched, MatchSymbol, m.symbol)].confidence >= m.confidence)
      || (|r.matched| == 5 && r.matched[4].confidence >= m.confidence)
  {
    var ranked := Ranked(text, companies);
    var r := MatchCompanies(text, companies);
    var m := FirstMatch(text, companies[j]).value;
    var k := IndexOfKey(ranked, MatchSymbol, m.symbol);
    assert k < |ranked| && ranked[k].confidence >= m.confidence;
    if k < 5 {
      assert r.matched[k] == ranked[k];
      IndexOfKeyAt(r.matched, MatchSymbol, k);
    } else {
      assert r.matched[4] == ranked[4];
    }
  }

  /** When at most five symbols match, every matching company's symbol is
      listed, with at least the confidence of that company's own match. */
  lemma MatchedCompanyListed(text: string, companies: seq<Company>, j: nat)
    requires j < |companies| && FirstMatch(text, companies[j]).Some?
    ensures var r := MatchCompanies(text, companies);
      r.count <= 5 ==>
        && HasKey(r.matched, MatchSymbol, companies[j].symbol)
        && r.matched[IndexOfKey(r.matched, MatchSymbol, companies[j].symbol)].confidence
           >= FirstMatch(text, companies[j]).value.confidence
  {
    var ranked := Ranked(text, companies);
    var r := MatchCompanies(text, companies);
    assert Dominates(ranked, MatchSymbol, ConfidenceKey, FirstMatch(text, companies[j]).value);
    if r.count <= 5 {
      assert r.matched == ranked;
    }
  }
}

=== FILE: names.dfy ===
/** Company-name normalisation and name similarity (`clean_company_name`,
    `extract_company_variants`, `calculate_text_similarity`). */
module Names {
  import opened Text
  import opened Seqs

  /** The patterns `clean_company_name` deletes, in the order it deletes
      them. `str.replace` removes them wherever they occur, not only at the
      end of the name. */
  const SuffixesToRemove: seq<string> := [
    " limited", " ltd", " ltd.", " corporation", " corp", " corp.",
    " company", " co", " co.", " inc", " inc.", " llc",
    " private limited", " pvt ltd", " pvt. ltd.",
    " public limited", " plc"]

  /** Deletes every occurrence of each pattern, one pattern after the other
      (replacing an empty pattern by '' leaves a string as it is). */
  function RemovePatterns(s: string, pats: seq<string>): (r: string)
    ensures |r| <= |s|
    ensures forall i :: 0 <= i < |r| ==> r[i] in s
    ensures (forall k :: 0 <= k < |pats| ==> !Contains(s, pats[k])) ==> r == s
    ensures forall k :: 0 <= k < |pats| && FirstContained(s, pats, k) ==> |r| <= |s| - |pats[k]|
    decreases |pats|
  {
    if pats == [] then s
    else
      var t := if pats[0] == [] then s else RemoveAll(s, pats[0]);
      var r := RemovePatterns(t, pats[1..]);
      assert forall i :: 0 <= i < |r| ==> r[i] in t;
      assert forall k :: 1 <= k < |pats| && FirstContained(s, pats, k) ==> FirstContained(t, pats[1..], k - 1);
      r
  }

  /** `pats[k]` is the first non-empty pattern that occurs in `s`. */
  predicate FirstContained(s: string, pats: seq<string>, k: nat)
    requires k < |pats|
  {
    && pats[k] != []
    && Contains(s, pats[k])
    && (forall j :: 0 <= j < k ==> pats[j] == [] || !Contains(s, pats[j]))
  }

  /** The patterns can be deleted in two batches: the first `k`, then the
      rest. */
  lemma {:induction false} RemovePatternsSplit(s: string, pats: seq<string>, k: nat)
    requires k <= |pats|
    ensures RemovePatterns(s, pats) == RemovePatterns(RemovePatterns(s, pats[..k]), pats[k..])
    decreases k
  {
    if k == 0 {
      assert pats[..0] == [] && pats[0..] == pats;
    } else {
      var t := if pats[0] == [] then s else RemoveAll(s, pats[0]);
      RemovePatternsSplit(t, pats[1..], k - 1);
      assert pats[1..][..k - 1] == pats[..k][1..];
      assert pats[1..][k - 1..] == pats[k..];
    }
  }

  /** `re.sub(r'\s+', ' ', re.sub(r'[^\w\s]', ' ', s)).strip()` */
  function Tidy(s: string): (r: string)
    ensures SingleSpaced(r)
    ensures forall i :: 0 <= i < |r| ==> IsWordChar(r[i]) || r[i] == ' '
    ensures forall i :: 0 <= i < |r| && r[i] != ' ' ==> r[i] in s
    ensures Split(r) == Split(PunctToSpace(s))
  {
    var r := Strip(Collapse(PunctToSpace(s)));
    CollapseStripSingleSpaced(PunctToSpace(s));
    TidyChars(s);
    SplitStrip(Collapse(PunctToSpace(s)));
    SplitCollapse(PunctToSpace(s));
    r
  }

  /** The tidied text is the words of `s`, with punctuation read as
      whitespace, joined by single spaces. */
  lemma TidyJoinsWords(s: string)
    ensures Tidy(s) == Join(Split(PunctToSpace(s)), " ")
  {
    JoinSplitSingleSpaced(Tidy(s));
  }

  /** Tidying keeps word characters of `s` and turns the rest into spaces. */
  lemma TidyChars(s: string)
    ensures var r := Strip(Collapse(PunctToSpace(s)));
      forall i :: 0 <= i < |r| ==> (IsWordChar(r[i]) || r[i] == ' ') && (r[i] != ' ' ==> r[i] in s)
  {
    var spaced := PunctToSpace(s);
    var r := Strip(Collapse(spaced));
    CollapseStripSingleSpaced(spaced);
    forall i | 0 <= i < |r| ensures (IsWordChar(r[i]) || r[i] == ' ') && (r[i] != ' ' ==> r[i] in s) {
      if !IsSpace(r[i]) {
        var k :| 0 <= k < |spaced| && spaced[k] == r[i];
      }
    }
  }

  /** Lower-cases, deletes the patterns, turns punctuation into spaces and
      collapses and strips the whitespace. */
  function CleanWith(name: string, pats: seq<string>): (r: string)
    ensures SingleSpaced(r)
    ensures forall i :: 0 <= i < |r| ==> (IsWordChar(r[i]) || r[i] == ' ') && !IsUpper(r[i])
    ensures Split(r) == Split(PunctToSpace(RemovePatterns(LowerStr(name), pats)))
  {
    var lowered := LowerStr(name);
    var removed := RemovePatterns(lowered, pats);
    assert forall i :: 0 <= i < |removed| ==> !IsUpper(removed[i]);
    Tidy(removed)
  }

  /** `clean_company_name` */
  function CleanCompanyName(name: string): (r: string)
    ensures SingleSpaced(r)
    ensures forall i :: 0 <= i < |r| ==> (IsWordChar(r[i]) || r[i] == ' ') && !IsUpper(r[i])
    ensures Split(r) == Split(PunctToSpace(RemovePatterns(LowerStr(name), SuffixesToRemove)))
  {
    var pats := SuffixesToRemove;
    CleanWith(name, pats)
  }

  lemma {:induction false} CollapseLength(s: string)
    ensures |Collapse(s)| <= |s|
    decreases |s|
  {
    if s != [] {
      if IsSpace(s[0]) {
        CollapseLength(TrimLeft(s));
      } else {
        CollapseLength(s[1..]);
      }
    }
  }

  /** A lower-case, single-spaced string of word characters that contains
      none of the patterns: the strings cleaning leaves as they are. */
  predicate CleanFor(s: string, pats: seq<string>) {
    && SingleSpaced(s)
    && (forall i :: 0 <= i < |s| ==> (IsWordChar(s[i]) || s[i] == ' ') && !IsUpper(s[i]))
    && (forall k :: 0 <= k < |pats| ==> !Contains(s, pats[k]))
  }

  lemma {:induction false} CollapseOfSingleSpaced(s: string)
    requires forall i :: 0 <= i < |s| && IsSpace(s[i]) ==> s[i] == ' '
    requires forall i :: 0 <= i && i + 1 < |s| ==> !(IsSpace(s[i]) && IsSpace(s[i + 1]))
    ensures Collapse(s) == s
    decreases |s|
  {
    if s != [] {
      if IsSpace(s[0]) {
        assert LeadingSpaces(s) == 1 by {
          if |s| > 1 {
            assert !IsSpace(s[1]);
            assert LeadingSpaces(s[1..]) == 0;
          }
        }
        assert TrimLeft(s) == s[1..];
      }
      CollapseOfSingleSpaced(s[1..]);
      assert s == [s[0]] + s[1..];
    }
  }

  /** Cleaning a clean string changes nothing. */
  lemma CleanWithFixesClean(s: string, pats: seq<string>)
    requires CleanFor(s, pats)
    ensures CleanWith(s, pats) == s
  {
    LowerOfLower(s);
    PunctOfWords(s);
    CollapseOfSingleSpaced(s);
    StripOfSingleSpaced(s);
  }

  /** Punctuation removal leaves a string of word characters and spaces as
      it is. */
  lemma PunctOfWords(s: string)
    requires forall i :: 0 <= i < |s| ==> IsWordChar(s[i]) || s[i] == ' '
    ensures PunctToSpace(s) == s
  {
  }

  /** Stripping leaves a single-spaced string as it is. */
  lemma StripOfSingleSpaced(s: string)
    requires SingleSpaced(s)
    ensures Strip(s) == s
  {
    assert LeadingSpaces(s) == 0;
  }

  /** A name already in clean form is its own cleaned name. */
  lemma CleanFixesClean(s: string)
    requires CleanFor(s, SuffixesToRemove)
    ensures CleanCompanyName(s) == s
  {
    CleanWithFixesClean(s, SuffixesToRemove);
  }

  /** Cleaning twice gives the same as cleaning once, unless the first pass
      left one of the patterns in the name (as "a b.co" becomes "a b co"). */
  lemma CleanIdempotent(name: string)
    requires forall k :: 0 <= k < |SuffixesToRemove| ==> !Contains(CleanCompanyName(name), SuffixesToRemove[k])
    ensures CleanCompanyName(CleanCompanyName(name)) == CleanCompanyName(name)
  {
    CleanWithFixesClean(CleanCompanyName(name), SuffixesToRemove);
  }

  /** `''.join([word[0].upper() for word in words if word])`: one
      upper-cased initial per word. */
  function Acronym(words: seq<string>): (r: string)
    ensures |r| <= |words|
    ensures (forall i :: 0 <= i < |words| ==> words[i] != []) ==>
      |r| == |words| && forall i :: 0 <= i < |r| ==> r[i] == Upper(words[i][0])
    decreases |words|
  {
    if words == [] then []
    else (if words[0] != [] then [Upper(words[0][0])] else []) + Acronym(words[1..])
  }

  /** `' '.join(words[:min(3, len(words))])` */
  function Partial(words: seq<string>): (r: string)
    ensures (forall i :: 0 <= i < |words| ==> IsWord(words[i])) ==> Split(r) == Take(words, 3)
  {
    var first := Take(words, 3);
    assert (forall i :: 0 <= i < |words| ==> IsWord(words[i])) ==> Split(Join(first, " ")) == first by {
      if forall i :: 0 <= i < |words| ==> IsWord(words[i]) {
        SplitJoin(first);
      }
    }
    Join(first, " ")
  }

  /** The variant set built from a name and its cleaned form. */
  function VariantsFrom(name: string, clean: string): (r: set<string>)
    ensures name in r
    ensures clean != [] && clean != LowerStr(name) ==> clean in r
    ensures |Split(clean)| >= 2 ==> Acronym(Split(clean)) in r && Partial(Split(clean)) in r
    ensures r <= {name, clean, Acronym(Split(clean)), Partial(Split(clean))}
    ensures forall x :: x in r ==>
      || x == name
      || (x == clean && clean != [] && clean != LowerStr(name))
      || (|Split(clean)| >= 2 && (x == Acronym(Split(clean)) || x == Partial(Split(clean))))
  {
    var words := Split(clean);
    var acronym := Acronym(words);
    // Split yields non-empty words, so with several words the acronym
    // passes the source's `len(acronym) > 1` test.
    assert |words| > 1 ==> |acronym| > 1;
    VariantSet(name, clean, clean != [] && clean != LowerStr(name), |words| >= 2, acronym, Partial(words))
  }

  /** The name, the cleaned form when it is kept, and the acronym and the
      partial name when there are several words. */
  function VariantSet(name: string, clean: string, keepClean: bool, several: bool, acronym: string, partial: string): (r: set<string>)
    ensures forall x :: x in r <==> x == name || (keepClean && x == clean) || (several && (x == acronym || x == partial))
  {
    {name} + (if keepClean then {clean} else {}) + (if several then {acronym, partial} else {})
  }

  /** `extract_company_variants`: the distinct variants (`list(set(...))`;
      the order of the list is Python's set order, which the matcher takes
      as a parameter). */
  function Variants(name: string): (r: set<string>)
    ensures name in r
    ensures var clean := CleanCompanyName(name);
      clean != [] && clean != LowerStr(name) ==> clean in r
    ensures var words := Split(CleanCompanyName(name));
      |words| >= 2 ==> Acronym(words) in r && Partial(words) in r
    ensures var words := Split(CleanCompanyName(name));
      r <= {name, CleanCompanyName(name), Acronym(words), Partial(words)}
    ensures var clean := CleanCompanyName(name);
      forall x :: x in r ==>
        || x == name
        || (x == clean && clean != [] && clean != LowerStr(name))
        || (|Split(clean)| >= 2 && (x == Acronym(Split(clean)) || x == Partial(Split(clean))))
  {
    VariantsFrom(name, CleanCompanyName(name))
  }

  /** With at most three cleaned words, the partial variant is the cleaned
      name itself. */
  lemma {:induction false} PartialOfShortName(name: string)
    requires |Split(CleanCompanyName(name))| <= 3
    ensures Partial(Split(CleanCompanyName(name))) == CleanCompanyName(name)
  {
    JoinSplitSingleSpaced(CleanCompanyName(name));
  }

  /** `set(text.lower().split())` */
  function TokenSet(text: string): (r: set<string>)
    ensures forall w :: w in r ==> w != [] && NoSpace(w)
    ensures forall w :: w in r ==> NoUpper(w)
    ensures forall w :: w in r <==> w in Split(LowerStr(text))
  {
    var low := LowerStr(text);
    assert NoUpper(low);
    SplitNoUpper(low);
    var words := Split(low);
    set k | 0 <= k < |words| :: words[k]
  }

  /** Similarity does not depend on letter case. */
  lemma SimilarityIgnoresCase(text1: string, text2: string)
    ensures TextSimilarity(LowerStr(text1), LowerStr(text2)) == TextSimilarity(text1, text2)
  {
    LowerStrIdempotent(text1);
    LowerStrIdempotent(text2);
    assert TokenSet(LowerStr(text1)) == TokenSet(text1);
    assert TokenSet(LowerStr(text2)) == TokenSet(text2);
  }

  /** `calculate_text_similarity`: the Jaccard index of the lower-cased
      token sets, 0 when either text is empty. */
  function TextSimilarity(text1: string, text2: string): (r: real)
    ensures 0.0 <= r <= 1.0
    ensures text1 == [] || text2 == [] ==> r == 0.0
    ensures text1 != [] && text2 != [] ==>
      r == Ratio(|TokenSet(text1) * TokenSet(text2)|, |TokenSet(text1) + TokenSet(text2)|)
  {
    if text1 == [] || text2 == [] then 0.0
    else
      var a := TokenSet(text1);
      var b := TokenSet(text2);
      assert a * b <= a + b;
      SubsetCard(a * b, a + b);
      Ratio(|a * b|, |a + b|)
  }

  lemma SubsetCard<T>(a: set<T>, b: set<T>)
    requires a <= b
    ensures |a| <= |b|
    ensures |a| == |b| ==> a == b
  {
    assert b == a + (b - a);
    assert |b| == |a| + |b - a|;
  }

  /** Similarity does not depend on the order of the texts. */
  lemma SimilaritySymmetric(text1: string, text2: string)
    ensures TextSimilarity(text1, text2) == TextSimilarity(text2, text1)
  {
    if text1 != [] && text2 != [] {
      var a := TokenSet(text1);
      var b := TokenSet(text2);
      assert a * b == b * a;
      assert a + b == b + a;
    }
  }

  /** Similarity is 1 exactly when both texts are non-empty and have the
      same non-empty token set. */
  lemma SimilarityOne(text1: string, text2: string)
    ensures TextSimilarity(text1, text2) == 1.0 <==>
      text1 != [] && text2 != [] && TokenSet(text1) == TokenSet(text2) && TokenSet(text1) != {}
  {
    if text1 != [] && text2 != [] {
      var a := TokenSet(text1);
      var b := TokenSet(text2);
      SubsetCard(a * b, a + b);
      var r := TextSimilarity(text1, text2);
      assert r == Ratio(|a * b|, |a + b|);
      if a == b && a != {} {
        assert a * b == a + b;
        assert |a + b| > 0;
      }
      if r == 1.0 {
        assert |a * b| == |a + b|;
        assert a * b == a + b;
        assert a == b by {
          assert forall x :: x in a ==> x in a * b;
          assert forall x :: x in b ==> x in a * b;
        }
      }
    }
  }

  /** "Tata Consultancy Services" lower-cased. */
  lemma TataLower()
    ensures LowerStr("Tata Consultancy Services") == "tata consultancy services"
  {
  }

  /** "tata consultancy services" has no 'm', 'd' or 'p'. */
  lemma TataLetters()
    ensures 'm' !in "tata consultancy services" && 'd' !in "tata consultancy services"
    ensures 'p' !in "tata consultancy services"
  {
  }

  /** A pattern holding an 'm', a 'd' or a 'p' does not occur in "tata
      consultancy services". */
  lemma TataAbsent(p: string, j: nat)
    requires j < |p| && (p[j] == 'm' || p[j] == 'd' || p[j] == 'p')
    ensures !Contains("tata consultancy services", p)
  {
    TataLetters();
    CharAbsent("tata consultancy services", p, j);
  }

  lemma HeadPatterns()
    ensures SuffixesToRemove[..7] == [" limited", " ltd", " ltd.", " corporation", " corp", " corp.", " company"]
  {
  }

  /** The first seven patterns leave "tata consultancy services" as it is. */
  lemma TataHead()
    ensures RemovePatterns("tata consultancy services", SuffixesToRemove[..7]) == "tata consultancy services"
  {
    var pats := SuffixesToRemove[..7];
    HeadPatterns();
    forall k | 0 <= k < |pats|
      ensures !Contains("tata consultancy services", pats[k])
    {
      var j := if k == 0 || k == 6 then 3 else if k < 3 then 3 else 4;
      assert pats[k][j] == 'm' || pats[k][j] == 'd' || pats[k][j] == 'p';
      TataAbsent(pats[k], j);
    }
  }

  /** The only space of "nsultancy services" and of "tatansultancy
      services" is followed by an 's'. */
  lemma TataSpaces()
    ensures forall i :: 0 <= i && i + 1 < |"nsultancy services"| && "nsultancy services"[i] == ' '
              ==> "nsultancy services"[i + 1] == 's'
    ensures forall i :: 0 <= i && i + 1 < |"tatansultancy services"| && "tatansultancy services"[i] == ' '
              ==> "tatansultancy services"[i + 1] == 's'
  {
  }

  /** In "tata consultancy services" the first " co" is at position 4. */
  lemma TataCoAt()
    ensures StartsWith("tata consultancy services"[4..], " co")
    ensures forall j :: 0 <= j < 4 ==> !StartsWith("tata consultancy services"[j..], " co")
  {
    assert ' ' !in "tata";
    FirstStartAfter("tata", " co", "nsultancy services");
    TataSplit();
  }

  lemma TataSplit()
    ensures "tata consultancy services" == "tata" + " co" + "nsultancy services"
  {
  }

  /** The text around the first " co" of "tata consultancy services". */
  lemma TataAroundCo()
    ensures "tata consultancy services"[..4] == "tata"
    ensures "tata consultancy services"[7..] == "nsultancy services"
  {
  }

  /** Deleting " co" from "tata consultancy services" keeps "tata" and
      resumes after the " co" of "consultancy". */
  lemma TataCoFirst()
    ensures RemoveAll("tata consultancy services", " co") == "tata" + RemoveAll("nsultancy services", " co")
  {
    var s := "tata consultancy services";
    TataCoAt();
    RemoveAllFirst(s, " co", 4);
    TataAroundCo();
  }

  lemma TataJoined()
    ensures "tata" + "nsultancy services" == "tatansultancy services"
  {
  }

  /** " co" does not occur in "nsultancy services". */
  lemma TataCoRest()
    ensures RemoveAll("nsultancy services", " co") == "nsultancy services"
  {
    TataSpaces();
    PairAbsent("nsultancy services", " co");
  }

  /** " co" occurs first inside "consultancy", and is deleted there. */
  lemma TataCo()
    ensures RemoveAll("tata consultancy services", " co") == "tatansultancy services"
  {
    TataCoFirst();
    TataCoRest();
    TataJoined();
  }

  /** The patterns after " co" do not occur in "tatansultancy services":
      none of them starts with " s". */
  lemma TataTail()
    ensures RemovePatterns("tatansultancy services", SuffixesToRemove[8..]) == "tatansultancy services"
  {
    var s := "tatansultancy services";
    var pats := SuffixesToRemove[8..];
    TataSpaces();
    forall k | 0 <= k < |pats|
      ensures !Contains(s, pats[k])
    {
      assert |pats[k]| >= 2 && pats[k][0] == ' ' && pats[k][1] != 's';
      PairAbsent(s, pats[k]);
    }
  }

  /** "tatansultancy services" is single-spaced. */
  lemma TataSingleSpaced()
    ensures SingleSpaced("tatansultancy services")
  {
    var s := "tatansultancy services";
    assert forall i :: 0 <= i < |s| ==> s[i] == ' ' || 'a' <= s[i] <= 'z';
    assert forall i :: 0 <= i < |s| && s[i] == ' ' ==> i == 13;
  }

  /** "tatansultancy services" is made of lower-case letters and a space. */
  lemma TataWords()
    ensures forall i :: 0 <= i < |"tatansultancy services"| ==>
      (IsWordChar("tatansultancy services"[i]) || "tatansultancy services"[i] == ' ')
      && !IsUpper("tatansultancy services"[i])
  {
    var s := "tatansultancy services";
    assert forall i :: 0 <= i < |s| ==> s[i] == ' ' || 'a' <= s[i] <= 'z';
  }

  /** "tatansultancy services" is already tidy. */
  lemma TataTidy()
    ensures Tidy("tatansultancy services") == "tatansultancy services"
  {
    var s := "tatansultancy services";
    TataSingleSpaced();
    TataWords();
    assert CleanFor(s, []);
    CleanWithFixesClean(s, []);
    LowerOfLower(s);
  }

  /** Deleting the patterns from " co" on is deleting " co", then the
      rest. */
  lemma RemovePatternsFromCo(s: string)
    ensures RemovePatterns(s, SuffixesToRemove[7..]) == RemovePatterns(RemoveAll(s, " co"), SuffixesToRemove[8..])
  {
    var pats := SuffixesToRemove[7..];
    assert pats[0] == " co" && pats[1..] == SuffixesToRemove[8..];
  }

  /** "Tata Consultancy Services" cleans to "tatansultancy services": the
      " co" pattern is deleted inside the word "consultancy". */
  lemma TataConsultancy()
    ensures CleanCompanyName("Tata Consultancy Services") == "tatansultancy services"
  {
    var lowered := "tata consultancy services";
    var pats := SuffixesToRemove;
    calc {
      CleanCompanyName("Tata Consultancy Services");
      Tidy(RemovePatterns(LowerStr("Tata Consultancy Services"), pats));
      { TataLower(); }
      Tidy(RemovePatterns(lowered, pats));
      { RemovePatternsSplit(lowered, pats, 7); }
      Tidy(RemovePatterns(RemovePatterns(lowered, pats[..7]), pats[7..]));
      { TataHead(); }
      Tidy(RemovePatterns(lowered, pats[7..]));
      { RemovePatternsFromCo(lowered); }
      Tidy(RemovePatterns(RemoveAll(lowered, " co"), pats[8..]));
      { TataCo(); }
      Tidy(RemovePatterns("tatansultancy services", pats[8..]));
      { TataTail(); }
      Tidy("tatansultancy services");
      { TataTidy(); }
      "tatansultancy services";
    }
  }

  lemma RelianceLower()
    ensures LowerStr("Reliance Industries Ltd.") == "reliance industries ltd."
  {
  }

  /** " limited" holds an 'm', which "reliance industries ltd." lacks. */
  lemma RelianceNoLimited()
    ensures !Contains("reliance industries ltd.", SuffixesToRemove[0])
  {
    assert SuffixesToRemove[0] == " limited";
    assert 'm' !in "reliance industries ltd.";
    CharAbsent("reliance industries ltd.", " limited", 3);
  }

  /** The first " ltd" of "reliance industries ltd." is its last word. */
  lemma RelianceLtdAt()
    ensures StartsWith("reliance industries ltd."[19..], " ltd")
    ensures forall j :: 0 <= j < 19 ==> !StartsWith("reliance industries ltd."[j..], " ltd")
  {
    var s := "reliance industries ltd.";
    assert s[19..][..4] == " ltd";
    assert forall j :: 0 <= j < 19 && s[j] == ' ' ==> j == 8;
    FirstStartOfPair(s, " ltd", 19);
  }

  /** Deleting " ltd" leaves "reliance industries.". */
  lemma RelianceLtd()
    ensures RemoveAll("reliance industries ltd.", " ltd") == "reliance industries."
  {
    var s := "reliance industries ltd.";
    RelianceLtdAt();
    RemoveAllFirst(s, " ltd", 19);
    RelianceAroundLtd();
    CharAbsent(".", " ltd", 0);
  }

  lemma RelianceAroundLtd()
    ensures "reliance industries ltd."[..19] == "reliance industries"
    ensures "reliance industries ltd."[23..] == "."
    ensures "reliance industries" + "." == "reliance industries."
  {
  }

  /** " inc" and " inc." do not occur in "reliance industries.": its only
      space starts " ind". */
  lemma IndustriesNoInc(p: string)
    requires |p| >= 4 && p[0] == ' ' && p[3] == 'c'
    ensures !Contains("reliance industries.", p)
  {
    var s := "reliance industries.";
    assert forall j :: 0 <= j < |s| && s[j] == ' ' ==> j == 8;
    forall j | 0 <= j <= |s| ensures !StartsWith(s[j..], p) {
      if |p| <= |s| - j {
        assert s[j..][..|p|][0] == s[j];
        assert s[j..][..|p|][3] == s[j + 3];
      }
    }
    NoStartNotContains(s, p);
  }

  /** The patterns after " ltd" do not occur in "reliance industries.". */
  lemma RelianceTail()
    ensures RemovePatterns("reliance industries.", SuffixesToRemove[2..]) == "reliance industries."
  {
    var s := "reliance industries.";
    var pats := SuffixesToRemove[2..];
    assert forall i :: 0 <= i && i + 1 < |s| && s[i] == ' ' ==> s[i + 1] == 'i';
    forall k | 0 <= k < |pats|
      ensures !Contains(s, pats[k])
    {
      if pats[k][1] == 'i' {
        IndustriesNoInc(pats[k]);
      } else {
        PairAbsent(s, pats[k]);
      }
    }
  }

  /** Deleting the first two patterns is deleting " limited", then " ltd". */
  lemma RemoveFirstTwo(s: string)
    ensures RemovePatterns(s, SuffixesToRemove)
         == RemovePatterns(RemoveAll(RemoveAll(s, " limited"), " ltd"), SuffixesToRemove[2..])
  {
    var pats := SuffixesToRemove;
    assert pats[0] == " limited" && pats[1..][0] == " ltd" && pats[1..][1..] == pats[2..];
  }

  /** "reliance industries." tidies to "reliance industries". */
  lemma RelianceTidy()
    ensures Tidy("reliance industries.") == "reliance industries"
  {
    RelianceDot();
    RelianceSingleSpaced();
    TidyOfSpaced("reliance industries.", "reliance industries", " ");
  }

  /** A text whose punctuation, read as whitespace, leaves a single-spaced
      text followed by whitespace tidies to that text. */
  lemma TidyOfSpaced(s: string, w: string, tail: string)
    requires PunctToSpace(s) == w + tail
    requires SingleSpaced(w) && AllSpace(tail)
    ensures Tidy(s) == w
  {
    TidyJoinsWords(s);
    SplitAppendSpaces(w, tail);
    JoinSplitSingleSpaced(w);
  }

  lemma RelianceDot()
    ensures PunctToSpace("reliance industries.") == "reliance industries" + " "
  {
  }

  lemma RelianceSingleSpaced()
    ensures SingleSpaced("reliance industries")
  {
    var w := "reliance industries";
    assert forall i :: 0 <= i < |w| ==> w[i] == ' ' || 'a' <= w[i] <= 'z';
    assert forall i :: 0 <= i < |w| && w[i] == ' ' ==> i == 8;
  }

  /** "Reliance Industries Ltd." cleans to "reliance industries": the
      " ltd" suffix is deleted and the final dot becomes a stripped space. */
  lemma RelianceIndustries()
    ensures CleanCompanyName("Reliance Industries Ltd.") == "reliance industries"
  {
    var lowered := "reliance industries ltd.";
    calc {
      CleanCompanyName("Reliance Industries Ltd.");
      Tidy(RemovePatterns(LowerStr("Reliance Industries Ltd."), SuffixesToRemove));
      { RelianceLower(); }
      Tidy(RemovePatterns(lowered, SuffixesToRemove));
      { RemoveFirstTwo(lowered); }
      Tidy(RemovePatterns(RemoveAll(RemoveAll(lowered, " limited"), " ltd"), SuffixesToRemove[2..]));
      { RelianceNoLimited(); }
      Tidy(RemovePatterns(RemoveAll(lowered, " ltd"), SuffixesToRemove[2..]));
      { RelianceLtd(); }
      Tidy(RemovePatterns("reliance industries.", SuffixesToRemove[2..]));
      { RelianceTail(); }
      Tidy("reliance industries.");
      { RelianceTidy(); }
      "reliance industries";
    }
  }
}

=== FILE: numbers.dfy ===
/** Number extraction (`extract_numbers_from_text` and the percentage
    search of `extract_financial_info`) as a hand-written scanner that
    follows Python's `re.findall` with `re.IGNORECASE` on the source's
    patterns.

    Each pattern is deterministic once the regular-expression engine's
    greedy choices are followed: no backtracking into a digit run, the
    optional fraction or the `\s*` run can succeed where the greedy choice
    failed, because the character after such a shorter run is a digit, a
    '.' or whitespace, and no suffix alternative starts with one. So a
    match at position `i` is: the greedy number, the greedy whitespace, then
    the first suffix alternative (in the regex's trial order) that occurs
    there, compared case-insensitively. `findall` tries every position from
    the left and resumes after each match. */
module Numbers {
  import opened Text
  import opened Wrappers

  datatype Pattern =
      /** `(\d+(?:\.\d+)?)\s*(?:alt|alt|...)`; the alternatives are listed in
          the order the engine tries them, with `s?` expanded greedily. */
    | Magnitude(alternatives: seq<string>)
      /** `symbol\s*(\d+(?:,\d+)*(?:\.\d+)?)` */
    | Currency(symbol: char)

  const Crore := Magnitude(["crores", "crore", "cr.", "cr"])
  const Lakh := Magnitude(["lakhs", "lakh", "lakh"])
  const Thousand := Magnitude(["thousands", "thousand", "k"])
  const Million := Magnitude(["millions", "million", "mn.", "mn"])
  const Billion := Magnitude(["billions", "billion", "bn.", "bn"])
  const Rupee := Currency('₹')
  const Dollar := Currency('$')

  /** The patterns of `extract_numbers_from_text`, in the order their
      results are concatenated. */
  const NumberPatterns: seq<Pattern> := [Crore, Lakh, Thousand, Million, Billion, Rupee, Dollar]

  /** `(\d+(?:\.\d+)?)\s*(?:%|percent|per cent)` */
  const Percent := Magnitude(["%", "percent", "per cent"])

  /** No digit at or after position `i`. */
  predicate NoDigitFrom(s: string, i: nat) {
    forall k :: i <= k < |s| ==> !IsDigit(s[k])
  }

  /** Length of the run of digits starting at `i`. */
  function DigitRun(s: string, i: nat): (n: nat)
    requires i <= |s|
    ensures i + n <= |s|
    ensures forall k :: i <= k < i + n ==> IsDigit(s[k])
    ensures i + n < |s| ==> !IsDigit(s[i + n])
    decreases |s| - i
  {
    if i < |s| && IsDigit(s[i]) then 1 + DigitRun(s, i + 1) else 0
  }

  /** Length of the run of whitespace starting at `i` (`\s*`). */
  function SpaceRun(s: string, i: nat): (n: nat)
    requires i <= |s|
    ensures i + n <= |s|
    ensures forall k :: i <= k < i + n ==> IsSpace(s[k])
    ensures i + n < |s| ==> !IsSpace(s[i + n])
    decreases |s| - i
  {
    if i < |s| && IsSpace(s[i]) then 1 + SpaceRun(s, i + 1) else 0
  }

  /** The integer the digits of `ds` spell, other characters skipped. */
  function DigitsValue(ds: string): nat
    decreases |ds|
  {
    if ds == [] then 0
    else
      var last := ds[|ds| - 1];
      if IsDigit(last) then DigitsValue(ds[..|ds| - 1]) * 10 + (last as int - '0' as int)
      else DigitsValue(ds[..|ds| - 1])
  }

  /** The value of the digits `ds` read after a decimal point, other
      characters counting as 0: ds[0]/10 + ds[1]/100 + ... */
  function FracValue(ds: string): (v: real)
    ensures 0.0 <= v < 1.0
    decreases |ds|
  {
    if ds == [] then 0.0
    else
      var d := if IsDigit(ds[0]) then ds[0] as int - '0' as int else 0;
      (d as real + FracValue(ds[1..])) / 10.0
  }

  /** `float(int_part + '.' + frac_part)`, as an exact real: the fraction
      never reaches a whole unit. */
  function DecimalValue(intPart: string, fracPart: string): (v: real)
    ensures DigitsValue(intPart) as real <= v < DigitsValue(intPart) as real + 1.0
  {
    DigitsValue(intPart) as real + FracValue(fracPart)
  }

  /** End of the optional `\.\d+` that may follow position `e`. */
  function FractionEnd(s: string, e: nat): (f: nat)
    requires e <= |s|
    ensures e <= f <= |s|
    ensures f > e ==> f >= e + 2
  {
    if e + 1 < |s| && s[e] == '.' && IsDigit(s[e + 1]) then e + 1 + DigitRun(s, e + 1) else e
  }

  /** The number `\d+(?:\.\d+)?` at `i`: its value and where it ends. */
  function NumberAt(s: string, i: nat): (r: (real, nat))
    requires i < |s| && IsDigit(s[i])
    ensures i < r.1 <= |s|
    ensures r.0 >= 0.0
  {
    var e := i + DigitRun(s, i);
    var f := FractionEnd(s, e);
    (DecimalValue(s[i..e], if f > e then s[e + 1..f] else ""), f)
  }

  /** End of the greedy `(?:,\d+)*` that may follow position `e`. */
  function GroupsEnd(s: string, e: nat): (g: nat)
    requires e <= |s|
    ensures e <= g <= |s|
    decreases |s| - e
  {
    if e + 1 < |s| && s[e] == ',' && IsDigit(s[e + 1]) then GroupsEnd(s, e + 1 + DigitRun(s, e + 1))
    else e
  }

  /** The number `\d+(?:,\d+)*(?:\.\d+)?` at `i`, read after
      `replace(',', '')` deletes its thousands separators. */
  function GroupedNumberAt(s: string, i: nat): (r: (real, nat))
    requires i < |s|
    ensures i <= r.1 <= |s|
    ensures IsDigit(s[i]) ==> i < r.1
    ensures r.0 >= 0.0
  {
    GroupedNumberTo(s, i, GroupsEnd(s, i + DigitRun(s, i)))
  }

  /** The number whose digit groups span `s[i..g]`, with its optional
      fraction. */
  function GroupedNumberTo(s: string, i: nat, g: nat): (r: (real, nat))
    requires i <= g <= |s|
    ensures g <= r.1 <= |s|
    ensures r.0 >= 0.0
  {
    var f := FractionEnd(s, g);
    (DecimalValue(RemoveAll(s[i..g], ","), if f > g then s[g + 1..f] else ""), f)
  }

  /** `t` starts with `a` once lower-cased. */
  predicate LowerPrefix(t: string, a: string)
    decreases |a|
  {
    |a| <= |t| && (a == [] || (Lower(t[0]) == a[0] && LowerPrefix(t[1..], a[1..])))
  }

  /** The alternative `a` occurs at `j`, compared case-insensitively. */
  predicate OccursAt(s: string, j: nat, a: string) {
    j <= |s| && LowerPrefix(s[j..], a)
  }

  /** The first alternative (in trial order) that occurs at `j`, compared
      case-insensitively; the result is its length. */
  function FirstAlternative(s: string, j: nat, alternatives: seq<string>): (r: Option<nat>)
    requires j <= |s|
    ensures r.Some? ==> j + r.value <= |s|
    ensures r.Some? ==> exists a :: a in alternatives && |a| == r.value && OccursAt(s, j, a)
    ensures r.None? ==> forall a :: a in alternatives ==> !OccursAt(s, j, a)
    decreases |alternatives|
  {
    if alternatives == [] then None
    else
      var a := alternatives[0];
      if OccursAt(s, j, a) then Some(|a|)
      else FirstAlternative(s, j, alternatives[1..])
  }

  /** `\s*(?:alt|...)` after position `e`: where the suffix ends, if one is there. */
  function SuffixEnd(s: string, e: nat, alternatives: seq<string>): (r: Option<nat>)
    requires e <= |s|
    ensures r.Some? ==> e <= r.value <= |s|
  {
    var j := e + SpaceRun(s, e);
    match FirstAlternative(s, j, alternatives)
    case Some(n) => Some(j + n)
    case None => None
  }

  /** An attempt of pattern `p` at position `i`: the captured value and the
      position after the whole match. */
  function MatchAt(s: string, i: nat, p: Pattern): (r: Option<(real, nat)>)
    requires i <= |s|
    ensures r.Some? ==> i < r.value.1 <= |s| && r.value.0 >= 0.0
    ensures r.Some? ==> !NoDigitFrom(s, i)
  {
    match p
    case Magnitude(alternatives) =>
      if i < |s| && IsDigit(s[i]) then
        var n := NumberAt(s, i);
        match SuffixEnd(s, n.1, alternatives)
        case Some(end) => Some((n.0, end))
        case None => None
      else None
    case Currency(symbol) =>
      CurrencyMatchAt(s, i, symbol)
  }

  /** An attempt of `symbol\s*(\d+(?:,\d+)*(?:\.\d+)?)` at position `i`. */
  function CurrencyMatchAt(s: string, i: nat, symbol: char): (r: Option<(real, nat)>)
    requires i <= |s|
    ensures r.Some? ==> i < r.value.1 <= |s| && r.value.0 >= 0.0
    ensures r.Some? ==> i < |s| && s[i] == symbol
    ensures r.Some? ==> i + 1 + SpaceRun(s, i + 1) < |s| && IsDigit(s[i + 1 + SpaceRun(s, i + 1)])
  {
    if i < |s| && s[i] == symbol then
      match DigitAfterSpaces(s, i + 1)
      case Some(j) => Some(GroupedNumberAt(s, j))
      case None => None
    else None
  }

  /** Where `\s*` read greedily from `j` stops, if a digit is there. */
  function DigitAfterSpaces(s: string, j: nat): (r: Option<nat>)
    requires j <= |s|
    ensures r.Some? ==> j <= r.value < |s| && IsDigit(s[r.value])
    ensures r.Some? <==> j + SpaceRun(s, j) < |s| && IsDigit(s[j + SpaceRun(s, j)])
    ensures r.Some? ==> r.value == j + SpaceRun(s, j)
    decreases |s| - j
  {
    if j < |s| && IsSpace(s[j]) then DigitAfterSpaces(s, j + 1)
    else if j < |s| && IsDigit(s[j]) then Some(j)
    else None
  }

  /** `re.findall(p, s[i:], re.IGNORECASE)`, each capture converted to a number. */
  function FindAll(s: string, p: Pattern, i: nat): (r: seq<real>)
    requires i <= |s|
    ensures forall k :: 0 <= k < |r| ==> r[k] >= 0.0
    ensures |r| <= |s| - i
    decreases |s| - i
  {
    if i == |s| then []
    else
      match MatchAt(s, i, p)
      case Some((v, e)) => [v] + FindAll(s, p, e)
      case None => FindAll(s, p, i + 1)
  }

  /** Concatenation of the results of each pattern, in pattern order. */
  function FindAllPatterns(s: string, ps: seq<Pattern>): (r: seq<real>)
    ensures forall k :: 0 <= k < |r| ==> r[k] >= 0.0
    ensures NoDigitFrom(s, 0) ==> r == []
    decreases |ps|
  {
    if ps == [] then []
    else
      FindAllNoDigit(s, ps[0], 0);
      FindAll(s, ps[0], 0) + FindAllPatterns(s, ps[1..])
  }

  /** `extract_numbers_from_text`: every number is non-negative, and a text
      without a digit yields none. */
  function ExtractNumbers(text: string): (r: seq<real>)
    ensures forall k :: 0 <= k < |r| ==> r[k] >= 0.0
    ensures NoDigitFrom(text, 0) ==> r == []
  {
    FindAllPatterns(text, NumberPatterns)
  }

  /** The percentage search of `extract_financial_info`. */
  function ExtractPercentages(text: string): (r: seq<real>)
    ensures forall k :: 0 <= k < |r| ==> r[k] >= 0.0
    ensures NoDigitFrom(text, 0) ==> r == []
    ensures |r| <= |text|
  {
    FindAllNoDigit(text, Percent, 0);
    FindAll(text, Percent, 0)
  }

  /** A text without a digit from `i` on yields nothing from `i` on. */
  lemma {:induction false} FindAllNoDigit(s: string, p: Pattern, i: nat)
    requires i <= |s|
    ensures NoDigitFrom(s, i) ==> FindAll(s, p, i) == []
    decreases |s| - i
  {
    if i < |s| && NoDigitFrom(s, i) {
      assert MatchAt(s, i, p).None?;
      FindAllSkipOne(s, p, i);
      FindAllNoDigit(s, p, i + 1);
    }
  }

  /** No alternative is found where none starts with the character there. */
  lemma {:induction false} NoAlternativeAt(s: string, j: nat, alternatives: seq<string>)
    requires j < |s|
    requires forall k :: 0 <= k < |alternatives| ==> alternatives[k] != [] && alternatives[k][0] != Lower(s[j])
    ensures FirstAlternative(s, j, alternatives) == None
    decreases |alternatives|
  {
    if alternatives != [] {
      var a := alternatives[0];
      NoAlternativeAt(s, j, alternatives[1..]);
    }
  }

  /** A suffix is found wherever one of the alternatives occurs. */
  lemma AlternativeFound(s: string, j: nat, alternatives: seq<string>, k: nat)
    requires j <= |s| && k < |alternatives|
    requires OccursAt(s, j, alternatives[k])
    ensures FirstAlternative(s, j, alternatives).Some?
  {
    assert alternatives[k] in alternatives;
  }

  lemma SuffixFound(s: string, e: nat, alternatives: seq<string>)
    requires e <= |s|
    requires FirstAlternative(s, e + SpaceRun(s, e), alternatives).Some?
    ensures SuffixEnd(s, e, alternatives).Some?
  {
  }

  /** Positions `a` to `b` hold a maximal run of digits (`\d+` read
      greedily ends at `b`). */
  predicate DigitSpan(s: string, a: nat, b: nat) {
    && a <= b <= |s|
    && (forall t :: a <= t < b ==> IsDigit(s[t]))
    && (b < |s| ==> !IsDigit(s[b]))
  }

  /** Positions `a` to `b` hold a maximal run of whitespace. */
  predicate SpaceSpan(s: string, a: nat, b: nat) {
    && a <= b <= |s|
    && (forall t :: a <= t < b ==> IsSpace(s[t]))
    && (b < |s| ==> !IsSpace(s[b]))
  }

  lemma {:induction false} DigitRunOf(s: string, a: nat, b: nat)
    requires DigitSpan(s, a, b)
    ensures DigitRun(s, a) == b - a
    decreases b - a
  {
    if a < b {
      DigitRunOf(s, a + 1, b);
    }
  }

  lemma {:induction false} SpaceRunOf(s: string, a: nat, b: nat)
    requires SpaceSpan(s, a, b)
    ensures SpaceRun(s, a) == b - a
    decreases b - a
  {
    if a < b {
      SpaceRunOf(s, a + 1, b);
    }
  }

  /** The number `\d+(?:\.\d+)?` read from its parts: the digits
      `s[i..k]`, then either no fraction or a '.' and the digits
      `s[k+1..f]`. */
  lemma NumberSpan(s: string, i: nat, k: nat, f: nat)
    requires i < k && DigitSpan(s, i, k)
    requires || (f == k && !(k + 1 < |s| && s[k] == '.' && IsDigit(s[k + 1])))
             || (k < |s| && s[k] == '.' && k + 1 < f && DigitSpan(s, k + 1, f))
    ensures NumberAt(s, i) == (DecimalValue(s[i..k], if f > k then s[k + 1..f] else ""), f)
  {
    DigitRunOf(s, i, k);
    if f > k {
      DigitRunOf(s, k + 1, f);
    }
  }

  /** The suffix `\s*(?:alt|...)` read from its parts: the whitespace
      `s[f..j]`, then the first alternative that occurs at `j`. */
  lemma SuffixSpan(s: string, f: nat, j: nat, alternatives: seq<string>, n: nat)
    requires SpaceSpan(s, f, j)
    requires FirstAlternative(s, j, alternatives) == Some(n)
    ensures SuffixEnd(s, f, alternatives) == Some(j + n)
  {
    SpaceRunOf(s, f, j);
  }

  /** The regular-expression reading of a magnitude match: the digits
      `s[i..k]`, then either no fraction or a '.' and the digits
      `s[k+1..f]`, then the whitespace `s[f..j]`, then the first
      alternative that occurs at `j`. The match captures that number and
      ends after the alternative. */
  lemma MagnitudeCapture(s: string, i: nat, k: nat, f: nat, j: nat, alternatives: seq<string>, n: nat)
    requires i < k && DigitSpan(s, i, k)
    requires || (f == k && !(k + 1 < |s| && s[k] == '.' && IsDigit(s[k + 1])))
             || (k < |s| && s[k] == '.' && k + 1 < f && DigitSpan(s, k + 1, f))
    requires SpaceSpan(s, f, j)
    requires FirstAlternative(s, j, alternatives) == Some(n)
    ensures MatchAt(s, i, Magnitude(alternatives))
         == Some((DecimalValue(s[i..k], if f > k then s[k + 1..f] else ""), j + n))
  {
    NumberSpan(s, i, k, f);
    SuffixSpan(s, f, j, alternatives, n);
  }

  /** Nothing at `g` extends a `\d+(?:,\d+)*` that ends there. */
  predicate GroupsStop(s: string, g: nat) {
    && !(g < |s| && IsDigit(s[g]))
    && !(g + 1 < |s| && s[g] == ',' && IsDigit(s[g + 1]))
  }

  /** Positions `e` to `g` hold `(?:,\d+)*`: each position is a digit or
      a comma followed by a digit, and the span starts with a comma. */
  predicate CommaGroups(s: string, e: nat, g: nat) {
    && e <= g <= |s|
    && (e < g ==> s[e] == ',')
    && (forall t :: e <= t < g ==> IsDigit(s[t]) || s[t] == ',')
    && (forall t :: e <= t < g && s[t] == ',' ==> t + 1 < g)
    && (forall t, u {:trigger s[t], s[u]} :: e <= t < g && u == t + 1 && u < g && s[t] == ',' ==> IsDigit(s[u]))
  }

  /** `(?:,\d+)*` read greedily from `e` covers a comma-group span that
      nothing extends. */
  lemma {:induction false} GroupsEndAt(s: string, e: nat, g: nat)
    requires CommaGroups(s, e, g) && GroupsStop(s, g)
    ensures GroupsEnd(s, e) == g
    decreases g - e
  {
    if e < g {
      assert s[e] == ',' && e + 1 < g;
      assert IsDigit(s[e + 1]);
      var n := DigitRun(s, e + 1);
      var e' := e + 1 + n;
      assert g < |s| ==> !IsDigit(s[g]);
      assert e' <= g;
      if e' < g {
        assert !IsDigit(s[e']);
        assert s[e'] == ',';
      }
      GroupsEndAt(s, e', g);
    }
  }

  /** `replace(',', '')` on comma-joined digit groups concatenates them. */
  lemma {:induction false} GroupsDropCommas(groups: seq<string>)
    requires forall k :: 0 <= k < |groups| ==> ',' !in groups[k]
    ensures RemoveAll(Join(groups, ","), ",") == Join(groups, "")
    decreases |groups|
  {
    if groups == [] {
    } else if |groups| == 1 {
      CharAbsent(groups[0], ",", 0);
    } else {
      var rest := Join(groups[1..], ",");
      FirstStartAfter(groups[0], ",", rest);
      var j := groups[0] + "," + rest;
      RemoveAllFirst(j, ",", |groups[0]|);
      assert j[..|groups[0]|] == groups[0] && j[|groups[0]| + 1..] == rest;
      GroupsDropCommas(groups[1..]);
    }
  }

  /** `(?:\.\d+)?` read greedily from `g`: nothing, or a '.' and the
      digits `s[g+1..f]`. */
  lemma FractionSpan(s: string, g: nat, f: nat)
    requires || (f == g && g <= |s| && !(g + 1 < |s| && s[g] == '.' && IsDigit(s[g + 1])))
             || (g < |s| && s[g] == '.' && g + 1 < f && DigitSpan(s, g + 1, f))
    ensures FractionEnd(s, g) == f
  {
    if f > g {
      DigitRunOf(s, g + 1, f);
    }
  }

  /** The number `\d+(?:,\d+)*(?:\.\d+)?` read from its parts: the
      digits `s[j..e]`, the comma groups `s[e..g]` that no further `,\d`
      extends, then either no fraction or a '.' and the digits
      `s[g+1..f]`. Its value is `s[j..g]` with the commas deleted. */
  lemma GroupedNumberSpan(s: string, j: nat, e: nat, g: nat, f: nat)
    requires j < e && DigitSpan(s, j, e)
    requires CommaGroups(s, e, g) && GroupsStop(s, g)
    requires || (f == g && !(g + 1 < |s| && s[g] == '.' && IsDigit(s[g + 1])))
             || (g < |s| && s[g] == '.' && g + 1 < f && DigitSpan(s, g + 1, f))
    ensures j < |s| && IsDigit(s[j])
    ensures GroupedNumberAt(s, j) == (DecimalValue(RemoveAll(s[j..g], ","), if f > g then s[g + 1..f] else ""), f)
  {
    DigitRunOf(s, j, e);
    GroupsEndAt(s, e, g);
    FractionSpan(s, g, f);
    GroupedNumberAtTo(s, j, g);
    GroupedNumberToValue(s, j, g, f, RemoveAll(s[j..g], ","));
  }

  lemma GroupedNumberAtTo(s: string, j: nat, g: nat)
    requires j < |s| && GroupsEnd(s, j + DigitRun(s, j)) == g
    ensures j <= g <= |s|
    ensures GroupedNumberAt(s, j) == GroupedNumberTo(s, j, g)
  {
    assert GroupedNumberAt(s, j) == GroupedNumberTo(s, j, GroupsEnd(s, j + DigitRun(s, j)));
  }

  lemma GroupedNumberToValue(s: string, j: nat, g: nat, f: nat, digits: string)
    requires j <= g <= f <= |s| && FractionEnd(s, g) == f
    requires RemoveAll(s[j..g], ",") == digits
    ensures GroupedNumberTo(s, j, g) == (DecimalValue(digits, if f > g then s[g + 1..f] else ""), f)
  {
  }

  /** The regular-expression reading of a currency match: the symbol at
      `i`, the whitespace `s[i+1..j]`, the digits `s[j..e]`, the comma
      groups `s[e..g]` that no further `,\d` extends, then either no
      fraction or a '.' and the digits `s[g+1..f]`. The match captures
      `s[j..g]` with its thousands separators deleted, read as one decimal
      number, and ends after the fraction. */
  lemma CurrencyCapture(s: string, symbol: char, i: nat, j: nat, e: nat, g: nat, f: nat)
    requires i < |s| && s[i] == symbol
    requires SpaceSpan(s, i + 1, j)
    requires j < e && DigitSpan(s, j, e)
    requires CommaGroups(s, e, g) && GroupsStop(s, g)
    requires || (f == g && !(g + 1 < |s| && s[g] == '.' && IsDigit(s[g + 1])))
             || (g < |s| && s[g] == '.' && g + 1 < f && DigitSpan(s, g + 1, f))
    ensures MatchAt(s, i, Currency(symbol))
         == Some((DecimalValue(RemoveAll(s[j..g], ","), if f > g then s[g + 1..f] else ""), f))
  {
    GroupedNumberSpan(s, j, e, g, f);
    CurrencyAt(s, symbol, i, j);
  }

  /** After the symbol and its whitespace, a currency match reads the
      grouped number at the first digit. */
  lemma CurrencyAt(s: string, symbol: char, i: nat, j: nat)
    requires i < |s| && s[i] == symbol
    requires SpaceSpan(s, i + 1, j) && j < |s| && IsDigit(s[j])
    ensures MatchAt(s, i, Currency(symbol)) == Some(GroupedNumberAt(s, j))
  {
    DigitAfterSpan(s, i + 1, j);
    CurrencyDigitAt(s, symbol, i, j);
    CurrencyBranch(s, i, symbol);
  }

  lemma CurrencyDigitAt(s: string, symbol: char, i: nat, j: nat)
    requires i < |s| && s[i] == symbol && DigitAfterSpaces(s, i + 1) == Some(j)
    ensures CurrencyMatchAt(s, i, symbol) == Some(GroupedNumberAt(s, j))
  {
  }

  /** `\s*` read from `a` stops at the digit after the whitespace. */
  lemma {:induction false} DigitAfterSpan(s: string, a: nat, j: nat)
    requires SpaceSpan(s, a, j) && j < |s| && IsDigit(s[j])
    ensures DigitAfterSpaces(s, a) == Some(j)
    decreases j - a
  {
    if a < j {
      DigitAfterSpan(s, a + 1, j);
    }
  }

  lemma CurrencyBranch(s: string, i: nat, symbol: char)
    requires i <= |s|
    ensures MatchAt(s, i, Currency(symbol)) == CurrencyMatchAt(s, i, symbol)
  {
  }

  /** Positions where the pattern does not match are skipped. */
  lemma {:induction false} FindAllSkips(s: string, p: Pattern, i: nat, j: nat)
    requires i <= j <= |s|
    requires forall t :: i <= t < j ==> MatchAt(s, t, p).None?
    ensures FindAll(s, p, i) == FindAll(s, p, j)
    decreases j - i
  {
    if i < j {
      FindAllSkips(s, p, i + 1, j);
    }
  }

  /** A position where the pattern does not match is skipped. */
  lemma FindAllSkipOne(s: string, p: Pattern, i: nat)
    requires i < |s| && MatchAt(s, i, p).None?
    ensures FindAll(s, p, i) == FindAll(s, p, i + 1)
  {
  }

  /** A magnitude match starts with a digit. */
  lemma MagnitudeNeedsDigit(s: string, i: nat, alternatives: seq<string>)
    requires i < |s| && !IsDigit(s[i])
    ensures MatchAt(s, i, Magnitude(alternatives)).None?
  {
  }

  /** `findall` reports the capture of the first match at or after `i`
      and resumes where that match ends. */
  lemma FindAllFirst(s: string, p: Pattern, i: nat, j: nat)
    requires i <= j < |s|
    requires forall t :: i <= t < j ==> MatchAt(s, t, p).None?
    requires MatchAt(s, j, p).Some?
    ensures FindAll(s, p, i) == [MatchAt(s, j, p).value.0] + FindAll(s, p, MatchAt(s, j, p).value.1)
  {
    FindAllSkips(s, p, i, j);
  }

  /** Without a match at or after `i`, `findall` finds nothing. */
  lemma FindAllNone(s: string, p: Pattern, i: nat)
    requires i <= |s|
    requires forall t :: i <= t < |s| ==> MatchAt(s, t, p).None?
    ensures FindAll(s, p, i) == []
  {
    FindAllSkips(s, p, i, |s|);
  }

  /** The percentages are the capture of the first percentage match and
      those after it; a text without a percentage match has none. */
  lemma PercentagesFirst(text: string, j: nat)
    requires j < |text|
    requires forall t :: 0 <= t < j ==> MatchAt(text, t, Percent).None?
    requires MatchAt(text, j, Percent).Some?
    ensures ExtractPercentages(text)
         == [MatchAt(text, j, Percent).value.0] + FindAll(text, Percent, MatchAt(text, j, Percent).value.1)
  {
    FindAllFirst(text, Percent, 0, j);
  }

  lemma PercentagesNone(text: string)
    requires forall t :: 0 <= t < |text| ==> MatchAt(text, t, Percent).None?
    ensures ExtractPercentages(text) == []
  {
    FindAllNone(text, Percent, 0);
  }

  /** The numbers are grouped by pattern, in the order crore, lakh,
      thousand, million, billion, rupee, dollar. */
  lemma ExtractNumbersGrouped(text: string)
    ensures ExtractNumbers(text)
         == FindAll(text, Crore, 0) + FindAll(text, Lakh, 0) + FindAll(text, Thousand, 0)
            + FindAll(text, Million, 0) + FindAll(text, Billion, 0)
            + FindAll(text, Rupee, 0) + FindAll(text, Dollar, 0)
  {
    var ps := NumberPatterns;
    assert ps[1..][1..][1..][1..][1..][1..][1..] == [];
    calc {
      ExtractNumbers(text);
      FindAll(text, Crore, 0) + FindAllPatterns(text, ps[1..]);
      FindAll(text, Crore, 0) + (FindAll(text, Lakh, 0) + FindAllPatterns(text, ps[1..][1..]));
      FindAll(text, Crore, 0) + (FindAll(text, Lakh, 0) + (FindAll(text, Thousand, 0)
        + FindAllPatterns(text, ps[1..][1..][1..])));
      FindAll(text, Crore, 0) + (FindAll(text, Lakh, 0) + (FindAll(text, Thousand, 0)
        + (FindAll(text, Million, 0) + FindAllPatterns(text, ps[1..][1..][1..][1..]))));
      FindAll(text, Crore, 0) + (FindAll(text, Lakh, 0) + (FindAll(text, Thousand, 0)
        + (FindAll(text, Million, 0) + (FindAll(text, Billion, 0)
        + FindAllPatterns(text, ps[1..][1..][1..][1..][1..])))));
      FindAll(text, Crore, 0) + (FindAll(text, Lakh, 0) + (FindAll(text, Thousand, 0)
        + (FindAll(text, Million, 0) + (FindAll(text, Billion, 0)
        + (FindAll(text, Rupee, 0) + FindAllPatterns(text, ps[1..][1..][1..][1..][1..][1..]))))));
      FindAll(text, Crore, 0) + (FindAll(text, Lakh, 0) + (FindAll(text, Thousand, 0)
        + (FindAll(text, Million, 0) + (FindAll(text, Billion, 0)
        + (FindAll(text, Rupee, 0) + (FindAll(text, Dollar, 0) + []))))));
    }
  }

  /** The magnitude patterns cannot read thousands separators: digits
      followed directly by a comma never match there, so in "75,000 crores"
      only the "000" after the comma is captured. */
  lemma MagnitudeStopsAtComma(s: string, i: nat, alternatives: seq<string>)
    requires i < |s| && IsDigit(s[i])
    requires i + DigitRun(s, i) < |s| && s[i + DigitRun(s, i)] == ','
    requires forall k :: 0 <= k < |alternatives| ==> alternatives[k] != [] && alternatives[k][0] != ','
    ensures MatchAt(s, i, Magnitude(alternatives)) == None
  {
    var e := i + DigitRun(s, i);
    assert FractionEnd(s, e) == e;
    assert SpaceRun(s, e) == 0;
    assert Lower(s[e]) == ',';
    NoAlternativeAt(s, e, alternatives);
    assert NumberAt(s, i).1 == e;
    assert SuffixEnd(s, e, alternatives) == None;
  }

  /** A one-letter alternative matches wherever its letter appears, in
      either case. */
  lemma LetterAlternative(s: string, j: nat, alternatives: seq<string>, k: nat, c: char)
    requires j < |s| && k < |alternatives| && alternatives[k] == [c] && Lower(s[j]) == c
    ensures FirstAlternative(s, j, alternatives).Some?
  {
    assert s[j..][1..][..0] == [];
    AlternativeFound(s, j, alternatives, k);
  }

  /** A one-letter alternative completes the suffix after the number
      ending at `e` wherever its letter follows the whitespace there. */
  lemma LetterSuffix(s: string, e: nat, alternatives: seq<string>, k: nat, c: char)
    requires e <= |s| && e + SpaceRun(s, e) < |s| && k < |alternatives| && alternatives[k] == [c]
    requires Lower(s[e + SpaceRun(s, e)]) == c
    ensures SuffixEnd(s, e, alternatives).Some?
  {
    var j := e + SpaceRun(s, e);
    LetterAlternative(s, j, alternatives, k, c);
    SuffixFound(s, e, alternatives);
  }

  /** The thousands pattern has no word boundary after its `k`: after any
      number, a word starting with `k` ("5 kg", "3 kilometres") completes
      the match (with MagnitudeCapture, the number before it is captured
      unscaled). */
  lemma ThousandMatchesAnyK(s: string, e: nat)
    requires e <= |s|
    requires e + SpaceRun(s, e) < |s| && Lower(s[e + SpaceRun(s, e)]) == 'k'
    ensures SuffixEnd(s, e, Thousand.alternatives).Some?
  {
    assert Thousand.alternatives[2] == ['k'];
    LetterSuffix(s, e, Thousand.alternatives, 2, 'k');
  }

  /** A percent sign after a number and optional whitespace always
      completes a percentage match. */
  lemma PercentSignMatches(s: string, e: nat)
    requires e <= |s|
    requires e + SpaceRun(s, e) < |s| && s[e + SpaceRun(s, e)] == '%'
    ensures SuffixEnd(s, e, Percent.alternatives).Some?
  {
    assert Percent.alternatives[0] == ['%'];
    LetterSuffix(s, e, Percent.alternatives, 0, '%');
  }
  /** In "5 kg" a magnitude pattern can only match at the "5", and then
      only through an alternative found at the "k". */
  lemma KgMagnitude(alternatives: seq<string>)
    ensures FindAll("5 kg", Magnitude(alternatives), 0)
         == match FirstAlternative("5 kg", 2, alternatives)
            case Some(n) => [5.0]
            case None => []
  {
    var s := "5 kg";
    var p := Magnitude(alternatives);
    assert NoDigitFrom(s, 1);
    FindAllNoDigit(s, p, 1);
    assert DigitSpan(s, 0, 1) && SpaceSpan(s, 1, 2);
    NumberSpan(s, 0, 1, 1);
    SpaceRunOf(s, 1, 2);
    assert s[0..1] == "5";
    assert DecimalValue("5", "") == 5.0;
    match FirstAlternative(s, 2, alternatives)
    case Some(n) =>
      assert MatchAt(s, 0, p) == Some((5.0, 2 + n));
      assert NoDigitFrom(s, 2 + n);
      FindAllNoDigit(s, p, 2 + n);
    case None =>
  }

  /** A currency pattern finds nothing in a text without its symbol. */
  lemma CurrencyAbsent(s: string, c: char)
    requires c !in s
    ensures FindAll(s, Currency(c), 0) == []
  {
    FindAllNone(s, Currency(c), 0);
  }

  /** After "5 " no alternative starting with another letter than `k`
      occurs. */
  lemma KgNoSuffix(alternatives: seq<string>)
    requires forall k :: 0 <= k < |alternatives| ==> alternatives[k] != [] && alternatives[k][0] != 'k'
    ensures FirstAlternative("5 kg", 2, alternatives) == None
  {
    assert Lower("5 kg"[2]) == 'k';
    NoAlternativeAt("5 kg", 2, alternatives);
  }

  /** After "5 " no suffix of the crore, lakh, million or billion patterns
      occurs. */
  lemma KgOtherSuffixes()
    ensures FirstAlternative("5 kg", 2, Crore.alternatives) == None
    ensures FirstAlternative("5 kg", 2, Lakh.alternatives) == None
    ensures FirstAlternative("5 kg", 2, Million.alternatives) == None
    ensures FirstAlternative("5 kg", 2, Billion.alternatives) == None
  {
    KgNoSuffix(Crore.alternatives);
    KgNoSuffix(Lakh.alternatives);
    KgNoSuffix(Million.alternatives);
    KgNoSuffix(Billion.alternatives);
  }

  /** After "5 " the thousands pattern's `k` occurs. */
  lemma KgThousand()
    ensures FirstAlternative("5 kg", 2, Thousand.alternatives) == Some(1)
  {
    var s := "5 kg";
    assert !OccursAt(s, 2, "thousands") && !OccursAt(s, 2, "thousand");
    LetterAlternative(s, 2, Thousand.alternatives, 2, 'k');
  }

  /** Neither currency symbol occurs in "5 kg". */
  lemma KgSymbols()
    ensures '₹' !in "5 kg" && '$' !in "5 kg"
  {
  }

  /** "5 kg": the `k` alternative of the thousands pattern captures the 5,
      unscaled, and no other pattern matches. */
  lemma FiveKilograms()
    ensures ExtractNumbers("5 kg") == [5.0]
  {
    var s := "5 kg";
    ExtractNumbersGrouped(s);
    KgMagnitudes();
    KgSymbols();
    CurrencyAbsent(s, '₹');
    CurrencyAbsent(s, '$');
  }

  /** Of the magnitude patterns only the thousands pattern matches in
      "5 kg". */
  lemma KgMagnitudes()
    ensures FindAll("5 kg", Crore, 0) == []
    ensures FindAll("5 kg", Lakh, 0) == []
    ensures FindAll("5 kg", Thousand, 0) == [5.0]
    ensures FindAll("5 kg", Million, 0) == []
    ensures FindAll("5 kg", Billion, 0) == []
  {
    KgOtherSuffixes();
    KgThousand();
    KgMagnitude(Crore.alternatives);
    KgMagnitude(Lakh.alternatives);
    KgMagnitude(Thousand.alternatives);
    KgMagnitude(Million.alternatives);
    KgMagnitude(Billion.alternatives);
  }

  /** A lower-case string is a case-insensitive prefix of any string that
      starts with it. */
  lemma {:induction false} LowerPrefixOfSame(t: string, a: string)
    requires |a| <= |t| && t[..|a|] == a
    requires forall i :: 0 <= i < |a| ==> !IsUpper(a[i])
    ensures LowerPrefix(t, a)
    decreases |a|
  {
    if a != [] {
      assert t[0] == a[0];
      assert t[1..][..|a| - 1] == a[1..];
      LowerPrefixOfSame(t[1..], a[1..]);
    }
  }

  /** The magnitude patterns' alternatives are non-empty and none starts
      with a comma. */
  predicate NoCommaStart(alternatives: seq<string>) {
    forall k :: 0 <= k < |alternatives| ==> alternatives[k] != [] && alternatives[k][0] != ','
  }

  /** In "Rs 75,000 crores" a magnitude pattern cannot match at the "75":
      a comma follows it. */
  lemma CroresCommaStop(alternatives: seq<string>)
    requires NoCommaStart(alternatives)
    ensures FindAll("Rs 75,000 crores", Magnitude(alternatives), 3)
         == FindAll("Rs 75,000 crores", Magnitude(alternatives), 6)
  {
    var s := "Rs 75,000 crores";
    var p := Magnitude(alternatives);
    assert DigitSpan(s, 3, 5) && DigitSpan(s, 4, 5);
    DigitRunOf(s, 3, 5);
    DigitRunOf(s, 4, 5);
    MagnitudeStopsAtComma(s, 3, alternatives);
    MagnitudeStopsAtComma(s, 4, alternatives);
    MagnitudeNeedsDigit(s, 5, alternatives);
    FindAllSkipOne(s, p, 3);
    FindAllSkipOne(s, p, 4);
    FindAllSkipOne(s, p, 5);
  }

  /** In "Rs 75,000 crores" a magnitude pattern cannot match before the
      "000". */
  lemma CroresLead(alternatives: seq<string>)
    ensures FindAll("Rs 75,000 crores", Magnitude(alternatives), 0)
         == FindAll("Rs 75,000 crores", Magnitude(alternatives), 3)
  {
    var s := "Rs 75,000 crores";
    var p := Magnitude(alternatives);
    assert !IsDigit(s[0]) && !IsDigit(s[1]) && !IsDigit(s[2]);
    MagnitudeNeedsDigit(s, 0, alternatives);
    MagnitudeNeedsDigit(s, 1, alternatives);
    MagnitudeNeedsDigit(s, 2, alternatives);
    FindAllSkipOne(s, p, 0);
    FindAllSkipOne(s, p, 1);
    FindAllSkipOne(s, p, 2);
  }

  lemma CroresPrefix(alternatives: seq<string>)
    requires NoCommaStart(alternatives)
    ensures FindAll("Rs 75,000 crores", Magnitude(alternatives), 0)
         == FindAll("Rs 75,000 crores", Magnitude(alternatives), 6)
  {
    CroresLead(alternatives);
    CroresCommaStop(alternatives);
  }

  lemma ThreeZeros()
    ensures DecimalValue("000", "") == 0.0
  {
    assert "000"[..2] == "00" && "00"[..1] == "0" && "0"[..0] == "";
  }

  /** The "000" of "Rs 75,000 crores" reads as 0, and read from any of
      its digits the number ends at the space. */
  lemma CroresZeros()
    ensures NumberAt("Rs 75,000 crores", 6) == (0.0, 9)
    ensures NumberAt("Rs 75,000 crores", 7).1 == 9 && NumberAt("Rs 75,000 crores", 8).1 == 9
  {
    var s := "Rs 75,000 crores";
    assert IsDigit(s[6]) && IsDigit(s[7]) && IsDigit(s[8]) && !IsDigit(s[9]);
    assert DigitSpan(s, 6, 9) && DigitSpan(s, 7, 9) && DigitSpan(s, 8, 9);
    NumberSpan(s, 6, 9, 9);
    NumberSpan(s, 7, 9, 9);
    NumberSpan(s, 8, 9, 9);
    assert s[6..9] == "000";
    ThreeZeros();
  }

  /** One space follows the "000" of "Rs 75,000 crores", and no digit
      comes after it. */
  lemma CroresTail()
    ensures SpaceRun("Rs 75,000 crores", 9) == 1
    ensures NoDigitFrom("Rs 75,000 crores", 9)
  {
    var s := "Rs 75,000 crores";
    assert IsSpace(s[9]) && !IsSpace(s[10]);
    SpaceRunOf(s, 9, 10);
  }

  /** Neither currency symbol occurs in "Rs 75,000 crores". */
  lemma CroresSymbols()
    ensures '₹' !in "Rs 75,000 crores" && '$' !in "Rs 75,000 crores"
  {
  }

  /** From the "000" on, a magnitude pattern whose alternative occurs at
      the "c" of "crores" captures the 0 and nothing more. */
  lemma CroresFound(alternatives: seq<string>, n: nat)
    requires FirstAlternative("Rs 75,000 crores", 10, alternatives) == Some(n)
    ensures FindAll("Rs 75,000 crores", Magnitude(alternatives), 6) == [0.0]
  {
    var s := "Rs 75,000 crores";
    var p := Magnitude(alternatives);
    CroresZeros();
    CroresTail();
    assert IsDigit(s[6]);
    assert SuffixEnd(s, 9, alternatives) == Some(10 + n);
    assert MatchAt(s, 6, p) == Some((0.0, 10 + n));
    FindAllFirst(s, p, 6, 6);
    assert NoDigitFrom(s, 10 + n);
    FindAllNoDigit(s, p, 10 + n);
  }

  /** From the "000" on, a magnitude pattern none of whose alternatives
      occurs at the "c" of "crores" captures nothing. */
  lemma CroresNotFound(alternatives: seq<string>)
    requires FirstAlternative("Rs 75,000 crores", 10, alternatives) == None
    ensures FindAll("Rs 75,000 crores", Magnitude(alternatives), 6) == []
  {
    var s := "Rs 75,000 crores";
    var p := Magnitude(alternatives);
    CroresZeros();
    CroresTail();
    assert IsDigit(s[6]) && IsDigit(s[7]) && IsDigit(s[8]);
    assert SuffixEnd(s, 9, alternatives) == None;
    assert MatchAt(s, 6, p).None? && MatchAt(s, 7, p).None? && MatchAt(s, 8, p).None?;
    FindAllSkipOne(s, p, 6);
    FindAllSkipOne(s, p, 7);
    FindAllSkipOne(s, p, 8);
    FindAllNoDigit(s, p, 9);
  }

  /** A magnitude pattern on "Rs 75,000 crores" captures the 0 of "000"
      exactly when one of its alternatives occurs at the "c" of "crores". */
  lemma CroresMagnitude(alternatives: seq<string>)
    requires NoCommaStart(alternatives)
    ensures FindAll("Rs 75,000 crores", Magnitude(alternatives), 0)
         == match FirstAlternative("Rs 75,000 crores", 10, alternatives)
            case Some(n) => [0.0]
            case None => []
  {
    CroresPrefix(alternatives);
    match FirstAlternative("Rs 75,000 crores", 10, alternatives)
    case Some(n) => CroresFound(alternatives, n);
    case None => CroresNotFound(alternatives);
  }

  /** At the "c" of "crores" the crore pattern's first alternative
      occurs. */
  lemma CroresCrore()
    ensures FirstAlternative("Rs 75,000 crores", 10, Crore.alternatives) == Some(6)
  {
    var s := "Rs 75,000 crores";
    assert s[10..][..6] == "crores";
    LowerPrefixOfSame(s[10..], "crores");
  }

  /** At the "c" of "crores" no alternative of the other magnitude
      patterns occurs. */
  lemma CroresOthers()
    ensures FirstAlternative("Rs 75,000 crores", 10, Lakh.alternatives) == None
    ensures FirstAlternative("Rs 75,000 crores", 10, Thousand.alternatives) == None
    ensures FirstAlternative("Rs 75,000 crores", 10, Million.alternatives) == None
    ensures FirstAlternative("Rs 75,000 crores", 10, Billion.alternatives) == None
  {
    var s := "Rs 75,000 crores";
    assert Lower(s[10]) == 'c';
    NoAlternativeAt(s, 10, Lakh.alternatives);
    NoAlternativeAt(s, 10, Thousand.alternatives);
    NoAlternativeAt(s, 10, Million.alternatives);
    NoAlternativeAt(s, 10, Billion.alternatives);
  }

  lemma MagnitudesNoCommaStart()
    ensures NoCommaStart(Crore.alternatives) && NoCommaStart(Lakh.alternatives)
    ensures NoCommaStart(Thousand.alternatives) && NoCommaStart(Million.alternatives)
    ensures NoCommaStart(Billion.alternatives)
  {
  }

  /** The magnitude patterns on "Rs 75,000 crores". */
  lemma CroresMagnitudes()
    ensures FindAll("Rs 75,000 crores", Crore, 0) == [0.0]
    ensures FindAll("Rs 75,000 crores", Lakh, 0) == []
    ensures FindAll("Rs 75,000 crores", Thousand, 0) == []
    ensures FindAll("Rs 75,000 crores", Million, 0) == []
    ensures FindAll("Rs 75,000 crores", Billion, 0) == []
  {
    CroresCrore();
    CroresOthers();
    MagnitudesNoCommaStart();
    CroresMagnitude(Crore.alternatives);
    CroresMagnitude(Lakh.alternatives);
    CroresMagnitude(Thousand.alternatives);
    CroresMagnitude(Million.alternatives);
    CroresMagnitude(Billion.alternatives);
  }

  /** "Rs 75,000 crores": the magnitude patterns cannot read the thousands
      separator, so the only value captured is the 0 of "000". */
  lemma SeventyFiveThousandCrores()
    ensures ExtractNumbers("Rs 75,000 crores") == [0.0]
  {
    ExtractNumbersGrouped("Rs 75,000 crores");
    CroresMagnitudes();
    CroresSymbols();
    CurrencyAbsent("Rs 75,000 crores", '₹');
    CurrencyAbsent("Rs 75,000 crores", '$');
  }

  /** No non-empty alternative occurs at the end of the text. */
  lemma NoAlternativeAtEnd(s: string, alternatives: seq<string>)
    requires forall k :: 0 <= k < |alternatives| ==> alternatives[k] != []
    ensures FirstAlternative(s, |s|, alternatives) == None
  {
    forall a | a in alternatives
      ensures !OccursAt(s, |s|, a)
    {
      assert s[|s|..] == [];
    }
  }

  /** In "₹ 75,000" a magnitude pattern matches nowhere: the "75" is
      followed by a comma and the "000" by the end of the text. */
  lemma RupeeMagnitude(alternatives: seq<string>)
    requires NoCommaStart(alternatives)
    ensures FindAll("₹ 75,000", Magnitude(alternatives), 0) == []
  {
    var s := "₹ 75,000";
    var p := Magnitude(alternatives);
    assert !IsDigit(s[0]) && !IsDigit(s[1]) && !IsDigit(s[4]);
    MagnitudeNeedsDigit(s, 0, alternatives);
    MagnitudeNeedsDigit(s, 1, alternatives);
    MagnitudeNeedsDigit(s, 4, alternatives);
    assert DigitSpan(s, 2, 4) && DigitSpan(s, 3, 4);
    DigitRunOf(s, 2, 4);
    DigitRunOf(s, 3, 4);
    MagnitudeStopsAtComma(s, 2, alternatives);
    MagnitudeStopsAtComma(s, 3, alternatives);
    RupeeZeros(alternatives);
    FindAllSkipOne(s, p, 0);
    FindAllSkipOne(s, p, 1);
    FindAllSkipOne(s, p, 2);
    FindAllSkipOne(s, p, 3);
    FindAllSkipOne(s, p, 4);
    FindAllSkipOne(s, p, 5);
    FindAllSkipOne(s, p, 6);
    FindAllSkipOne(s, p, 7);
  }

  /** From any digit of the "000" of "₹ 75,000" the number runs to the
      end of the text, where no suffix follows. */
  lemma RupeeZeros(alternatives: seq<string>)
    requires NoCommaStart(alternatives)
    ensures MatchAt("₹ 75,000", 5, Magnitude(alternatives)).None?
    ensures MatchAt("₹ 75,000", 6, Magnitude(alternatives)).None?
    ensures MatchAt("₹ 75,000", 7, Magnitude(alternatives)).None?
  {
    var s := "₹ 75,000";
    assert DigitSpan(s, 5, 8) && DigitSpan(s, 6, 8) && DigitSpan(s, 7, 8);
    NumberSpan(s, 5, 8, 8);
    NumberSpan(s, 6, 8, 8);
    NumberSpan(s, 7, 8, 8);
    assert SpaceRun(s, 8) == 0;
    NoAlternativeAtEnd(s, alternatives);
    assert SuffixEnd(s, 8, alternatives) == None;
  }

  lemma SeventyFiveThousandDigits()
    ensures DecimalValue("75000", "") == 75000.0
  {
    assert "75000"[..4] == "7500" && "7500"[..3] == "750" && "750"[..2] == "75";
    assert "75"[..1] == "7" && "7"[..0] == "";
  }

  /** The rupee pattern reads "75,000" in "₹ 75,000" as 75000, the
      thousands separator deleted. */
  lemma RupeeCapture()
    ensures FindAll("₹ 75,000", Rupee, 0) == [75000.0]
  {
    RupeeMatch();
    FindAllFirst("₹ 75,000", Rupee, 0, 0);
  }

  /** The rupee pattern matches all of "₹ 75,000" and captures 75000. */
  lemma RupeeMatch()
    ensures MatchAt("₹ 75,000", 0, Rupee) == Some((75000.0, 8))
  {
    RupeeSpans();
    CurrencyCapture("₹ 75,000", '₹', 0, 2, 4, 8, 8);
    RupeeDigits();
    SeventyFiveThousandCommas();
    SeventyFiveThousandDigits();
  }

  lemma RupeeDigits()
    ensures "₹ 75,000"[2..8] == "75,000"
  {
  }

  lemma RupeeSpans()
    ensures SpaceSpan("₹ 75,000", 1, 2) && DigitSpan("₹ 75,000", 2, 4)
    ensures CommaGroups("₹ 75,000", 4, 8) && GroupsStop("₹ 75,000", 8)
  {
  }

  /** Deleting the thousands separator of "75,000" leaves "75000". */
  lemma SeventyFiveThousandCommas()
    ensures RemoveAll("75,000", ",") == "75000"
  {
    GroupsDropCommas(["75", "000"]);
    assert Join(["75", "000"], ",") == "75,000";
    assert Join(["75", "000"], "") == "75000";
  }

  /** "₹ 75,000": the rupee pattern captures 75000 with its comma removed,
      and no other pattern matches. */
  lemma RupeeSeventyFiveThousand()
    ensures ExtractNumbers("₹ 75,000") == [75000.0]
  {
    var s := "₹ 75,000";
    ExtractNumbersGrouped(s);
    RupeeMagnitudes();
    RupeeCapture();
    RupeeNoDollar();
    CurrencyAbsent(s, '$');
  }

  lemma RupeeNoDollar()
    ensures '$' !in "₹ 75,000"
  {
  }

  /** None of the magnitude patterns matches in "₹ 75,000". */
  lemma RupeeMagnitudes()
    ensures FindAll("₹ 75,000", Crore, 0) == []
    ensures FindAll("₹ 75,000", Lakh, 0) == []
    ensures FindAll("₹ 75,000", Thousand, 0) == []
    ensures FindAll("₹ 75,000", Million, 0) == []
    ensures FindAll("₹ 75,000", Billion, 0) == []
  {
    MagnitudesNoCommaStart();
    RupeeMagnitude(Crore.alternatives);
    RupeeMagnitude(Lakh.alternatives);
    RupeeMagnitude(Thousand.alternatives);
    RupeeMagnitude(Million.alternatives);
    RupeeMagnitude(Billion.alternatives);
  }
}

=== FILE: scoring.dfy ===
/** The impact category and the two scores of an article
    (`categorize_news_impact`, `calculate_investment_score`,
    `_calculate_relevance_score`). */
module Scoring {
  import opened Text
  import opened Seqs
  import opened Wrappers
  import Sentiment
  import Keywords

  type NonNegReal = x: real | x >= 0.0

  datatype Impact = HighlyPositive | Positive | HighlyNegative | Negative | Neutral

  /** `categorize_news_impact`: the first branch that applies decides. */
  function ImpactCategory(positiveCount: nat, negativeCount: nat, sentiment: real): (c: Impact)
    ensures -0.05 <= sentiment <= 0.05 ==> c == Neutral
    ensures positiveCount == 0 && negativeCount == 0 ==> c == Neutral
    ensures sentiment > 0.05 ==> c != Negative && c != HighlyNegative
    ensures sentiment < -0.05 ==> c != Positive && c != HighlyPositive
    ensures c == HighlyPositive ==> positiveCount > negativeCount && sentiment > 0.1
    ensures c == Positive ==> positiveCount > 0 && sentiment > 0.05
    ensures c == HighlyNegative ==> negativeCount > positiveCount && sentiment < -0.1
    ensures c == Negative ==> negativeCount > 0 && sentiment < -0.05
    ensures positiveCount > negativeCount && sentiment > 0.1 ==> c == HighlyPositive
    ensures !(positiveCount > negativeCount && sentiment > 0.1) && positiveCount > 0 && sentiment > 0.05
            ==> c == Positive
    ensures negativeCount > positiveCount && sentiment < -0.1 ==> c == HighlyNegative
    ensures !(negativeCount > positiveCount && sentiment < -0.1) && negativeCount > 0 && sentiment < -0.05
            ==> c == Negative
  {
    if positiveCount > negativeCount && sentiment > 0.1 then HighlyPositive
    else if positiveCount > 0 && sentiment > 0.05 then Positive
    else if negativeCount > positiveCount && sentiment < -0.1 then HighlyNegative
    else if negativeCount > 0 && sentiment < -0.05 then Negative
    else Neutral
  }

  function Mirror(c: Impact): Impact {
    match c
    case HighlyPositive => HighlyNegative
    case Positive => Negative
    case HighlyNegative => HighlyPositive
    case Negative => Positive
    case Neutral => Neutral
  }

  /** Swapping the keyword counts and negating the sentiment mirrors the
      category: the rule treats good and bad news alike. */
  lemma ImpactMirror(positiveCount: nat, negativeCount: nat, sentiment: real)
    ensures ImpactCategory(negativeCount, positiveCount, -sentiment)
            == Mirror(ImpactCategory(positiveCount, negativeCount, sentiment))
  {
  }

  /** Sources whose name earns the credibility bonus. */
  const CredibleSources: seq<string> := ["economic times", "business standard", "mint", "moneycontrol"]

  /** `any(cs in source.lower() for cs in credible_sources)` */
  predicate Credible(source: string) {
    exists i :: 0 <= i < |CredibleSources| && Contains(LowerStr(source), CredibleSources[i])
  }

  /** `(datetime.now() - pub_date).days` on timestamps in seconds: the
      number of whole days, rounded down. */
  function DaysOld(now: int, published: int): (d: int)
    ensures d * 86400 <= now - published < d * 86400 + 86400
    ensures now >= published <==> d >= 0
  {
    (now - published) / 86400
  }

  /** 40% weight: the strength of the sentiment. */
  function SentimentPart(sentiment: Sentiment.Polarity): (r: real)
    ensures 0.0 <= r <= 0.4
  {
    Abs(sentiment) * 0.4
  }

  /** 30% weight: 0.1 per positive or negative keyword and 0.05 per neutral
      one, capped. */
  function KeywordPart(found: Keywords.Found): (r: real)
    ensures 0.0 <= r <= 0.3
    ensures |found.positive| + |found.negative| >= 3 ==> r == 0.3
  {
    Min(0.1 * (|found.positive| as real) + 0.1 * (|found.negative| as real) + 0.05 * (|found.neutral| as real), 0.3)
  }

  /** 20% weight: `max(0, (7 - days_old) / 7) * 0.2`, nothing without a date. */
  function RecencyPart(daysOld: Option<int>): (r: real)
    ensures r >= 0.0
    ensures daysOld.None? ==> r == 0.0
    ensures daysOld.Some? && daysOld.value >= 7 ==> r == 0.0
    ensures daysOld.Some? && 0 <= daysOld.value ==> r <= 0.2
    ensures daysOld.Some? && daysOld.value < 0 ==> r > 0.2
  {
    match daysOld
    case None => 0.0
    case Some(d) => Max(0.0, ((7 - d) as real) / 7.0) * 0.2
  }

  /** 10% weight: the credibility bonus. */
  function SourcePart(source: string): (r: real)
    ensures Credible(source) ==> r == 0.1
    ensures !Credible(source) ==> r == 0.0
  {
    if Credible(source) then 0.1 else 0.0
  }

  /** `calculate_investment_score`; `daysOld` is the article's age in days
      (`None` without a publication date). */
  function InvestmentScore(sentiment: Sentiment.Polarity, found: Keywords.Found, daysOld: Option<int>, source: string): (r: real)
    ensures 0.0 <= r <= 1.0
  {
    Min(SentimentPart(sentiment) + KeywordPart(found) + RecencyPart(daysOld) + SourcePart(source), 1.0)
  }

  /** A credible source adds exactly 0.1 before the cap. */
  lemma CredibleSourceBonus(sentiment: Sentiment.Polarity, found: Keywords.Found, daysOld: Option<int>, credible: string, other: string)
    requires Credible(credible) && !Credible(other)
    ensures InvestmentScore(sentiment, found, daysOld, credible)
            == Min(SentimentPart(sentiment) + KeywordPart(found) + RecencyPart(daysOld) + 0.1, 1.0)
    ensures InvestmentScore(sentiment, found, daysOld, other)
            == Min(SentimentPart(sentiment) + KeywordPart(found) + RecencyPart(daysOld), 1.0)
  {
  }

  /** An article a week old or older scores as if it had no date. */
  lemma StaleIsUndated(sentiment: Sentiment.Polarity, found: Keywords.Found, days: int, source: string)
    requires days >= 7
    ensures InvestmentScore(sentiment, found, Some(days), source) == InvestmentScore(sentiment, found, None, source)
  {
  }

  /** A newer article never scores lower than an older one. */
  lemma RecencyMonotone(sentiment: Sentiment.Polarity, found: Keywords.Found, newer: int, older: int, source: string)
    requires newer <= older
    ensures InvestmentScore(sentiment, found, Some(newer), source) >= InvestmentScore(sentiment, found, Some(older), source)
  {
    assert RecencyPart(Some(newer)) >= RecencyPart(Some(older)) by {
      assert ((7 - newer) as real) / 7.0 >= ((7 - older) as real) / 7.0;
    }
  }

  /** `_calculate_relevance_score`: keywords (0.05 each, up to 0.3), the
      sentiment strength (25%), matched companies (0.1 each, up to 0.2),
      the financial density (15%) and the content length (per 1000
      characters, up to 10%), capped at 1.0. */
  function RelevanceScore(totalKeywords: nat, sentiment: Sentiment.Polarity, companyCount: nat,
                          financialDensity: NonNegReal, contentLength: nat): (r: real)
    ensures 0.0 <= r <= 1.0
    ensures contentLength >= 100 ==> r >= 0.01
  {
    var keywords := Min((totalKeywords as real) * 0.05, 0.3);
    var strength := Abs(sentiment) * 0.25;
    var companies := Min((companyCount as real) * 0.1, 0.2);
    var financial := financialDensity * 0.15;
    var quality := Min((contentLength as real) / 1000.0, 1.0) * 0.1;
    Min(keywords + strength + companies + financial + quality, 1.0)
  }

  /** More keywords, more companies, a denser financial vocabulary, a
      longer text or a stronger sentiment never lower the relevance. */
  lemma RelevanceMonotone(k1: nat, k2: nat, s1: Sentiment.Polarity, s2: Sentiment.Polarity, c1: nat, c2: nat,
                          f1: NonNegReal, f2: NonNegReal, n1: nat, n2: nat)
    requires k1 <= k2 && Abs(s1) <= Abs(s2) && c1 <= c2 && f1 <= f2 && n1 <= n2
    ensures RelevanceScore(k1, s1, c1, f1, n1) <= RelevanceScore(k2, s2, c2, f2, n2)
  {
    assert (n1 as real) / 1000.0 <= (n2 as real) / 1000.0;
  }

  /** Without keywords, sentiment, companies or financial terms, the score
      is the length share alone: 0.1 for 1000 characters or more. */
  lemma RelevanceOfBareText(contentLength: nat)
    ensures contentLength >= 1000 ==> RelevanceScore(0, 0.0, 0, 0.0, contentLength) == 0.1
    ensures RelevanceScore(0, 0.0, 0, 0.0, contentLength) <= 0.1
  {
  }
}

=== FILE: scraper.dfy ===
/** The scraper's post-processing of fetched articles: near-duplicate
    removal by title (`_remove_duplicate_articles`) and the recency filter
    (`filter_recent_articles`). Fetching and parsing feeds are left out. */
module Scraper {
  import opened Text
  import opened Seqs
  import opened Wrappers
  import opened Articles
  import Names

  /** `article.get('title', '').lower().strip()` */
  function NormTitle(a: Article): (t: string)
    ensures forall i :: 0 <= i < |t| ==> !IsUpper(t[i])
    ensures t == [] <==> AllSpace(a.title.GetOr([]))
  {
    var lowered := LowerStr(a.title.GetOr([]));
    var t := Strip(lowered);
    assert forall i :: 0 <= i < |t| ==> t[i] == lowered[LeadingSpaces(lowered) + i];
    t
  }

  /** `set(title.split())` */
  function WordSet(t: string): set<string> {
    var words := Split(t);
    set k | 0 <= k < |words| :: words[k]
  }

  /** `len(A & B) / len(A | B)` on the word sets of two titles. */
  function TitleSimilarity(t1: string, t2: string): (r: real)
    ensures 0.0 <= r <= 1.0
  {
    var a := WordSet(t1);
    var b := WordSet(t2);
    Names.SubsetCard(a * b, a + b);
    Ratio(|a * b|, |a + b|)
  }

  /** On normalised titles the duplicate test measures the same Jaccard
      index as `calculate_text_similarity`. */
  lemma TitleSimilarityIsTextSimilarity(x: Article, y: Article)
    requires NormTitle(x) != [] && NormTitle(y) != []
    ensures TitleSimilarity(NormTitle(x), NormTitle(y)) == Names.TextSimilarity(NormTitle(x), NormTitle(y))
  {
    LowerOfLower(NormTitle(x));
    LowerOfLower(NormTitle(y));
  }

  /** Every element of `s` is accepted by `keep`. */
  predicate AllAccepted<T>(s: seq<T>, keep: T -> bool) {
    forall i :: 0 <= i < |s| ==> keep(s[i])
  }

  /** No element of `s` is near an element before it. */
  predicate PairwiseApart<T>(s: seq<T>, near: (T, T) -> bool) {
    forall i, j :: 0 <= i < j < |s| ==> !near(s[j], s[i])
  }

  /** `x` is near none of `kept`. */
  predicate Apart<T>(x: T, kept: seq<T>, near: (T, T) -> bool) {
    forall k :: 0 <= k < |kept| ==> !near(x, kept[k])
  }

  /** The first-wins scan of `_remove_duplicate_articles`, generic in the
      element type: an element is kept when `keep` holds for it and it is
      `near` none of the elements kept before it. */
  function DedupBy<T>(s: seq<T>, keep: T -> bool, near: (T, T) -> bool): (r: seq<T>)
    ensures IsSubseq(r, s)
    ensures AllAccepted(r, keep)
    ensures PairwiseApart(r, near)
    decreases |s|
  {
    if s == [] then []
    else
      var front := s[..|s| - 1];
      var last := s[|s| - 1];
      var kept := DedupBy(front, keep, near);
      FrontLast(s);
      SubseqSnoc(kept, front, last);
      if keep(last) && Apart(last, kept, near) then
        KeptSnoc(kept, last, keep, near);
        kept + [last]
      else kept
  }

  /** Appending an accepted element apart from all the others. */
  lemma KeptSnoc<T>(kept: seq<T>, x: T, keep: T -> bool, near: (T, T) -> bool)
    requires AllAccepted(kept, keep) && PairwiseApart(kept, near)
    requires keep(x) && Apart(x, kept, near)
    ensures AllAccepted(kept + [x], keep) && PairwiseApart(kept + [x], near)
  {
    var r := kept + [x];
    forall i, j | 0 <= i < j < |r| ensures !near(r[j], r[i]) {
      assert r[i] == kept[i];
      if j < |kept| {
        assert r[j] == kept[j];
      }
    }
  }

  /** Dropping the last element keeps both properties. */
  lemma KeptFront<T>(s: seq<T>, keep: T -> bool, near: (T, T) -> bool)
    requires s != [] && AllAccepted(s, keep) && PairwiseApart(s, near)
    ensures AllAccepted(s[..|s| - 1], keep) && PairwiseApart(s[..|s| - 1], near)
    ensures Apart(s[|s| - 1], s[..|s| - 1], near)
  {
    var front := s[..|s| - 1];
    assert forall i :: 0 <= i < |front| ==> front[i] == s[i];
  }

  /** The scan decides each accepted element against the elements kept
      before it: what was kept from the elements before `s[i]` begins the
      result, and `s[i]` is kept right after them exactly when it is near
      none of them; otherwise it is near one of them. */
  lemma {:induction false} DedupByMaximal<T>(s: seq<T>, keep: T -> bool, near: (T, T) -> bool, i: nat)
    requires i < |s| && keep(s[i])
    ensures var before := DedupBy(s[..i], keep, near);
      var r := DedupBy(s, keep, near);
      && |before| <= |r| && r[..|before|] == before
      && (Apart(s[i], before, near) ==> |before| < |r| && r[|before|] == s[i])
      && ((|before| < |r| && r[|before|] == s[i])
          || exists k :: 0 <= k < |before| && near(s[i], before[k]))
    ensures s[i] in DedupBy(s, keep, near)
            || exists k :: 0 <= k < |DedupBy(s, keep, near)| && near(s[i], DedupBy(s, keep, near)[k])
    decreases |s|
  {
    var front := s[..|s| - 1];
    var kept := DedupBy(front, keep, near);
    var r := DedupBy(s, keep, near);
    var before := DedupBy(s[..i], keep, near);
    assert r == kept || r == kept + [s[|s| - 1]];
    assert r[..|kept|] == kept;
    if i < |s| - 1 {
      assert s[i] == front[i];
      assert front[..i] == s[..i];
      DedupByMaximal(front, keep, near, i);
      assert kept[..|before|] == before;
      assert r[..|before|] == before;
    } else {
      assert s[..i] == front;
      if r == kept {
        assert !Apart(s[i], kept, near);
      }
    }
    if Apart(s[i], before, near) {
      assert r[|before|] in r;
    } else {
      var k :| 0 <= k < |before| && near(s[i], before[k]);
      assert r[k] == before[k];
    }
  }

  /** A list whose elements are all accepted and pairwise apart passes
      through unchanged. */
  lemma {:induction false} DedupByOfApart<T>(s: seq<T>, keep: T -> bool, near: (T, T) -> bool)
    requires AllAccepted(s, keep) && PairwiseApart(s, near)
    ensures DedupBy(s, keep, near) == s
    decreases |s|
  {
    if s != [] {
      var front := s[..|s| - 1];
      KeptFront(s, keep, near);
      DedupByOfApart(front, keep, near);
      FrontLast(s);
    }
  }

  /** The first accepted element is always kept, first. */
  lemma {:induction false} DedupByKeepsFirst<T>(s: seq<T>, keep: T -> bool, near: (T, T) -> bool, i: nat)
    requires i < |s| && keep(s[i])
    requires forall k :: 0 <= k < i ==> !keep(s[k])
    ensures DedupBy(s, keep, near) != [] && DedupBy(s, keep, near)[0] == s[i]
    decreases |s|
  {
    var front := s[..|s| - 1];
    if i < |s| - 1 {
      DedupByKeepsFirst(front, keep, near, i);
    } else {
      NoneAcceptedNoneKept(front, keep, near);
    }
  }

  lemma {:induction false} NoneAcceptedNoneKept<T>(s: seq<T>, keep: T -> bool, near: (T, T) -> bool)
    requires forall k :: 0 <= k < |s| ==> !keep(s[k])
    ensures DedupBy(s, keep, near) == []
    decreases |s|
  {
    if s != [] {
      NoneAcceptedNoneKept(s[..|s| - 1], keep, near);
    }
  }

  predicate HasTitle(a: Article) {
    NormTitle(a) != []
  }

  /** More than 70% of the words of the two titles are shared. */
  predicate Duplicates(a: Article, b: Article) {
    TitleSimilarity(NormTitle(a), NormTitle(b)) > 0.7
  }

  /** `_remove_duplicate_articles`: scanning in order, an article is kept
      when its title is non-blank and not more than 70% similar to the
      title of any article kept before it. */
  function RemoveDuplicates(articles: seq<Article>): (r: seq<Article>)
    ensures IsSubseq(r, articles)
    ensures forall i :: 0 <= i < |r| ==> NormTitle(r[i]) != []
    ensures forall i, j :: 0 <= i < j < |r| ==> TitleSimilarity(NormTitle(r[j]), NormTitle(r[i])) <= 0.7
  {
    DedupBy(articles, HasTitle, Duplicates)
  }

  /** An article with a non-blank title is judged against the articles kept
      before it: those begin the result, and the article is kept right
      after them unless it is a near-duplicate of one of them. */
  lemma RemoveDuplicatesMaximal(articles: seq<Article>, i: nat)
    requires i < |articles| && NormTitle(articles[i]) != []
    ensures var before := RemoveDuplicates(articles[..i]);
      var r := RemoveDuplicates(articles);
      && |before| <= |r| && r[..|before|] == before
      && ((forall k :: 0 <= k < |before| ==> !Duplicates(articles[i], before[k]))
          ==> |before| < |r| && r[|before|] == articles[i])
      && ((|before| < |r| && r[|before|] == articles[i])
          || exists k :: 0 <= k < |before| && Duplicates(articles[i], before[k]))
    ensures articles[i] in RemoveDuplicates(articles)
            || exists k :: 0 <= k < |RemoveDuplicates(articles)| && Duplicates(articles[i], RemoveDuplicates(articles)[k])
  {
    DedupByMaximal(articles, HasTitle, Duplicates, i);
  }

  /** Removing duplicates twice removes nothing more. */
  lemma RemoveDuplicatesIdempotent(articles: seq<Article>)
    ensures RemoveDuplicates(RemoveDuplicates(articles)) == RemoveDuplicates(articles)
  {
    DedupByOfApart(RemoveDuplicates(articles), HasTitle, Duplicates);
  }

  /** The first article with a non-blank title is always kept, first. */
  lemma RemoveDuplicatesKeepsFirst(articles: seq<Article>, i: nat)
    requires i < |articles| && NormTitle(articles[i]) != []
    requires forall k :: 0 <= k < i ==> NormTitle(articles[k]) == []
    ensures RemoveDuplicates(articles) != [] && RemoveDuplicates(articles)[0] == articles[i]
  {
    DedupByKeepsFirst(articles, HasTitle, Duplicates, i);
  }

  /** Kept by `filter_recent_articles`: undated, or published at or after
      the cutoff. */
  predicate Recent(a: Article, cutoff: int) {
    a.publishedDate.None? || a.publishedDate.value >= cutoff
  }

  /** `filter_recent_articles(articles, days_back)`, with the current time
      `now` in seconds; the cutoff is `days_back` whole days earlier. */
  function FilterRecent(articles: seq<Article>, now: int, daysBack: int): (r: seq<Article>)
    ensures IsSubseq(r, articles)
    ensures forall i :: 0 <= i < |r| ==> r[i].publishedDate.None? || r[i].publishedDate.value >= now - daysBack * 86400
    ensures forall i :: 0 <= i < |articles| && articles[i].publishedDate.None? ==> articles[i] in r
    ensures forall i :: 0 <= i < |articles| && articles[i].publishedDate.Some?
                        && articles[i].publishedDate.value >= now - daysBack * 86400
                        ==> articles[i] in r
    ensures forall x :: Count(r, x) == if Recent(x, now - daysBack * 86400) then Count(articles, x) else 0
  {
    var cutoff := now - daysBack * 86400;
    FilterIsSubseq(articles, a => Recent(a, cutoff));
    forall x ensures Count(Filter(articles, a => Recent(a, cutoff)), x) == if Recent(x, cutoff) then Count(articles, x) else 0 {
      FilterCount(articles, a => Recent(a, cutoff), x);
    }
    Filter(articles, a => Recent(a, cutoff))
  }

  /** Looking further back never drops an article a shorter look-back
      keeps. */
  lemma FilterRecentWiden(articles: seq<Article>, now: int, shorter: int, longer: int)
    requires shorter <= longer
    ensures forall i :: 0 <= i < |FilterRecent(articles, now, shorter)| ==>
      FilterRecent(articles, now, shorter)[i] in FilterRecent(articles, now, longer)
  {
    var r := FilterRecent(articles, now, shorter);
    forall i | 0 <= i < |r| ensures r[i] in FilterRecent(articles, now, longer) {
      var j :| 0 <= j < |articles| && articles[j] == r[i];
      assert shorter * 86400 <= longer * 86400;
    }
  }
}

=== FILE: sentiment.dfy ===
/** Document and sentence sentiment (`analyze_sentiment` and
    `_get_sentiment_label`). The polarity/subjectivity estimator and the
    sentence splitter are third-party code; the model receives them as an
    `Estimator` whose results respect the documented ranges. */
module Sentiment {
  import opened Text
  import opened Seqs
  import Config

  type Polarity = p: real | -1.0 <= p <= 1.0 witness 0.0
  type Subjectivity = s: real | 0.0 <= s <= 1.0 witness 0.0

  /** The generic sentiment estimator: document polarity and subjectivity,
      sentence splitting, and whether the estimator raises on a text. */
  datatype Estimator = Estimator(
    polarity: string -> Polarity,
    subjectivity: string -> Subjectivity,
    sentences: string -> seq<string>,
    fails: string -> bool)

  datatype Label = Positive | Negative | Neutral

  /** `_get_sentiment_label` */
  function LabelOf(polarity: real): (l: Label)
    ensures l == Positive <==> polarity > 0.1
    ensures l == Negative <==> polarity < -0.1
    ensures l == Neutral <==> -0.1 <= polarity <= 0.1
  {
    if polarity > Config.SentimentThreshold then Positive
    else if polarity < -Config.SentimentThreshold then Negative
    else Neutral
  }

  /** The outcome of `analyze_sentiment`: either the estimator's figures or
      the neutral defaults of the exception branch, which also put an error
      on the article's record. */
  datatype SentimentResult =
    | Measured(score: Polarity, subjectivity: Subjectivity, sentimentLabel: Label,
               positiveSentences: nat, negativeSentences: nat, neutralSentences: nat,
               sentencePolarities: seq<Polarity>)
    | Failed
  {
    /** `sentiment_score`, 0.0 after a failure. */
    function Score(): Polarity {
      if Measured? then score else 0.0
    }

    /** `sentiment_label`, Neutral after a failure. */
    function LabelValue(): Label {
      if Measured? then sentimentLabel else Neutral
    }
  }

  /** A sentence is scored when it has more than three words. */
  predicate LongSentence(sentence: string) {
    |Split(sentence)| > 3
  }

  /** Polarities of the sentences with more than three words, in order. */
  function SentencePolarities(est: Estimator, sentences: seq<string>): (r: seq<Polarity>)
    ensures |r| == |Filter(sentences, LongSentence)|
    ensures forall i :: 0 <= i < |r| ==> r[i] == est.polarity(Filter(sentences, LongSentence)[i])
    decreases |sentences|
  {
    if sentences == [] then []
    else if LongSentence(sentences[0]) then [est.polarity(sentences[0])] + SentencePolarities(est, sentences[1..])
    else SentencePolarities(est, sentences[1..])
  }

  predicate IsPositive(p: Polarity) { p > 0.1 }
  predicate IsNegative(p: Polarity) { p < -0.1 }
  predicate IsNeutral(p: Polarity) { -0.1 <= p <= 0.1 }

  /** The three threshold classes partition the sentence polarities. */
  lemma {:induction false} ClassesPartition(ps: seq<Polarity>)
    ensures |Filter(ps, IsPositive)| + |Filter(ps, IsNegative)| + |Filter(ps, IsNeutral)| == |ps|
    decreases |ps|
  {
    if ps != [] {
      ClassesPartition(ps[1..]);
    }
  }

  /** Each sentence is counted under the label `LabelOf` gives it. */
  lemma {:induction false} ClassesAgreeWithLabels(ps: seq<Polarity>)
    ensures |Filter(ps, IsPositive)| == |Filter(ps, p => LabelOf(p) == Positive)|
    ensures |Filter(ps, IsNegative)| == |Filter(ps, p => LabelOf(p) == Negative)|
    ensures |Filter(ps, IsNeutral)| == |Filter(ps, p => LabelOf(p) == Neutral)|
    decreases |ps|
  {
    if ps != [] {
      ClassesAgreeWithLabels(ps[1..]);
    }
  }

  /** `analyze_sentiment` */
  function AnalyzeSentiment(est: Estimator, text: string): (r: SentimentResult)
    ensures r.Failed? <==> est.fails(text)
    ensures r.Measured? ==>
      && r.score == est.polarity(text)
      && r.subjectivity == est.subjectivity(text)
      && r.sentimentLabel == LabelOf(r.score)
      && |r.sentencePolarities| == |Filter(est.sentences(text), LongSentence)|
      && (forall i :: 0 <= i < |r.sentencePolarities| ==>
            r.sentencePolarities[i] == est.polarity(Filter(est.sentences(text), LongSentence)[i]))
      && r.positiveSentences == |Filter(r.sentencePolarities, IsPositive)|
      && r.negativeSentences == |Filter(r.sentencePolarities, IsNegative)|
      && r.neutralSentences == |Filter(r.sentencePolarities, IsNeutral)|
      && r.positiveSentences + r.negativeSentences + r.neutralSentences
           == |Filter(est.sentences(text), LongSentence)|
    ensures r.Failed? ==> r.Score() == 0.0 && r.LabelValue() == Neutral
  {
    if est.fails(text) then Failed
    else
      var polarity := est.polarity(text);
      var ps := SentencePolarities(est, est.sentences(text));
      var positive := |Filter(ps, IsPositive)|;
      var negative := |Filter(ps, IsNegative)|;
      ClassesPartition(ps);
      var neutral := |ps| - positive - negative;
      Measured(polarity, est.subjectivity(text), LabelOf(polarity),
               positive, negative, neutral, ps)
  }

  /** Counting the polarities of a class is counting the long sentences
      whose polarity is in that class. */
  lemma {:induction false} SentenceClassCount(est: Estimator, sentences: seq<string>, q: Polarity -> bool)
    ensures |Filter(SentencePolarities(est, sentences), q)|
            == |Filter(sentences, s => LongSentence(s) && q(est.polarity(s)))|
    decreases |sentences|
  {
    if sentences != [] {
      SentenceClassCount(est, sentences[1..], q);
    }
  }

  /** The same count, for a predicate on sentences that tests the class of
      their polarity. */
  lemma ClassCountAs(est: Estimator, sentences: seq<string>, q: Polarity -> bool, p: string -> bool)
    requires forall s :: p(s) == (LongSentence(s) && q(est.polarity(s)))
    ensures |Filter(SentencePolarities(est, sentences), q)| == |Filter(sentences, p)|
  {
    SentenceClassCount(est, sentences, q);
    FilterSame(sentences, s => LongSentence(s) && q(est.polarity(s)), p);
  }

  lemma MeasuredPolarities(est: Estimator, text: string)
    requires !est.fails(text)
    ensures AnalyzeSentiment(est, text).Measured?
    ensures AnalyzeSentiment(est, text).sentencePolarities == SentencePolarities(est, est.sentences(text))
  {
  }

  /** Each sentence count is the number of sentences of more than three
      words whose own polarity lies in that class. */
  lemma SentenceCounts(est: Estimator, text: string)
    requires !est.fails(text)
    ensures AnalyzeSentiment(est, text).positiveSentences
            == |Filter(est.sentences(text), s => LongSentence(s) && est.polarity(s) > 0.1)|
    ensures AnalyzeSentiment(est, text).negativeSentences
            == |Filter(est.sentences(text), s => LongSentence(s) && est.polarity(s) < -0.1)|
    ensures AnalyzeSentiment(est, text).neutralSentences
            == |Filter(est.sentences(text), s => LongSentence(s) && -0.1 <= est.polarity(s) <= 0.1)|
  {
    var ss := est.sentences(text);
    MeasuredPolarities(est, text);
    ClassCountAs(est, ss, IsPositive, s => LongSentence(s) && est.polarity(s) > 0.1);
    ClassCountAs(est, ss, IsNegative, s => LongSentence(s) && est.polarity(s) < -0.1);
    ClassCountAs(est, ss, IsNeutral, s => LongSentence(s) && -0.1 <= est.polarity(s) <= 0.1);
  }
}

=== FILE: seqs.dfy ===
/** Generic sequence helpers shared by the analyzer, the scraper and the
    dashboard: list comprehensions with a condition, subsequences, counting,
    first-occurrence deduplication, Python's `sorted(..., reverse=True)`,
    `Counter.most_common` and arithmetic means. */
module Seqs {

  /** Elements drawn from `s` share every property all of `s` has. */
  lemma DrawnFrom<T>(r: seq<T>, s: seq<T>, p: T -> bool)
    requires forall i :: 0 <= i < |r| ==> r[i] in s
    requires forall j :: 0 <= j < |s| ==> p(s[j])
    ensures forall i :: 0 <= i < |r| ==> p(r[i])
  {
    forall i | 0 <= i < |r| ensures p(r[i]) {
      var j :| 0 <= j < |s| && s[j] == r[i];
    }
  }

  /** An element of a sequence is in the set of its elements. */
  lemma InElems<T>(s: seq<T>, x: T)
    requires x in s
    ensures x in (set i | 0 <= i < |s| :: s[i])
  {
    var i :| 0 <= i < |s| && s[i] == x;
  }

  /** A non-empty sequence is its front followed by its last element. */
  lemma FrontLast<T>(s: seq<T>)
    requires s != []
    ensures s == s[..|s| - 1] + [s[|s| - 1]]
  {
  }

  /** `[x for x in s if p(x)]` */
  function Filter<T>(s: seq<T>, p: T -> bool): (r: seq<T>)
    ensures |r| <= |s|
    ensures forall i :: 0 <= i < |r| ==> p(r[i]) && r[i] in s
    ensures forall i :: 0 <= i < |s| && p(s[i]) ==> s[i] in r
    decreases |s|
  {
    if s == [] then []
    else if p(s[0]) then [s[0]] + Filter(s[1..], p)
    else Filter(s[1..], p)
  }

  /** `a` is obtained from `b` by deleting elements, keeping the order. */
  predicate IsSubseq<T(==)>(a: seq<T>, b: seq<T>)
    decreases |b|
  {
    if a == [] then true
    else if b == [] then false
    else (a[0] == b[0] && IsSubseq(a[1..], b[1..])) || IsSubseq(a, b[1..])
  }

  lemma {:induction false} FilterIsSubseq<T>(s: seq<T>, p: T -> bool)
    ensures IsSubseq(Filter(s, p), s)
    decreases |s|
  {
    if s != [] {
      FilterIsSubseq(s[1..], p);
    }
  }

  /** Appending the same element to both sides keeps a subsequence. */
  lemma {:induction false} SubseqSnoc<T>(r: seq<T>, s: seq<T>, x: T)
    requires IsSubseq(r, s)
    ensures IsSubseq(r, s + [x]) && IsSubseq(r + [x], s + [x])
    decreases |s|
  {
    if r == [] {
      assert r + [x] == [x];
      SubseqOfTail([x], s);
    } else {
      assert (s + [x])[0] == s[0];
      assert (s + [x])[1..] == s[1..] + [x];
      assert (r + [x])[0] == r[0];
      if r[0] == s[0] && IsSubseq(r[1..], s[1..]) {
        SubseqSnoc(r[1..], s[1..], x);
        assert (r + [x])[1..] == r[1..] + [x];
      } else {
        SubseqSnoc(r, s[1..], x);
      }
    }
  }

  lemma {:induction false} SubseqOfTail<T>(r: seq<T>, s: seq<T>)
    ensures IsSubseq(r, s + r)
    decreases |s|
  {
    if s == [] {
      assert s + r == r;
      SubseqRefl(r);
    } else {
      SubseqOfTail(r, s[1..]);
      assert (s + r)[1..] == s[1..] + r;
      SubseqSkip(r, s + r);
    }
  }

  lemma {:induction false} SubseqRefl<T>(s: seq<T>)
    ensures IsSubseq(s, s)
    decreases |s|
  {
    if s != [] {
      SubseqRefl(s[1..]);
    }
  }

  lemma SubseqSkip<T>(r: seq<T>, s: seq<T>)
    requires s != [] && IsSubseq(r, s[1..])
    ensures IsSubseq(r, s)
  {
  }

  /** Filtering a list without repetitions gives one without repetitions. */
  lemma {:induction false} FilterNoDup<T>(s: seq<T>, p: T -> bool)
    ensures NoDup(s) ==> NoDup(Filter(s, p))
    decreases |s|
  {
    if s != [] && NoDup(s) {
      var t := Filter(s[1..], p);
      assert NoDup(s[1..]) by {
        forall i, j | 0 <= i < j < |s[1..]| ensures s[1..][i] != s[1..][j] {
          assert s[1..][i] == s[i + 1] && s[1..][j] == s[j + 1];
        }
      }
      FilterNoDup(s[1..], p);
      if p(s[0]) {
        assert s[0] !in s[1..];
        assert s[0] !in t;
        assert Filter(s, p) == [s[0]] + t;
      }
    }
  }

  /** Filtering twice with the same condition changes nothing the second time. */
  lemma {:induction false} FilterIdempotent<T>(s: seq<T>, p: T -> bool)
    ensures Filter(Filter(s, p), p) == Filter(s, p)
    decreases |s|
  {
    if s != [] {
      FilterIdempotent(s[1..], p);
    }
  }

  /** Filters with conditions that agree on every element agree. */
  lemma {:induction false} FilterCongruent<T>(s: seq<T>, p: T -> bool, q: T -> bool)
    requires forall i :: 0 <= i < |s| ==> p(s[i]) == q(s[i])
    ensures Filter(s, p) == Filter(s, q)
    decreases |s|
  {
    if s != [] {
      FilterCongruent(s[1..], p, q);
    }
  }

  /** A filter keeps everything when every element passes. */
  lemma {:induction false} FilterAll<T>(s: seq<T>, p: T -> bool)
    requires forall i :: 0 <= i < |s| ==> p(s[i])
    ensures Filter(s, p) == s
    decreases |s|
  {
    if s != [] {
      FilterAll(s[1..], p);
    }
  }

  lemma {:induction false} FilterMultiset<T>(s: seq<T>, p: T -> bool)
    ensures forall x :: multiset(Filter(s, p))[x] == (if p(x) then multiset(s)[x] else 0)
    decreases |s|
  {
    if s != [] {
      FilterMultiset(s[1..], p);
      assert s == [s[0]] + s[1..];
    }
  }

  /** Number of occurrences of `x` in `s` (`s.count(x)`). */
  function Count<T(==)>(s: seq<T>, x: T): (n: nat)
    ensures n <= |s|
    ensures n > 0 <==> x in s
    decreases |s|
  {
    if s == [] then 0 else (if s[0] == x then 1 else 0) + Count(s[1..], x)
  }

  /** Filtering keeps every copy of an element that passes and none of
      one that fails. */
  lemma {:induction false} FilterCount<T>(s: seq<T>, p: T -> bool, x: T)
    ensures Count(Filter(s, p), x) == if p(x) then Count(s, x) else 0
    decreases |s|
  {
    if s != [] {
      FilterCount(s[1..], p, x);
      if p(s[0]) {
        assert Filter(s, p)[1..] == Filter(s[1..], p);
      }
    }
  }

  /** Predicates that agree on the elements select the same ones. */
  lemma {:induction false} FilterSame<T>(s: seq<T>, p: T -> bool, q: T -> bool)
    requires forall i :: 0 <= i < |s| ==> p(s[i]) == q(s[i])
    ensures Filter(s, p) == Filter(s, q)
    decreases |s|
  {
    if s != [] {
      FilterSame(s[1..], p, q);
    }
  }

  lemma {:induction false} CountConcat<T>(a: seq<T>, b: seq<T>, x: T)
    ensures Count(a + b, x) == Count(a, x) + Count(b, x)
    decreases |a|
  {
    if a != [] {
      assert (a + b)[0] == a[0];
      assert (a + b)[1..] == a[1..] + b;
      CountConcat(a[1..], b, x);
    } else {
      assert a + b == b;
    }
  }

  /** No element occurs twice. */
  predicate NoDup<T(==)>(s: seq<T>) {
    forall i, j :: 0 <= i < j < |s| ==> s[i] != s[j]
  }

  /** The elements of `s` without repetitions, in order of first occurrence. */
  function Distinct<T(==)>(s: seq<T>): (r: seq<T>)
    ensures NoDup(r)
    ensures forall i :: 0 <= i < |r| ==> r[i] in s
    ensures forall i :: 0 <= i < |s| ==> s[i] in r
    ensures |r| <= |s|
    decreases |s|
  {
    if s == [] then []
    else
      var d := Distinct(s[..|s| - 1]);
      FrontLast(s);
      if s[|s| - 1] in d then d else d + [s[|s| - 1]]
  }

  /** `s` is sorted by `key`, largest first. */
  predicate SortedDesc<T>(s: seq<T>, key: T -> real) {
    forall i, j :: 0 <= i < j < |s| ==> key(s[i]) >= key(s[j])
  }

  /** Inserts `x` in front of the first element whose key is not larger,
      so that `x` stays before equal-keyed elements that came after it. */
  function InsertDesc<T(==)>(x: T, r: seq<T>, key: T -> real): (q: seq<T>)
    ensures multiset(q) == multiset(r) + multiset{x}
    ensures |q| == |r| + 1
    ensures q[0] == x || (r != [] && q[0] == r[0])
    decreases |r|
  {
    if r == [] || key(r[0]) <= key(x) then [x] + r
    else
      var t := InsertDesc(x, r[1..], key);
      assert r == [r[0]] + r[1..];
      [r[0]] + t
  }

  lemma {:induction false} InsertDescSorted<T>(x: T, r: seq<T>, key: T -> real)
    requires SortedDesc(r, key)
    ensures SortedDesc(InsertDesc(x, r, key), key)
    decreases |r|
  {
    if r != [] && key(r[0]) > key(x) {
      var t := InsertDesc(x, r[1..], key);
      assert SortedDesc(r[1..], key);
      InsertDescSorted(x, r[1..], key);
      InsertedBelowHead(x, r, key);
      ConsSorted(r[0], t, key);
    }
  }

  /** Inserting below the head of a sorted list keeps everything no larger
      than the head. */
  lemma InsertedBelowHead<T>(x: T, r: seq<T>, key: T -> real)
    requires SortedDesc(r, key) && r != [] && key(r[0]) > key(x)
    ensures forall k :: 0 <= k < |InsertDesc(x, r[1..], key)| ==> key(r[0]) >= key(InsertDesc(x, r[1..], key)[k])
  {
    var t := InsertDesc(x, r[1..], key);
    forall k | 0 <= k < |t| ensures key(r[0]) >= key(t[k]) {
      assert t[k] in multiset(t);
      if t[k] != x {
        assert t[k] in multiset(r[1..]);
        var j :| 0 <= j < |r[1..]| && r[1..][j] == t[k];
        assert r[j + 1] == t[k];
      }
    }
  }

  /** A head no smaller than anything in a sorted tail gives a sorted list. */
  lemma ConsSorted<T>(h: T, t: seq<T>, key: T -> real)
    requires SortedDesc(t, key)
    requires forall k :: 0 <= k < |t| ==> key(h) >= key(t[k])
    ensures SortedDesc([h] + t, key)
  {
    var q := [h] + t;
    forall i, j | 0 <= i < j < |q| ensures key(q[i]) >= key(q[j]) {
      assert q[j] == t[j - 1];
      if i > 0 {
        assert q[i] == t[i - 1];
      }
    }
  }

  /** Elements of a permutation of `s` are elements of `s`. */
  lemma SameMultisetMembers<T>(a: seq<T>, b: seq<T>)
    requires multiset(a) == multiset(b)
    ensures forall i :: 0 <= i < |a| ==> a[i] in b
  {
    forall i | 0 <= i < |a| ensures a[i] in b {
      assert a[i] in multiset(a);
    }
  }

  /** Python's `sorted(s, key=key, reverse=True)`, as an insertion sort:
      the contract states the order and the permutation, not how ties are
      ordered. */
  function SortDesc<T(==)>(s: seq<T>, key: T -> real): (r: seq<T>)
    ensures multiset(r) == multiset(s)
    ensures |r| == |s|
    ensures SortedDesc(r, key)
    decreases |s|
  {
    if s == [] then []
    else
      assert s == [s[0]] + s[1..];
      InsertDescSorted(s[0], SortDesc(s[1..], key), key);
      InsertDesc(s[0], SortDesc(s[1..], key), key)
  }

  /** Sorting an already sorted sequence returns it unchanged. */
  lemma {:induction false} SortDescOfSorted<T>(s: seq<T>, key: T -> real)
    requires SortedDesc(s, key)
    ensures SortDesc(s, key) == s
    decreases |s|
  {
    if s != [] {
      var t := s[1..];
      assert SortedDesc(t, key);
      calc {
        SortDesc(s, key);
        InsertDesc(s[0], SortDesc(t, key), key);
        { SortDescOfSorted(t, key); }
        InsertDesc(s[0], t, key);
        { assert t == [] || key(t[0]) <= key(s[0]); }
        [s[0]] + t;
        s;
      }
    }
  }

  /** The first `n` elements (`s[:n]`). */
  function Take<T>(s: seq<T>, n: nat): (r: seq<T>)
    ensures |r| <= n && |r| <= |s|
    ensures |s| <= n ==> r == s
    ensures n <= |s| ==> |r| == n
    ensures forall i :: 0 <= i < |r| ==> r[i] == s[i]
  {
    if |s| <= n then s else s[..n]
  }
  /** A prefix keeps distinct keys and descending order. */
  lemma TakeKeepsOrder<T, K>(s: seq<T>, n: nat, key: T -> K, score: T -> real)
    requires KeysDistinct(s, key) && SortedDesc(s, score)
    ensures KeysDistinct(Take(s, n), key) && SortedDesc(Take(s, n), score)
  {
  }


  /** `[(x, s.count(x)) for x in d]` */
  function Tally<T(==)>(d: seq<T>, s: seq<T>): (r: seq<(T, nat)>)
    ensures |r| == |d|
    ensures forall i :: 0 <= i < |r| ==> r[i] == (d[i], Count(s, d[i]))
    decreases |d|
  {
    if d == [] then [] else [(d[0], Count(s, d[0]))] + Tally(d[1..], s)
  }

  function CountKey<T>(p: (T, nat)): real {
    p.1 as real
  }

  /** Every entry of a permutation of the tally of `s` is an element of
      `s` with its true, positive count. */
  lemma TallyEntries<T>(s: seq<T>, sorted: seq<(T, nat)>)
    requires multiset(sorted) == multiset(Tally(Distinct(s), s))
    ensures forall i :: 0 <= i < |sorted| ==>
      sorted[i].0 in s && sorted[i].1 == Count(s, sorted[i].0) && sorted[i].1 > 0
  {
    var d := Distinct(s);
    var t := Tally(d, s);
    SameMultisetMembers(sorted, t);
    forall i | 0 <= i < |sorted|
      ensures sorted[i].0 in s && sorted[i].1 == Count(s, sorted[i].0) && sorted[i].1 > 0
    {
      var k :| 0 <= k < |t| && t[k] == sorted[i];
      assert d[k] in s;
    }
  }

  function Elem<T>(p: (T, nat)): T {
    p.0
  }

  /** The tally of distinct elements lists each element once. */
  lemma TallyKeysDistinct<T>(s: seq<T>)
    ensures KeysDistinct(Tally(Distinct(s), s), Elem)
  {
    var d := Distinct(s);
    var t := Tally(d, s);
    forall i, j | 0 <= i < j < |t| ensures Elem(t[i]) != Elem(t[j]) {
      assert t[i].0 == d[i] && t[j].0 == d[j];
    }
  }

  /** `Counter(s).most_common(n)`: the `n` most frequent elements with their
      counts, most frequent first, each element once. */
  function MostCommon<T(==)>(s: seq<T>, n: nat): (r: seq<(T, nat)>)
    ensures |r| <= n
    ensures |r| <= |Distinct(s)|
    ensures forall i :: 0 <= i < |r| ==> r[i].0 in s && r[i].1 == Count(s, r[i].0) && r[i].1 > 0
    ensures forall i, j :: 0 <= i < j < |r| ==> r[i].0 != r[j].0
    ensures SortedDesc(r, CountKey)
  {
    var t := Tally(Distinct(s), s);
    var sorted := SortDesc(t, CountKey);
    TallyEntries(s, sorted);
    SortedTallyDistinct(s);
    TakeElemsDistinct(sorted, n);
    Take(sorted, n)
  }

  /** Sorting the tally keeps each element once. */
  lemma SortedTallyDistinct<T>(s: seq<T>)
    ensures KeysDistinct(SortDesc(Tally(Distinct(s), s), CountKey), Elem)
  {
    var t := Tally(Distinct(s), s);
    TallyKeysDistinct(s);
    PermutationKeysDistinct(t, SortDesc(t, CountKey), Elem);
  }

  /** A prefix of entries with distinct elements has distinct elements. */
  lemma TakeElemsDistinct<T>(sorted: seq<(T, nat)>, n: nat)
    requires KeysDistinct(sorted, Elem)
    ensures forall i, j :: 0 <= i < j < |Take(sorted, n)| ==> Take(sorted, n)[i].0 != Take(sorted, n)[j].0
  {
    var r := Take(sorted, n);
    forall i, j | 0 <= i < j < |r| ensures r[i].0 != r[j].0 {
      assert Elem(sorted[i]) != Elem(sorted[j]);
    }
  }

  /** An element of `s` has its entry in the tally of `s`. */
  lemma TallyHas<T>(s: seq<T>, x: T)
    requires x in s
    ensures (x, Count(s, x)) in multiset(Tally(Distinct(s), s))
  {
    var d := Distinct(s);
    var j :| 0 <= j < |s| && s[j] == x;
    assert x in d;
    var k :| 0 <= k < |d| && d[k] == x;
    assert Tally(d, s)[k] == (x, Count(s, x));
  }

  /** An entry of a list sorted by count is in its first `n` entries, or
      those are `n` entries whose last count is at least the entry's. */
  lemma TakeOrBelow<T>(sorted: seq<(T, nat)>, n: nat, e: (T, nat))
    requires SortedDesc(sorted, CountKey)
    requires e in multiset(sorted)
    ensures var r := Take(sorted, n);
      e in r || (|r| == n && (n > 0 ==> r[n - 1].1 >= e.1))
  {
    var r := Take(sorted, n);
    var p :| 0 <= p < |sorted| && sorted[p] == e;
    if p < n {
      assert r[p] == sorted[p];
    } else if n > 0 {
      assert CountKey(sorted[n - 1]) >= CountKey(sorted[p]);
    }
  }

  /** Nothing left out of `most_common(n)` occurs more often than the
      last entry listed: an element is either listed with its count, or the
      list is full and its last count is at least the element's. */
  lemma MostCommonTop<T>(s: seq<T>, n: nat, x: T)
    requires x in s
    ensures var r := MostCommon(s, n);
      (x, Count(s, x)) in r || (|r| == n && (n > 0 ==> r[n - 1].1 >= Count(s, x)))
  {
    var sorted := SortDesc(Tally(Distinct(s), s), CountKey);
    TallyHas(s, x);
    TakeOrBelow(sorted, n, (x, Count(s, x)));
  }

  /** `num / den if den > 0 else 0` */
  function Ratio(num: nat, den: nat): (r: real)
    ensures r >= 0.0
    ensures den == 0 ==> r == 0.0
    ensures den > 0 ==> r * (den as real) == num as real
    ensures num <= den ==> r <= 1.0
    ensures den > 0 ==> (r == 1.0 <==> num == den)
  {
    if den > 0 then
      var r := num as real / den as real;
      assert r * (den as real) == num as real;
      r
    else 0.0
  }

  /** Sum of a sequence of reals. */
  function Sum(xs: seq<real>): real
    decreases |xs|
  {
    if xs == [] then 0.0 else xs[0] + Sum(xs[1..])
  }

  /** Arithmetic mean (`np.mean`) of a non-empty sequence. */
  function Mean(xs: seq<real>): real
    requires |xs| > 0
  {
    Sum(xs) / (|xs| as real)
  }

  lemma {:induction false} SumBounds(xs: seq<real>, lo: real, hi: real)
    requires forall i :: 0 <= i < |xs| ==> lo <= xs[i] <= hi
    ensures (|xs| as real) * lo <= Sum(xs) <= (|xs| as real) * hi
    decreases |xs|
  {
    if xs != [] {
      SumBounds(xs[1..], lo, hi);
    }
  }

  /** A mean lies between the smallest and largest possible element. */
  lemma MeanBounds(xs: seq<real>, lo: real, hi: real)
    requires |xs| > 0
    requires forall i :: 0 <= i < |xs| ==> lo <= xs[i] <= hi
    ensures lo <= Mean(xs) <= hi
  {
    SumBounds(xs, lo, hi);
    var n := |xs| as real;
    assert n * lo <= Sum(xs) <= n * hi;
    assert Sum(xs) / n >= lo by {
      assert (n * lo) / n == lo;
    }
    assert Sum(xs) / n <= hi by {
      assert (n * hi) / n == hi;
    }
  }

  /** A list without repetitions holds each value at most once. */
  lemma {:induction false} CountNoDup<T>(s: seq<T>, x: T)
    requires NoDup(s)
    ensures Count(s, x) == if x in s then 1 else 0
    decreases |s|
  {
    if s != [] {
      assert NoDup(s[1..]);
      CountNoDup(s[1..], x);
      if s[0] == x {
        assert x !in s[1..];
      }
    }
  }

  /** Two lists without repetitions and without a common element
      concatenate to a list without repetitions. */
  lemma NoDupConcat<T>(a: seq<T>, b: seq<T>)
    requires NoDup(a) && NoDup(b)
    requires forall i, j :: 0 <= i < |a| && 0 <= j < |b| ==> a[i] != b[j]
    ensures NoDup(a + b)
  {
    forall i, j | 0 <= i < j < |a + b| ensures (a + b)[i] != (a + b)[j] {
      if i < |a| && |a| <= j {
        assert (a + b)[j] == b[j - |a|];
      }
    }
  }

  /** The concatenation of `f(x)` over the elements `x` of `xs`, in order. */
  function Flatten<T, U>(xs: seq<T>, f: T -> seq<U>): seq<U>
    decreases |xs|
  {
    if xs == [] then [] else f(xs[0]) + Flatten(xs[1..], f)
  }

  /** A value is in the concatenation exactly when it is in some part. */
  lemma {:induction false} FlattenMembers<T, U>(xs: seq<T>, f: T -> seq<U>)
    ensures forall u :: u in Flatten(xs, f) <==> exists i :: 0 <= i < |xs| && u in f(xs[i])
    decreases |xs|
  {
    if xs != [] {
      FlattenMembers(xs[1..], f);
      forall u ensures u in Flatten(xs, f) <==> exists i :: 0 <= i < |xs| && u in f(xs[i]) {
        if u in Flatten(xs, f) && u !in f(xs[0]) {
          assert u in Flatten(xs[1..], f);
          var i :| 0 <= i < |xs[1..]| && u in f(xs[1..][i]);
          assert xs[1..][i] == xs[i + 1];
        }
        if exists i :: 0 <= i < |xs| && u in f(xs[i]) {
          var i :| 0 <= i < |xs| && u in f(xs[i]);
          if i > 0 {
            assert xs[1..][i - 1] == xs[i];
          }
        }
      }
    }
  }

  /** When no part repeats a value, the value's count in the concatenation
      is the number of parts holding it. */
  lemma {:induction false} FlattenCount<T, U>(xs: seq<T>, f: T -> seq<U>, y: U, p: T -> bool)
    requires forall x :: p(x) <==> y in f(x)
    requires forall i :: 0 <= i < |xs| ==> NoDup(f(xs[i]))
    ensures Count(Flatten(xs, f), y) == |Filter(xs, p)|
    decreases |xs|
  {
    if xs != [] {
      assert forall i :: 0 <= i < |xs[1..]| ==> xs[1..][i] == xs[i + 1];
      FlattenCount(xs[1..], f, y, p);
      CountConcat(f(xs[0]), Flatten(xs[1..], f), y);
      CountNoDup(f(xs[0]), y);
    }
  }

  /** No two elements of `s` share a key. */
  predicate KeysDistinct<T, K(==)>(s: seq<T>, key: T -> K) {
    forall i, j :: 0 <= i < j < |s| ==> key(s[i]) != key(s[j])
  }

  lemma {:induction false} NoDupMultiset<T>(s: seq<T>, x: T)
    requires NoDup(s)
    ensures multiset(s)[x] <= 1
    decreases |s|
  {
    if s != [] {
      assert s == [s[0]] + s[1..];
      assert NoDup(s[1..]);
      NoDupMultiset(s[1..], x);
      if s[0] == x {
        assert x !in s[1..];
      }
    }
  }

  lemma RepeatedMultiset<T>(s: seq<T>, i: nat, j: nat)
    requires i < j < |s| && s[i] == s[j]
    ensures multiset(s)[s[i]] >= 2
  {
    assert s == s[..j] + s[j..];
    assert s[i] in s[..j];
    assert s[j] in s[j..];
  }

  /** Reordering keeps keys distinct. */
  lemma PermutationKeysDistinct<T, K>(a: seq<T>, b: seq<T>, key: T -> K)
    requires multiset(a) == multiset(b)
    requires KeysDistinct(a, key)
    ensures KeysDistinct(b, key)
  {
    forall i, j | 0 <= i < j < |b| ensures key(b[i]) != key(b[j]) {
      if key(b[i]) == key(b[j]) {
        SameMultisetMembers(b, a);
        if b[i] == b[j] {
          RepeatedMultiset(b, i, j);
          assert NoDup(a);
          NoDupMultiset(a, b[i]);
        }
      }
    }
  }

  function Min(a: real, b: real): (r: real)
    ensures r <= a && r <= b
    ensures r == a || r == b
  {
    if a <= b then a else b
  }

  function Max(a: real, b: real): (r: real)
    ensures r >= a && r >= b
    ensures r == a || r == b
  {
    if a >= b then a else b
  }

  function Abs(x: real): (r: real)
    ensures r >= 0.0
    ensures r == x || r == -x
  {
    if x >= 0.0 then x else -x
  }

  /** Position of the first element with key `k`, or `|u|` when none has it. */
  function IndexOfKey<T, K(==)>(u: seq<T>, key: T -> K, k: K): (i: nat)
    ensures i <= |u|
    ensures i < |u| ==> key(u[i]) == k
    ensures forall j :: 0 <= j < i ==> key(u[j]) != k
    decreases |u|
  {
    if u == [] then 0
    else if key(u[0]) == k then 0
    else 1 + IndexOfKey(u[1..], key, k)
  }

  /** In a sequence with distinct keys, the key of position `i` is first
      found at `i`. */
  lemma IndexOfKeyAt<T, K>(u: seq<T>, key: T -> K, i: nat)
    requires KeysDistinct(u, key) && i < |u|
    ensures IndexOfKey(u, key, key(u[i])) == i
  {
  }

  /** The keys of the entries of `s`. */
  function Keys<T, K>(s: seq<T>, key: T -> K): set<K> {
    set i | 0 <= i < |s| :: key(s[i])
  }

  /** Entries with distinct keys have as many keys as entries. */
  lemma {:induction false} KeysCard<T, K>(s: seq<T>, key: T -> K)
    requires KeysDistinct(s, key)
    ensures |Keys(s, key)| == |s|
    decreases |s|
  {
    if s != [] {
      var t := s[1..];
      KeysCard(t, key);
      assert Keys(s, key) == {key(s[0])} + Keys(t, key) by {
        forall k | k in Keys(s, key) ensures k in {key(s[0])} + Keys(t, key) {
          var i :| 0 <= i < |s| && key(s[i]) == k;
          if i > 0 {
            assert key(t[i - 1]) == k;
          }
        }
        forall k | k in Keys(t, key) ensures k in Keys(s, key) {
          var i :| 0 <= i < |t| && key(t[i]) == k;
          assert key(s[i + 1]) == k;
        }
      }
      forall i | 0 <= i < |t| ensures key(t[i]) != key(s[0]) {
        assert t[i] == s[i + 1];
      }
    }
  }

  /** The entry `d` holds for key `k`, if any. */
  predicate HasKey<T, K(==)>(d: seq<T>, key: T -> K, k: K) {
    IndexOfKey(d, key, k) < |d|
  }

  /** `d` holds an entry for `x`'s key scoring at least as high as `x`. */
  predicate Dominates<T, K(==)>(d: seq<T>, key: T -> K, score: T -> real, x: T) {
    HasKey(d, key, key(x)) && score(d[IndexOfKey(d, key, key(x))]) >= score(x)
  }

  /** `d[key(x)] = x` on an insertion-ordered dictionary held as a sequence,
      done only when the key is new or `x` scores strictly higher than the
      entry it replaces. */
  function Upsert<T, K(==)>(u: seq<T>, x: T, key: T -> K, score: T -> real): (r: seq<T>)
    requires KeysDistinct(u, key)
    ensures KeysDistinct(r, key)
    ensures |u| <= |r| <= |u| + 1
    ensures forall i :: 0 <= i < |r| ==> r[i] in u || r[i] == x
    ensures Dominates(r, key, score, x)
    ensures forall j :: 0 <= j < |u| ==> Dominates(r, key, score, u[j])
    ensures HasKey(u, key, key(x)) && score(x) <= score(u[IndexOfKey(u, key, key(x))]) ==> r == u
    ensures forall i :: 0 <= i < |u| && key(u[i]) != key(x) ==> r[i] == u[i]
  {
    var k := IndexOfKey(u, key, key(x));
    if k < |u| then
      if score(x) > score(u[k]) then
        ReplaceDominates(u, k, x, key, score);
        u[k := x]
      else
        SelfDominates(u, key, score);
        u
    else
      AppendDominates(u, x, key, score);
      u + [x]
  }

  /** Every entry of a dictionary with distinct keys is its key's entry. */
  lemma SelfDominates<T, K>(u: seq<T>, key: T -> K, score: T -> real)
    requires KeysDistinct(u, key)
    ensures forall j :: 0 <= j < |u| ==> Dominates(u, key, score, u[j])
  {
    forall j | 0 <= j < |u| ensures Dominates(u, key, score, u[j]) {
      IndexOfKeyAt(u, key, j);
    }
  }

  /** Replacing an entry by a higher-scoring one with the same key. */
  lemma ReplaceDominates<T, K>(u: seq<T>, k: nat, x: T, key: T -> K, score: T -> real)
    requires KeysDistinct(u, key) && k < |u| && key(u[k]) == key(x) && score(x) > score(u[k])
    ensures KeysDistinct(u[k := x], key)
    ensures Dominates(u[k := x], key, score, x)
    ensures forall j :: 0 <= j < |u| ==> Dominates(u[k := x], key, score, u[j])
  {
    var r := u[k := x];
    assert forall i :: 0 <= i < |r| ==> key(r[i]) == key(u[i]);
    forall j | 0 <= j < |u| ensures Dominates(r, key, score, u[j]) {
      IndexOfKeyAt(r, key, j);
    }
    IndexOfKeyAt(r, key, k);
  }

  /** Appending an entry under a new key. */
  lemma AppendDominates<T, K>(u: seq<T>, x: T, key: T -> K, score: T -> real)
    requires KeysDistinct(u, key) && !HasKey(u, key, key(x))
    ensures KeysDistinct(u + [x], key)
    ensures Dominates(u + [x], key, score, x)
    ensures forall j :: 0 <= j < |u| ==> Dominates(u + [x], key, score, u[j])
  {
    var r := u + [x];
    assert forall j :: 0 <= j < |u| ==> r[j] == u[j];
    forall j | 0 <= j < |u| ensures Dominates(r, key, score, u[j]) {
      IndexOfKeyAt(r, key, j);
    }
    IndexOfKeyAt(r, key, |u|);
  }

  /** Upserting every element in order: one entry per key, in order of the
      key's first appearance, holding the first element with the highest
      score for that key. */
  function UniqueByKey<T, K(==)>(s: seq<T>, key: T -> K, score: T -> real): (r: seq<T>)
    ensures KeysDistinct(r, key)
    ensures |r| <= |s|
    ensures forall i :: 0 <= i < |r| ==> r[i] in s
    ensures forall j :: 0 <= j < |s| ==> Dominates(r, key, score, s[j])
    decreases |s|
  {
    if s == [] then []
    else
      var n := |s| - 1;
      var u := UniqueByKey(s[..n], key, score);
      var r := Upsert(u, s[n], key, score);
      UniqueByKeyStep(s, s[..n], u, r, key, score);
      r
  }

  /** Upserting the last element into the dictionary of the others. */
  lemma UniqueByKeyStep<T, K>(s: seq<T>, init: seq<T>, u: seq<T>, r: seq<T>, key: T -> K, score: T -> real)
    requires s != [] && init == s[..|s| - 1] && KeysDistinct(u, key)
    requires forall i :: 0 <= i < |u| ==> u[i] in init
    requires forall j :: 0 <= j < |init| ==> Dominates(u, key, score, init[j])
    requires r == Upsert(u, s[|s| - 1], key, score)
    ensures forall i :: 0 <= i < |r| ==> r[i] in s
    ensures forall j :: 0 <= j < |s| ==> Dominates(r, key, score, s[j])
  {
    UpsertMembers(s, init, u, r, key, score);
    UpsertDominates(s, init, u, r, key, score);
  }

  lemma UpsertMembers<T, K>(s: seq<T>, init: seq<T>, u: seq<T>, r: seq<T>, key: T -> K, score: T -> real)
    requires s != [] && init == s[..|s| - 1] && KeysDistinct(u, key)
    requires forall i :: 0 <= i < |u| ==> u[i] in init
    requires r == Upsert(u, s[|s| - 1], key, score)
    ensures forall i :: 0 <= i < |r| ==> r[i] in s
  {
    var n := |s| - 1;
    forall i | 0 <= i < |r| ensures r[i] in s {
      if r[i] != s[n] {
        var k :| 0 <= k < |u| && u[k] == r[i];
        var m :| 0 <= m < n && init[m] == r[i];
        assert s[m] == r[i];
      }
    }
  }

  lemma UpsertDominates<T, K>(s: seq<T>, init: seq<T>, u: seq<T>, r: seq<T>, key: T -> K, score: T -> real)
    requires s != [] && init == s[..|s| - 1] && KeysDistinct(u, key)
    requires forall j :: 0 <= j < |init| ==> Dominates(u, key, score, init[j])
    requires r == Upsert(u, s[|s| - 1], key, score)
    ensures forall j :: 0 <= j < |s| ==> Dominates(r, key, score, s[j])
  {
    var n := |s| - 1;
    forall j | 0 <= j < n ensures Dominates(r, key, score, s[j]) {
      assert init[j] == s[j];
      DominatesCarried(u, r, key, score, s[j]);
    }
  }

  /** An entry that dominates `t` in `u` is itself dominated in `r`. */
  lemma DominatesCarried<T, K>(u: seq<T>, r: seq<T>, key: T -> K, score: T -> real, t: T)
    requires KeysDistinct(u, key) && Dominates(u, key, score, t)
    requires forall j :: 0 <= j < |u| ==> Dominates(r, key, score, u[j])
    ensures Dominates(r, key, score, t)
  {
    var iu := IndexOfKey(u, key, key(t));
    assert Dominates(r, key, score, u[iu]);
  }

  /** The one-entry-per-key dictionary of `s`, sorted by score, highest
      first (`sorted(d.values(), key=score, reverse=True)`). */
  function RankUnique<T(==), K(==)>(s: seq<T>, key: T -> K, score: T -> real): (r: seq<T>)
    ensures KeysDistinct(r, key)
    ensures SortedDesc(r, score)
    ensures |r| <= |s|
    ensures forall i :: 0 <= i < |r| ==> r[i] in s
    ensures forall j :: 0 <= j < |s| ==> Dominates(r, key, score, s[j])
  {
    var u := UniqueByKey(s, key, score);
    var r := SortDesc(u, score);
    PermutationKeysDistinct(u, r, key);
    SameMultisetMembers(r, u);
    forall j | 0 <= j < |s| ensures Dominates(r, key, score, s[j]) {
      KeyKeptByPermutation(u, r, key, score, s[j]);
    }
    r
  }

  /** Reordering a dictionary with distinct keys keeps every key's entry. */
  lemma KeyKeptByPermutation<T, K>(u: seq<T>, r: seq<T>, key: T -> K, score: T -> real, t: T)
    requires multiset(r) == multiset(u) && KeysDistinct(r, key)
    requires Dominates(u, key, score, t)
    ensures Dominates(r, key, score, t)
  {
    var iu := IndexOfKey(u, key, key(t));
    assert u[iu] in multiset(r);
    var k :| 0 <= k < |r| && r[k] == u[iu];
    IndexOfKeyAt(r, key, k);
  }
}

=== FILE: text.dfy ===
/** Python string primitives the analyzer relies on: character classes,
    `str.lower`/`str.upper`, `in` on strings, `str.split()` with no
    argument, `str.strip()`, `sep.join(...)`, `str.replace(old, '')` and the
    two regular-expression substitutions used to clean company names. */
module Text {

  /** Python's `str.isspace()` (the characters `str.split()` and
      `str.strip()` treat as whitespace, and that `\s` matches). */
  predicate IsSpace(c: char) {
    c == ' ' || ('\t' <= c <= '\r') || ('\U{1C}' <= c <= '\U{1F}')
    || c == '\U{85}' || c == '\U{A0}' || c == '\U{1680}'
    || ('\U{2000}' <= c <= '\U{200A}') || c == '\U{2028}' || c == '\U{2029}'
    || c == '\U{202F}' || c == '\U{205F}' || c == '\U{3000}'
  }

  /** `\d`, restricted to ASCII digits. */
  predicate IsDigit(c: char) {
    '0' <= c <= '9'
  }

  predicate IsUpper(c: char) {
    'A' <= c <= 'Z'
  }

  /** `\w`, restricted to ASCII letters, digits and underscore. */
  predicate IsWordChar(c: char) {
    ('a' <= c <= 'z') || IsUpper(c) || IsDigit(c) || c == '_'
  }

  function Lower(c: char): (d: char)
    ensures !IsUpper(d)
    ensures IsSpace(d) <==> IsSpace(c)
    ensures IsWordChar(d) <==> IsWordChar(c)
    ensures !IsUpper(c) ==> d == c
  {
    if IsUpper(c) then (c as int + 32) as char else c
  }

  function Upper(c: char): (d: char)
    ensures !('a' <= d <= 'z')
    ensures !('a' <= c <= 'z') ==> d == c
  {
    if 'a' <= c <= 'z' then (c as int - 32) as char else c
  }

  /** `s.lower()` */
  function LowerStr(s: string): (r: string)
    ensures |r| == |s|
    ensures forall i :: 0 <= i < |s| ==> r[i] == Lower(s[i])
  {
    seq(|s|, i requires 0 <= i < |s| => Lower(s[i]))
  }

  lemma LowerStrIdempotent(s: string)
    ensures LowerStr(LowerStr(s)) == LowerStr(s)
  {
  }

  /** A string without upper-case letters is its own lower-case form. */
  lemma LowerOfLower(t: string)
    requires forall i :: 0 <= i < |t| ==> !IsUpper(t[i])
    ensures LowerStr(t) == t
  {
  }

  predicate AllSpace(s: string) {
    forall i :: 0 <= i < |s| ==> IsSpace(s[i])
  }

  predicate NoSpace(s: string) {
    forall i :: 0 <= i < |s| ==> !IsSpace(s[i])
  }

  predicate StartsWith(s: string, p: string) {
    |p| <= |s| && s[..|p|] == p
  }

  /** In `a + p + b`, where `a` does not hold `p`'s first character, the
      first place `p` starts is right after `a`. */
  lemma FirstStartAfter(a: string, p: string, b: string)
    requires p != [] && p[0] !in a
    ensures StartsWith((a + p + b)[|a|..], p)
    ensures forall j :: 0 <= j < |a| ==> !StartsWith((a + p + b)[j..], p)
  {
    var s := a + p + b;
    assert s[|a|..][..|p|] == p;
    forall j | 0 <= j < |a|
      ensures !StartsWith(s[j..], p)
    {
      assert s[j..][0] == a[j];
    }
  }

  /** `p` starts at `i` when its characters are found one by one there. */
  lemma StartsWithAt(s: string, i: nat, p: string)
    requires i + |p| <= |s|
    requires forall k :: 0 <= k < |p| ==> s[i + k] == p[k]
    ensures StartsWith(s[i..], p)
  {
    assert s[i..][..|p|] == p;
  }

  /** Python's `p in s` for strings. */
  predicate Contains(s: string, p: string)
    decreases |s|
  {
    StartsWith(s, p) || (s != [] && Contains(s[1..], p))
  }

  /** A piece of a whitespace-free string is whitespace-free. */
  lemma {:induction false} ContainsNoSpace(w: string, v: string)
    requires Contains(w, v)
    requires NoSpace(w)
    ensures NoSpace(v)
    decreases |w|
  {
    if !StartsWith(w, v) {
      ContainsNoSpace(w[1..], v);
    } else {
      forall i | 0 <= i < |v| ensures !IsSpace(v[i]) {
        assert v[i] == w[i];
      }
    }
  }

  lemma {:induction false} ContainsLength(s: string, p: string)
    requires Contains(s, p)
    ensures |p| <= |s|
    decreases |s|
  {
    if !StartsWith(s, p) {
      ContainsLength(s[1..], p);
    }
  }

  /** Number of whitespace characters at the start of `s`. */
  function LeadingSpaces(s: string): (n: nat)
    ensures n <= |s|
    ensures forall i :: 0 <= i < n ==> IsSpace(s[i])
    ensures n < |s| ==> !IsSpace(s[n])
    decreases |s|
  {
    if s != [] && IsSpace(s[0]) then 1 + LeadingSpaces(s[1..]) else 0
  }

  /** Number of whitespace characters at the end of `s`. */
  function TrailingSpaces(s: string): (n: nat)
    ensures n <= |s|
    ensures forall i :: |s| - n <= i < |s| ==> IsSpace(s[i])
    ensures n < |s| ==> !IsSpace(s[|s| - n - 1])
    decreases |s|
  {
    if s != [] && IsSpace(s[|s| - 1]) then 1 + TrailingSpaces(s[..|s| - 1]) else 0
  }

  function TrimLeft(s: string): (r: string)
    ensures r == [] || !IsSpace(r[0])
    ensures r == [] <==> AllSpace(s)
  {
    s[LeadingSpaces(s)..]
  }

  /** `s.strip()` */
  function Strip(s: string): (r: string)
    ensures r == [] || (!IsSpace(r[0]) && !IsSpace(r[|r| - 1]))
    ensures r == [] <==> AllSpace(s)
    ensures LeadingSpaces(s) + |r| <= |s|
    ensures r == s[LeadingSpaces(s)..LeadingSpaces(s) + |r|]
  {
    var t := TrimLeft(s);
    var r := t[..|t| - TrailingSpaces(t)];
    assert t != [] ==> |r| > 0;
    r
  }

  /** Number of non-whitespace characters at the start of `s`. */
  function WordLen(s: string): (n: nat)
    ensures n <= |s|
    ensures forall i :: 0 <= i < n ==> !IsSpace(s[i])
    ensures n < |s| ==> IsSpace(s[n])
    decreases |s|
  {
    if s != [] && !IsSpace(s[0]) then 1 + WordLen(s[1..]) else 0
  }

  /** A non-empty run of non-whitespace characters. */
  predicate IsWord(w: string) {
    w != [] && NoSpace(w)
  }

  /** `s.split()`: the maximal runs of non-whitespace characters. */
  function Split(s: string): (r: seq<string>)
    ensures forall i :: 0 <= i < |r| ==> IsWord(r[i])
    ensures r == [] <==> AllSpace(s)
    decreases |s|
  {
    var t := TrimLeft(s);
    if t == [] then []
    else
      var n := WordLen(t);
      var rest := Split(t[n..]);
      WordsCons(t[..n], rest);
      [t[..n]] + rest
  }

  /** `s` holds no upper-case letter. */
  predicate NoUpper(s: string) {
    forall i :: 0 <= i < |s| ==> !IsUpper(s[i])
  }

  /** The words of a string without upper-case letters have none either. */
  lemma {:induction false} SplitNoUpper(s: string)
    requires NoUpper(s)
    ensures forall k :: 0 <= k < |Split(s)| ==> NoUpper(Split(s)[k])
    decreases |s|
  {
    var t := TrimLeft(s);
    if t != [] {
      var n := WordLen(t);
      var u := t[n..];
      assert NoUpper(t) by {
        forall i | 0 <= i < |t| ensures !IsUpper(t[i]) {
          assert t[i] == s[LeadingSpaces(s) + i];
        }
      }
      SplitNoUpper(u);
      assert Split(s) == [t[..n]] + Split(u) by {
        SplitTrimLeft(s);
        SplitFromWord(t);
      }
      NoUpperCons(t, n, Split(u));
    }
  }

  lemma NoUpperCons(t: string, n: nat, rest: seq<string>)
    requires NoUpper(t) && n <= |t|
    requires forall k :: 0 <= k < |rest| ==> NoUpper(rest[k])
    ensures forall k :: 0 <= k < |[t[..n]] + rest| ==> NoUpper(([t[..n]] + rest)[k])
  {
    var r := [t[..n]] + rest;
    forall k | 0 <= k < |r| ensures NoUpper(r[k]) {
      if k > 0 {
        assert r[k] == rest[k - 1];
      } else {
        assert forall i :: 0 <= i < n ==> t[..n][i] == t[i];
      }
    }
  }

  lemma WordsCons(w: string, rest: seq<string>)
    requires IsWord(w)
    requires forall i :: 0 <= i < |rest| ==> IsWord(rest[i])
    ensures forall i :: 0 <= i < |[w] + rest| ==> IsWord(([w] + rest)[i])
  {
    var r := [w] + rest;
    forall i | 0 <= i < |r| ensures IsWord(r[i]) {
      if i > 0 {
        assert r[i] == rest[i - 1];
      }
    }
  }

  /** `sep.join(parts)` */
  function Join(parts: seq<string>, sep: string): (r: string)
    decreases |parts|
  {
    if parts == [] then []
    else if |parts| == 1 then parts[0]
    else parts[0] + sep + Join(parts[1..], sep)
  }

  /** Sum of the lengths of the parts. */
  function TotalLength(parts: seq<string>): nat
    decreases |parts|
  {
    if parts == [] then 0 else |parts[0]| + TotalLength(parts[1..])
  }

  /** A join holds every part and a separator between each two. */
  lemma {:induction false} JoinLength(parts: seq<string>, sep: string)
    requires parts != []
    ensures |Join(parts, sep)| == TotalLength(parts) + (|parts| - 1) * |sep|
    decreases |parts|
  {
    if |parts| > 1 {
      JoinLength(parts[1..], sep);
    }
  }

  /** A join of non-empty parts starts with the first part's first
      character and ends with the last part's last character. */
  lemma {:induction false} JoinEnds(parts: seq<string>, sep: string)
    requires parts != [] && forall i :: 0 <= i < |parts| ==> parts[i] != []
    ensures var j := Join(parts, sep);
      j != [] && j[0] == parts[0][0] && j[|j| - 1] == parts[|parts| - 1][|parts[|parts| - 1]| - 1]
    decreases |parts|
  {
    if |parts| > 1 {
      var rest := parts[1..];
      assert rest[|rest| - 1] == parts[|parts| - 1];
      assert forall i :: 0 <= i < |rest| ==> rest[i] == parts[i + 1];
      JoinEnds(rest, sep);
      var j := Join(parts, sep);
      var k := Join(rest, sep);
      assert j == parts[0] + sep + k;
      assert j[|j| - 1] == k[|k| - 1];
    }
  }

  /** Joining parts that are free of surrounding whitespace leaves nothing
      to strip. */
  lemma StripJoin(parts: seq<string>, sep: string)
    requires forall i :: 0 <= i < |parts| ==>
      parts[i] != [] && !IsSpace(parts[i][0]) && !IsSpace(parts[i][|parts[i]| - 1])
    ensures Strip(Join(parts, sep)) == Join(parts, sep)
  {
    if parts != [] {
      JoinEnds(parts, sep);
    }
    StripTrimmed(Join(parts, sep));
  }

  /** Stripping leaves a string without surrounding whitespace as it is. */
  lemma StripTrimmed(s: string)
    requires s == [] || (!IsSpace(s[0]) && !IsSpace(s[|s| - 1]))
    ensures Strip(s) == s
  {
    assert LeadingSpaces(s) == 0;
    assert TrailingSpaces(s) == 0;
  }

  lemma AllSpaceConcat(a: string, b: string)
    ensures AllSpace(a + b) <==> AllSpace(a) && AllSpace(b)
  {
    if AllSpace(a + b) {
      forall i | 0 <= i < |a| ensures IsSpace(a[i]) {
        assert a[i] == (a + b)[i];
      }
      forall i | 0 <= i < |b| ensures IsSpace(b[i]) {
        assert b[i] == (a + b)[|a| + i];
      }
    }
  }

  /** A space-joined text is blank exactly when every part is blank. */
  lemma {:induction false} JoinAllSpace(parts: seq<string>)
    ensures AllSpace(Join(parts, " ")) <==> forall i :: 0 <= i < |parts| ==> AllSpace(parts[i])
    decreases |parts|
  {
    if |parts| > 1 {
      JoinAllSpace(parts[1..]);
      AllSpaceConcat(parts[0] + " ", Join(parts[1..], " "));
      AllSpaceConcat(parts[0], " ");
      assert forall i :: 1 <= i < |parts| ==> parts[i] == parts[1..][i - 1];
    }
  }

  /** Python's `s.replace(pat, '')`: removes the non-overlapping occurrences
      of `pat`, scanning from the left. */
  function RemoveAll(s: string, pat: string): (r: string)
    requires pat != []
    ensures |r| <= |s|
    ensures forall i :: 0 <= i < |r| ==> r[i] in s
    ensures !Contains(s, pat) ==> r == s
    ensures Contains(s, pat) ==> |r| <= |s| - |pat|
    decreases |s|
  {
    if |s| < |pat| then
      assert !Contains(s, pat) by {
        if Contains(s, pat) {
          ContainsLength(s, pat);
        }
      }
      s
    else if StartsWith(s, pat) then RemoveAll(s[|pat|..], pat)
    else [s[0]] + RemoveAll(s[1..], pat)
  }

  lemma PrependFront(x: string, c: char, u: string, a: string, b: string, w: string)
    requires x == [c] + u && u == a + b && w == [c] + a
    ensures x == w + b
  {
  }

  /** Where `pat` does not start, the first character is kept. */
  lemma RemoveAllKeeps(s: string, pat: string)
    requires pat != [] && |pat| <= |s| && !StartsWith(s, pat)
    ensures RemoveAll(s, pat) == [s[0]] + RemoveAll(s[1..], pat)
  {
  }

  /** Where `pat` starts, it is deleted. */
  lemma RemoveAllDrops(s: string, pat: string)
    requires pat != [] && StartsWith(s, pat)
    ensures RemoveAll(s, pat) == RemoveAll(s[|pat|..], pat)
  {
  }

  lemma NoStartShift(p: string, q: string, pat: string)
    requires p != []
    requires forall j :: 0 <= j < |p| ==> !StartsWith((p + q)[j..], pat)
    ensures forall j :: 0 <= j < |p[1..]| ==> !StartsWith((p[1..] + q)[j..], pat)
  {
    forall j | 0 <= j < |p[1..]|
      ensures !StartsWith((p[1..] + q)[j..], pat)
    {
      assert (p[1..] + q)[j..] == (p + q)[j + 1..];
    }
  }

  /** Text in which `pat` does not start is kept as it is. */
  lemma {:induction false} RemoveAllKeepsPrefix(p: string, q: string, pat: string)
    requires pat != []
    requires forall j :: 0 <= j < |p| ==> !StartsWith((p + q)[j..], pat)
    ensures RemoveAll(p + q, pat) == p + RemoveAll(q, pat)
    decreases |p|
  {
    var s := p + q;
    if p == [] {
      assert s == q;
    } else if |s| < |pat| {
      assert RemoveAll(q, pat) == q;
    } else {
      assert s[0..] == s;
      var s' := p[1..] + q;
      var rest := RemoveAll(q, pat);
      calc {
        RemoveAll(s, pat);
        { RemoveAllKeeps(s, pat); }
        [s[0]] + RemoveAll(s[1..], pat);
        { assert s[1..] == s'; }
        [p[0]] + RemoveAll(s', pat);
        { NoStartShift(p, q, pat); RemoveAllKeepsPrefix(p[1..], q, pat); }
        [p[0]] + (p[1..] + rest);
        { assert [p[0]] + p[1..] == p;
          PrependFront([p[0]] + (p[1..] + rest), p[0], p[1..] + rest, p[1..], rest, p); }
        p + rest;
      }
    }
  }

  lemma SliceSplit(s: string, i: nat)
    requires i <= |s|
    ensures s[..i] + s[i..] == s
  {
  }

  /** The first occurrence of `pat`, at `i`, is deleted: the text before
      it is kept, and the search resumes after it. */
  lemma RemoveAllFirst(s: string, pat: string, i: nat)
    requires pat != [] && i + |pat| <= |s|
    requires StartsWith(s[i..], pat)
    requires forall j :: 0 <= j < i ==> !StartsWith(s[j..], pat)
    ensures RemoveAll(s, pat) == s[..i] + RemoveAll(s[i + |pat|..], pat)
  {
    var p, q := s[..i], s[i..];
    SliceSplit(s, i);
    calc {
      RemoveAll(s, pat);
      { RemoveAllKeepsPrefix(p, q, pat); }
      p + RemoveAll(q, pat);
      { RemoveAllDrops(q, pat); }
      p + RemoveAll(q[|pat|..], pat);
      { assert q[|pat|..] == s[i + |pat|..]; }
      s[..i] + RemoveAll(s[i + |pat|..], pat);
    }
  }

  /** A string without some character of `p` does not contain `p`. */
  lemma {:induction false} CharAbsent(s: string, p: string, j: nat)
    requires j < |p| && p[j] !in s
    ensures !Contains(s, p)
    decreases |s|
  {
    if |p| <= |s| {
      assert s[..|p|][j] == s[j];
    }
    if s != [] {
      CharAbsent(s[1..], p, j);
    }
  }

  /** A string in which `p[0]` is never directly followed by `p[1]` does
      not contain `p`. */
  lemma {:induction false} PairAbsent(s: string, p: string)
    requires |p| >= 2
    requires forall i :: 0 <= i && i + 1 < |s| && s[i] == p[0] ==> s[i + 1] != p[1]
    ensures !Contains(s, p)
    decreases |s|
  {
    if |p| <= |s| {
      assert s[..|p|][0] == s[0] && s[..|p|][1] == s[1];
    }
    if s != [] {
      forall i | 0 <= i && i + 1 < |s[1..]| && s[1..][i] == p[0]
        ensures s[1..][i + 1] != p[1]
      {
        assert s[1..][i] == s[i + 1] && s[1..][i + 1] == s[i + 2];
      }
      PairAbsent(s[1..], p);
    }
  }

  /** `re.sub(r'[^\w\s]', ' ', s)` */
  function PunctToSpace(s: string): (r: string)
    ensures |r| == |s|
    ensures forall i :: 0 <= i < |r| ==> IsWordChar(r[i]) || IsSpace(r[i])
    ensures forall i :: 0 <= i < |r| ==> r[i] == s[i] || r[i] == ' '
    ensures forall i :: 0 <= i < |s| && (IsWordChar(s[i]) || IsSpace(s[i])) ==> r[i] == s[i]
  {
    seq(|s|, i requires 0 <= i < |s| => if IsWordChar(s[i]) || IsSpace(s[i]) then s[i] else ' ')
  }

  /** `re.sub(r'\s+', ' ', s)`: every maximal run of whitespace becomes one space. */
  function Collapse(s: string): (r: string)
    ensures r == [] <==> s == []
    ensures s != [] ==> (IsSpace(r[0]) <==> IsSpace(s[0]))
    ensures forall i :: 0 <= i < |r| && IsSpace(r[i]) ==> r[i] == ' '
    ensures forall i :: 0 <= i < |r| && !IsSpace(r[i]) ==> r[i] in s
    ensures forall i :: 0 <= i && i + 1 < |r| ==> !(IsSpace(r[i]) && IsSpace(r[i + 1]))
    decreases |s|
  {
    if s == [] then []
    else if IsSpace(s[0]) then
      var t := TrimLeft(s);
      [' '] + Collapse(t)
    else
      [s[0]] + Collapse(s[1..])
  }

  /** A string in the shape `Collapse` followed by `Strip` leaves: no space
      at either end, and every whitespace character a single ' ' between two
      non-whitespace characters. */
  predicate SingleSpaced(s: string) {
    && (s == [] || (!IsSpace(s[0]) && !IsSpace(s[|s| - 1])))
    && (forall i :: 0 <= i < |s| && IsSpace(s[i]) ==> s[i] == ' ')
    && (forall i :: 0 <= i && i + 1 < |s| ==> !(IsSpace(s[i]) && IsSpace(s[i + 1])))
  }

  /** `re.sub(r'\s+', ' ', s).strip()` yields a single-spaced string made of
      the non-whitespace characters of `s` and spaces. */
  lemma CollapseStripSingleSpaced(s: string)
    ensures SingleSpaced(Strip(Collapse(s)))
    ensures forall i :: 0 <= i < |Strip(Collapse(s))| && !IsSpace(Strip(Collapse(s))[i]) ==> Strip(Collapse(s))[i] in s
  {
    var c := Collapse(s);
    var r := Strip(c);
    var k := LeadingSpaces(c);
    assert forall i :: 0 <= i < |r| ==> r[i] == c[k + i];
    forall i | 0 <= i && i + 1 < |r| ensures !(IsSpace(r[i]) && IsSpace(r[i + 1])) {
      assert r[i] == c[k + i] && r[i + 1] == c[k + i + 1];
    }
    forall i | 0 <= i < |r| && IsSpace(r[i]) ensures r[i] == ' ' {
      assert r[i] == c[k + i];
    }
    forall i | 0 <= i < |r| && !IsSpace(r[i]) ensures r[i] in s {
      assert r[i] == c[k + i];
    }
  }

  lemma SplitFromWord(s: string)
    requires s != [] && !IsSpace(s[0])
    ensures Split(s) == [s[..WordLen(s)]] + Split(s[WordLen(s)..])
  {
    assert LeadingSpaces(s) == 0;
    assert TrimLeft(s) == s;
  }

  lemma SplitAfterOneSpace(s: string, n: nat)
    requires n < |s| && IsSpace(s[n])
    requires n + 1 < |s| && !IsSpace(s[n + 1])
    ensures Split(s[n..]) == Split(s[n + 1..])
  {
    var t := s[n..];
    assert t[0] == s[n];
    assert t[1..] == s[n + 1..];
    assert LeadingSpaces(t[1..]) == 0;
    assert LeadingSpaces(t) == 1;
    assert TrimLeft(t) == s[n + 1..];
  }

  lemma SingleSpacedTail(s: string, n: nat)
    requires SingleSpaced(s)
    requires n + 1 < |s| && IsSpace(s[n])
    ensures SingleSpaced(s[n + 1..])
  {
    var u := s[n + 1..];
    assert |u| == |s| - n - 1;
    assert forall i :: 0 <= i < |u| ==> u[i] == s[n + 1 + i];
  }

  lemma JoinCons(w: string, rest: seq<string>, sep: string)
    requires rest != []
    ensures Join([w] + rest, sep) == w + sep + Join(rest, sep)
  {
    assert ([w] + rest)[1..] == rest;
  }

  lemma SplitAround(s: string, n: nat)
    requires n < |s| && s[n] == ' '
    ensures s == s[..n] + " " + s[n + 1..]
  {
    assert s[n..] == " " + s[n + 1..];
    assert s == s[..n] + s[n..];
  }

  /** Splitting a single-spaced string and joining the words with one space
      gives the string back. */
  lemma {:induction false} JoinSplitSingleSpaced(s: string)
    requires SingleSpaced(s)
    ensures Join(Split(s), " ") == s
    decreases |s|
  {
    if s != [] {
      SplitFromWord(s);
      var n := WordLen(s);
      var w := s[..n];
      if n < |s| {
        assert n + 1 < |s| && !IsSpace(s[n + 1]);
        assert s[n] == ' ';
        var u := s[n + 1..];
        SingleSpacedTail(s, n);
        SplitAfterOneSpace(s, n);
        JoinSplitSingleSpaced(u);
        assert Split(u) != [];
        assert Split(s) == [w] + Split(u);
        JoinCons(w, Split(u), " ");
        SplitAround(s, n);
      } else {
        assert s[n..] == [];
        assert s[..n] == s;
      }
    }
  }

  /** Leading whitespace does not change the words. */
  lemma SplitTrimLeft(s: string)
    ensures Split(TrimLeft(s)) == Split(s)
  {
    assert LeadingSpaces(TrimLeft(s)) == 0;
    assert TrimLeft(TrimLeft(s)) == TrimLeft(s);
  }

  lemma SplitSpaceCons(c: char, x: string)
    requires IsSpace(c)
    ensures Split([c] + x) == Split(x)
  {
    assert ([c] + x)[1..] == x;
    assert TrimLeft([c] + x) == TrimLeft(x);
  }

  /** A word followed by nothing or by whitespace ends where the word ends. */
  lemma {:induction false} WordLenAppend(x: string, y: string)
    requires WordLen(x) < |x| || y == [] || IsSpace(y[0])
    ensures WordLen(x + y) == WordLen(x)
    decreases |x|
  {
    if x != [] && !IsSpace(x[0]) {
      assert (x + y)[1..] == x[1..] + y;
      WordLenAppend(x[1..], y);
    } else if x == [] {
      assert x + y == y;
    }
  }

  /** Trailing whitespace does not change the words. */
  lemma {:induction false} SplitAppendSpaces(x: string, y: string)
    requires AllSpace(y)
    ensures Split(x + y) == Split(x)
    decreases |x|
  {
    if x == [] {
      assert x + y == y;
    } else if IsSpace(x[0]) {
      SplitAppendSpaces(x[1..], y);
      SpaceThenAppend(x[0], x[1..], y);
      assert x == [x[0]] + x[1..];
    } else {
      SplitAppendSpaces(x[WordLen(x)..], y);
      WordThenAppend(x, y);
    }
  }

  lemma SpaceThenAppend(c: char, t: string, y: string)
    requires IsSpace(c)
    requires Split(t + y) == Split(t)
    ensures Split([c] + t + y) == Split([c] + t)
  {
    var ty := t + y;
    assert [c] + t + y == [c] + ty;
    calc {
      Split([c] + ty);
      { SplitSpaceCons(c, ty); }
      Split(ty);
      Split(t);
      { SplitSpaceCons(c, t); }
      Split([c] + t);
    }
  }

  lemma WordThenAppend(x: string, y: string)
    requires x != [] && !IsSpace(x[0]) && AllSpace(y)
    requires Split(x[WordLen(x)..] + y) == Split(x[WordLen(x)..])
    ensures Split(x + y) == Split(x)
  {
    var n := WordLen(x);
    var xy := x + y;
    WordLenAppendSpaces(x, y);
    SplitFromWord(x);
    SplitFromWord(xy);
    SliceAppend(x, y, n);
  }

  lemma WordLenAppendSpaces(x: string, y: string)
    requires AllSpace(y)
    ensures WordLen(x + y) == WordLen(x)
  {
    assert y == [] || IsSpace(y[0]);
    WordLenAppend(x, y);
  }

  lemma SliceAppend(x: string, y: string, n: nat)
    requires n <= |x|
    ensures (x + y)[..n] == x[..n]
    ensures (x + y)[n..] == x[n..] + y
  {
  }

  /** `Strip` keeps the words. */
  lemma SplitStrip(s: string)
    ensures Split(Strip(s)) == Split(s)
  {
    var t := TrimLeft(s);
    var r := Strip(s);
    var k := |t| - TrailingSpaces(t);
    assert r == t[..k];
    assert t == r + t[k..];
    SplitAppendSpaces(r, t[k..]);
    SplitTrimLeft(s);
  }

  /** Collapsing a word and what follows it. */
  lemma {:induction false} CollapseWord(s: string)
    requires s != [] && !IsSpace(s[0])
    ensures Collapse(s) == s[..WordLen(s)] + Collapse(s[WordLen(s)..])
    decreases |s|
  {
    var u := s[1..];
    CollapseCons(s);
    if u != [] && !IsSpace(u[0]) {
      var k := WordLen(u);
      assert Collapse(s) == [s[0]] + (u[..k] + Collapse(u[k..])) by {
        CollapseWord(u);
      }
      assert [s[0]] + (u[..k] + Collapse(u[k..])) == ([s[0]] + u[..k]) + Collapse(u[k..]);
      WordStep(s);
    } else {
      assert WordLen(u) == 0;
      assert s[..WordLen(s)] == [s[0]];
      assert s[WordLen(s)..] == u;
    }
  }

  lemma CollapseCons(s: string)
    requires s != [] && !IsSpace(s[0])
    ensures Collapse(s) == [s[0]] + Collapse(s[1..])
  {
  }

  lemma WordStep(s: string)
    requires |s| >= 2 && !IsSpace(s[0]) && !IsSpace(s[1])
    ensures WordLen(s) == 1 + WordLen(s[1..])
    ensures s[..WordLen(s)] == [s[0]] + s[1..][..WordLen(s[1..])]
    ensures s[WordLen(s)..] == s[1..][WordLen(s[1..])..]
  {
  }

  /** A word followed by nothing or by whitespace is the first word. */
  lemma SplitWordThen(w: string, y: string)
    requires IsWord(w) && (y == [] || IsSpace(y[0]))
    ensures Split(w + y) == [w] + Split(y)
  {
    assert WordLen(w) == |w|;
    WordLenAppend(w, y);
    SplitFromWord(w + y);
    assert (w + y)[..|w|] == w;
    assert (w + y)[|w|..] == y;
  }

  /** `re.sub(r'\s+', ' ', s)` keeps the words. */
  lemma {:induction false} SplitCollapse(s: string)
    ensures Split(Collapse(s)) == Split(s)
    decreases |s|
  {
    if s == [] {
    } else if IsSpace(s[0]) {
      var t := TrimLeft(s);
      SplitSpaceCons(' ', Collapse(t));
      SplitCollapse(t);
      SplitTrimLeft(s);
    } else {
      var n := WordLen(s);
      var w := s[..n];
      var c := Collapse(s[n..]);
      CollapseWord(s);
      assert IsWord(w) by {
        forall i | 0 <= i < |w| ensures !IsSpace(w[i]) {
          assert w[i] == s[i];
        }
      }
      SplitWordThen(w, c);
      SplitCollapse(s[n..]);
      SplitFromWord(s);
    }
  }

  /** A pattern that starts nowhere in `s` is not contained in it. */
  lemma {:induction false} NoStartNotContains(s: string, p: string)
    requires forall j :: 0 <= j <= |s| ==> !StartsWith(s[j..], p)
    ensures !Contains(s, p)
    decreases |s|
  {
    assert s[0..] == s;
    if s != [] {
      forall j | 0 <= j <= |s[1..]| ensures !StartsWith(s[1..][j..], p) {
        assert s[1..][j..] == s[j + 1..];
      }
      NoStartNotContains(s[1..], p);
    }
  }

  /** Before `i`, a pattern whose first character is never followed by its
      second does not start. */
  lemma FirstStartOfPair(s: string, p: string, i: nat)
    requires 2 <= |p| && i <= |s|
    requires forall j :: 0 <= j < i && j + 1 < |s| && s[j] == p[0] ==> s[j + 1] != p[1]
    ensures forall j :: 0 <= j < i ==> !StartsWith(s[j..], p)
  {
    forall j | 0 <= j < i ensures !StartsWith(s[j..], p) {
      if |p| <= |s| - j {
        assert s[j..][..|p|][0] == s[j];
        assert s[j..][..|p|][1] == s[j + 1];
      }
    }
  }

  /** Splitting words joined by single spaces gives the words back. */
  lemma {:induction false} SplitJoin(ws: seq<string>)
    requires forall i :: 0 <= i < |ws| ==> IsWord(ws[i])
    ensures Split(Join(ws, " ")) == ws
    decreases |ws|
  {
    if |ws| == 1 {
      SplitWordThen(ws[0], []);
      assert ws[0] + [] == ws[0];
    } else if |ws| > 1 {
      var rest := ws[1..];
      assert forall i :: 0 <= i < |rest| ==> IsWord(rest[i]) by {
        forall i | 0 <= i < |rest| ensures IsWord(rest[i]) {
          assert rest[i] == ws[i + 1];
        }
      }
      SplitJoin(rest);
      SplitJoinCons(ws[0], rest);
      assert [ws[0]] + rest == ws;
    }
  }

  /** One word in front of a join splits off as the first word. */
  lemma SplitJoinCons(w: string, rest: seq<string>)
    requires IsWord(w) && rest != []
    ensures Split(Join([w] + rest, " ")) == [w] + Split(Join(rest, " "))
  {
    var j := Join(rest, " ");
    var x := w + ([' '] + j);
    assert Join([w] + rest, " ") == x by {
      JoinCons(w, rest, " ");
      assert w + " " + j == x;
    }
    assert Split(x) == [w] + Split([' '] + j) by {
      SplitWordThen(w, [' '] + j);
    }
    SplitSpaceCons(' ', j);
  }
}

=== FILE: wrappers.dfy ===
/** Optional values: the model's stand-in for Python's `None` and for
    dictionary keys that may be absent. */
module Wrappers {

  datatype Option<+T> = None | Some(value: T) {

    /** The value when present, `default` otherwise (Python's `d.get(k, default)`). */
    function GetOr(default: T): T {
      match this
      case Some(v) => v
      case None => default
    }
  }

  /** The values of the options that are present, in order. */
  function Somes<T>(xs: seq<Option<T>>): (r: seq<T>)
    ensures |r| <= |xs|
    ensures forall i :: 0 <= i < |r| ==> Some(r[i]) in xs
    ensures forall j :: 0 <= j < |xs| && xs[j].Some? ==> xs[j].value in r
    decreases |xs|
  {
    if xs == [] then []
    else
      var rest := Somes(xs[1..]);
      assert forall i :: 0 <= i < |rest| ==> Some(rest[i]) in xs by {
        forall i | 0 <= i < |rest| ensures Some(rest[i]) in xs {
          var j :| 0 <= j < |xs[1..]| && xs[1..][j] == Some(rest[i]);
          assert xs[j + 1] == Some(rest[i]);
        }
      }
      match xs[0]
      case Some(v) => [v] + rest
      case None => rest
  }
}
